=== FILE: README.md ===
# Tune-image configuration core, in Dafny

This project models the configuration layer of TuneDemo (`config.py`). That layer reads and writes
an engine-controller *tune image*, which is a fixed-size byte array, through a catalogue of typed
fields described by a schema. The model covers:

- **Fixed fields.** `Scalar` is a 16-bit little-endian word. `Select` is a byte holding an index
  into a list of choices. `VarSelect` is a byte holding an index into the registry's variable list.
  `Text` is a NUL-padded byte string of fixed length.
- **Tables.** A table is a 16-bit pointer slot at a fixed offset. It points to a region holding:
  - an interpolation mode byte and two blend-variable bytes;
  - two axis headers, each a bin count, a signed exponent, a variable index and signed 16-bit bins;
  - a row-major grid of bit-packed cells, 8·|encoding| bits wide, two's complement when the
    encoding is negative.
- **The registry `Config`.** Walking the menu files every leaf field under its short name. A later
  field of the same name replaces an earlier one but keeps its position, as Python's dict does.
  - `Decode` reads every catalogued field.
  - `Encode` writes (name, value) pairs into a zeroed image, in order.
  - `GetFreeTableSpace` and `TotalFreeTableSpace` compute the holes between the live table regions
    inside the table area.
  - `AllocateTable` packs a new region and stores it in the first hole large enough for it.

The image is a `seq<byte>`. Every write returns the new image. Every Python exception the code can
raise is a `Fail(error)` of a `Result`. The modules follow the program's layers:

| Module | File | Contents |
|---|---|---|
| `Results` | `results.dfy` | errors, `Option`, `Result` and `list.index` |
| `Arith` | `arith.dfy` | powers of two and div/mod facts |
| `Bytes` | `bytes.dfy` | the `struct` formats 'B', 'b', 'H', 'h', '%dh' and '%ds', and slice assignment |
| `Fields` | `fields.dfy` | `Scalar`, `Select`, `VarSelect`, `Text` |
| `Cells` | `cells.dfy` | the bit-packed cell loops of `Table.Data` and `Table.setData` |
| `Tables` | `tables.dfy` | every `Table` accessor, the region layout, and decoding and writing the grid |
| `Allocator` | `allocator.dfy` | the sort, the sentinels and the gap list of `GetFreeTableSpace` |
| `Dicts` | `dicts.dfy` | the insertion-ordered dict |
| `Registry` | `registry.dfy` | `Config` and the table encode/decode round trip |

Two behaviours of `config.py` are easy to miss. The model keeps both as written:

- **Grid rows.** `TableLen` and `AllocateTable` reserve `max(h, 1)` rows of cells, but
  `decode_data` and `encode` read and write `h or 2` rows. `Tables.DegenerateRowOverrun` shows
  the consequence: with no bins on either axis, the second row starts exactly where the region ends.
- **Long text.** '%ds' packing silently cuts a too-long text value to `length` bytes, and
  `Fields.TextSet` does the same.

## Model

| member | source | states |
|---|---|---|
| Results.IndexOf | config.py:73 | `list.index`: succeeds exactly when the item is listed, and returns the position of its first occurrence; an unlisted item is the ValueError `NotListed` |
| Bytes.PutU8 | config.py:73 | 'B' packing succeeds exactly when the offset is in the image and 0 <= v < 256; it reads back as v, and only that byte changes |
| Bytes.PutU16 | config.py:53 | 'H' packing succeeds exactly when both bytes are in the image and 0 <= v < 65536; it reads back as v, and only those two bytes change |
| Bytes.GetS16RunOfPacked | config.py:360-366 | signed words packed with '%dh' and stored at q read back from q as exactly the packed values |
| Bytes.S16Bytes | config.py:360-366 | '%dh' packing succeeds exactly when every value is a signed 16-bit word; it yields 2 bytes per value, and any failure is a range error |
| Bytes.SliceAssign | config.py:370 | `tune[b:b+n] = ret` over a slice inside the image is an overwrite of exactly those n bytes |
| Fields.ScalarGet | config.py:46-47 | reading a Scalar succeeds exactly when its two bytes are in the image; the value is a 16-bit word |
| Fields.ScalarSet | config.py:49-53 | writing a Scalar succeeds exactly when the slot is in the image and the value is 0..65535; the value reads back, and nothing outside the 2-byte slot changes |
| Fields.ScalarSetOfGet | config.py:46-53 | writing back a Scalar's value leaves the image unchanged |
| Fields.SelectGet | config.py:69-70 | succeeds exactly when the stored index names a choice, and yields that choice |
| Fields.SelectSet | config.py:72-73 | succeeds exactly when the value is a choice whose first position fits a byte; an unlisted value fails with NotListed; the value reads back, and only the slot byte changes |
| Fields.SelectSetOfGet | config.py:69-73 | writing back what was read leaves the image unchanged when the stored index is the choice's first occurrence |
| Fields.VarSelectGet | config.py:88-89 | succeeds exactly when the stored index is inside the variable list, and yields that variable's short name |
| Fields.VarSelectSet | config.py:91-92 | succeeds exactly when the variable is listed at a byte-sized position; an unlisted variable fails with NotListed; it reads back, and only the slot byte changes |
| Fields.UpToNul | config.py:110 | `split('\0')[0]`: the longest NUL-free prefix, which is followed by a NUL unless it is the whole string |
| Fields.Fit | config.py:113 | '%ds' packing yields exactly n bytes: the value's first n bytes, then NUL padding |
| Fields.TextGet | config.py:108-110 | succeeds exactly when the slot is in the image; the text has at most `length` bytes and holds no NUL |
| Fields.TextSet | config.py:112-113 | succeeds exactly when the slot is in the image; it writes the value cut or NUL-padded to `length` bytes, and nothing outside the slot |
| Fields.TextGetOfSet | config.py:108-113 | reading after writing gives the value cut at its first NUL and at `length` bytes, so a NUL-free value that fits comes back unchanged |
| Fields.TextSetOfGet | config.py:108-113 | writing back what was read reproduces the image when everything after the text is NUL padding |
| Cells.Locate | config.py:200-203 | a bit position splits into a byte (`ptr >> 3`) and a bit below 8 (`ptr % 8`) that recombine to the position |
| Cells.ChunksCount | config.py:212-217 | a cell of n bits starting at bit `bit` spans ceil((bit + n) / 8) bytes |
| Cells.ReadLoop | config.py:210-217 | the read loop succeeds exactly when every byte the cell spans is in the image; otherwise it is an IndexError |
| Cells.ReadLoopValue | config.py:210-217 | for any image, the loop assembles the bytes the cell spans, taken as one little-endian number, shifted right by the starting bit |
| Cells.ReadAlignedWord | config.py:206-221 | a byte-aligned unsigned 16-bit cell reads as the little-endian word of its two bytes |
| Cells.Interpret | config.py:218-221 | masking and sign extension yield a value in [0, 2^bits) when unsigned and in [-2^(bits-1), 2^(bits-1)) when signed, congruent to the raw value mod 2^bits |
| Cells.InterpretFixes | config.py:218-221 | a value representable in the encoding is its own masked and sign-extended reading |
| Cells.ReadCell | config.py:206-221 | reading a cell succeeds exactly when it has width 0 or its bytes are in the image |
| Cells.WriteLoop | config.py:230-235 | a successful write loop keeps the image length |
| Cells.FirstChunk | config.py:231 | the first written byte stays below 256 exactly when the value fits in the 8 - bit bits left in the byte |
| Cells.WriteLoopOk | config.py:230-235 | the write loop succeeds exactly when the cell's bytes are in the image and the masked value fits in the first byte's free bits (a larger value makes the byte assignment raise) |
| Cells.WriteLoopFrame | config.py:230-235 | a write touches only the bytes the cell spans |
| Cells.WriteLoopContents | config.py:230-235 | after a write, the first byte keeps its low `bit` bits and holds the value above them, and every later byte of the cell is cleared |
| Cells.ReadLoopZeros | config.py:210-217 | all-zero bytes read as 0 |
| Cells.WriteThenRead | config.py:210-235 | reading back the cell just written returns the stored value |
| Cells.CellRoundTrip | config.py:206-235 | after writing v, reading with the same encoding returns v masked and sign-extended, which is v itself when representable |
| Cells.ReadAgree | config.py:210-221 | a read depends only on the bits of the cell |
| Cells.KeepsBitsBelow | config.py:230-235 | an image agreeing on every byte before bit (q, qbit) agrees on every cell that ends by it |
| Cells.WriteKeepsEarlier | config.py:230-235 | writing a cell leaves every cell that ends before it reading the same |
| Tables.SetTablePtr | config.py:154-155 | succeeds exactly when the slot is in the image and the pointer is 0..65535; the pointer reads back, and only the 2-byte slot changes |
| Tables.TablePtr | config.py:151-152 | the pointer reads exactly when both slot bytes are in the image, and is their little-endian word, below 65536 |
| Tables.TableLen | config.py:157-165 | an absent table measures 0; a failing pointer read fails; a present table measures at least its 12 header bytes (the size itself is stated by Tables.RegionCounts) |
| Tables.AxisNBins | config.py:167-170 | an absent table has 0 bins; a failing pointer read fails; a count is one byte, below 256 |
| Tables.AxisPtr | config.py:172-176 | a failing pointer read fails; an axis header starts at least 4 bytes past the table pointer (the exact place is stated by Tables.RegionCounts) |
| Tables.AxisBins | config.py:178-184 | an absent table has no bins; a failing pointer read fails; a present axis has exactly its bin count of bins, each a signed 16-bit word |
| Tables.AxisExponent | config.py:186-189 | an absent table has exponent 0; a failing pointer read fails; an exponent is a signed byte, in [-128, 128) |
| Tables.Interpolate | config.py:131-134 | an absent table has mode 0; a failing pointer read fails; a mode is one byte, below 256 |
| Tables.DataSizeCovers | config.py:164 | the reserved data bytes hold every reserved cell, and their count is even, as `& -2` makes it |
| Tables.Or1 | config.py:199 | `w or 1` is at least one column, and is the count itself when that is positive (so it is max(w, 1)) |
| Tables.Or2 | config.py:245 | `h or 2` is at least one row, and is the count itself when that is positive |
| Tables.SetInterpolate | config.py:136-139 | an absent table raises; otherwise it succeeds exactly when the mode byte is in the image and the mode fits a byte, writes only the mode byte, and, when the mode byte is not inside the table's own pointer slot, the mode reads back |
| Tables.InterpolateVar | config.py:141-144 | no blend variable exactly when the table is absent |
| Tables.SetInterpolateVar | config.py:146-149 | an absent table raises; an unlisted variable fails with NotListed; on success only the blend byte changes, and it holds the variable's first index |
| Tables.AxisShortName | config.py:191-193 | no variable name exactly when the axis has no bins |
| Tables.DataPtr | config.py:195-204 | the address exists exactly when both counts read; its bit is below 8, its width is the cell width, and 8·pos + bit = 8·(ptr + 12 + 2(w + h)) + bits·(r·(w or 1) + c) |
| Tables.Data | config.py:206-222 | an absent table reads 0; a failing pointer read fails; the value lies in the unsigned or the signed range of the cell width |
| Tables.DataReads | config.py:206-222 | for any image, a present table's cell reads as the little-endian number of the bytes it spans, shifted right by its starting bit, then masked and sign-extended |
| Tables.SetData | config.py:224-235 | writing to an absent table leaves the image as it is; a failing pointer read fails; the image length is kept |
| Tables.SetDataEffect | config.py:224-235 | for a present table, a write succeeds exactly when the cell is in the image and the masked value fits the first byte, and it touches only the cell's bytes |
| Tables.CellAfterHeaders | config.py:195-204 | every cell lies at or past the end of the two axis headers |
| Tables.LayoutKept | config.py:151-204 | an image agreeing on the pointer slot and both count bytes has the same cell addresses |
| Tables.DataOfSetData | config.py:206-235 | when a cell does not overlap the pointer slot, reading it after writing v returns v masked and sign-extended, which is v itself when representable |
| Tables.DecodeAxis | config.py:237-241 | no axis exactly when the axis has no bins |
| Tables.DecodeRow | config.py:246 | a decoded row holds exactly the cells c..cols-1 of row r, as Data reads them |
| Tables.DecodeRows | config.py:246-247 | decoded rows have `cols` cells each, and cell (i, j) is Data(i, j) |
| Tables.DecodeData | config.py:243-247 | the grid has (h or 2) rows of (w or 1) cells, and cell (i, j) is Data(i, j) |
| Tables.TableDecode | config.py:249-259 | None exactly when the pointer is 0; otherwise the interpolation fields, both axes and the grid DecodeData reads |
| Tables.AxisHeader | config.py:360-366 | 'BbH%dh' packing succeeds exactly when the count, exponent, index and bins fit their formats, and yields 4 + 2·|bins| bytes; any failure is a range error |
| Tables.Region | config.py:354-366 | the packed region has 4 + |x header| + |y header| + the reserved data bytes |
| Tables.RegionCounts | config.py:157-176 | once a table points at a packed region, both axis pointers sit after the headers, the counts read back, and TableLen equals the reserved size |
| Tables.RegionAxes | config.py:178-193 | once a table points at a packed region, the exponents, bins and axis variable names read back as packed |
| Tables.ReservedCellInside | config.py:157-165 | every cell of the reserved grid, (w or 1) by max(h, 1) cells, lies inside the region TableLen measures |
| Tables.DegenerateRowOverrun | config.py:157-165 | for a 16-bit table with no bins, the region is 14 bytes, the grid has 2 rows, and cell (1, 0) starts at the region's end |
| Tables.WriteRow | config.py:278-279 | a successful row write had an entry for every column (a missing one is an IndexError) |
| Tables.WriteRows | config.py:277-279 | a successful grid write had an entry for every row |
| Tables.CellOrder | config.py:201 | in row-major order, an earlier cell ends no later than a later one starts |
| Tables.SetDataKeepsEarlier | config.py:224-235 | when the table's region starts past its own pointer slot, writing cell (r, c) leaves every earlier cell of the grid reading as before |
| Tables.SetDataKeepsLayout | config.py:224-235 | when the table's region starts past its own pointer slot, writing a cell keeps every byte before the grid, and so the layout |
| Tables.WriteRowsHolds | config.py:277-279 | when the table's region starts past its own pointer slot, writing the rows keeps the layout, and every written cell reads back |
| Tables.GridRoundTrip | config.py:243-247 | when the table's region starts past its own pointer slot: after the encode loop writes the grid, `decode_data` returns the written entries masked and sign-extended, and the bytes before the grid are untouched |
| Tables.GridDecodes | config.py:243-247 | a table whose whole grid reads as `data` decodes to it |
| Tables.GridOfRepresentable | config.py:218-221 | data of grid shape whose every entry is representable is its own decoded grid |
| Allocator.Sort | config.py:343 | `used.sort()`: a sorted permutation of the live regions |
| Allocator.SortedUnique | config.py:343 | a sorted permutation is unique, so any correct sort gives the same list |
| Allocator.Bracket | config.py:344 | the sentinels (table_offset, 0) and (total_size, 0) at both ends, and between them a sorted permutation of the live regions |
| Allocator.GapsOf | config.py:346-348 | fewer gaps than neighbours, and no empty gap, since touching neighbours are skipped |
| Allocator.FreeSpace | config.py:339-348 | at most one gap more than there are live regions, none of them empty (exactness stated by Allocator.FreeSpaceExact) |
| Allocator.GapsTelescope | config.py:346-348 | the gap sizes add up to the span less all lengths but the last |
| Allocator.TotalFreeIsSpanLessUsed | config.py:350-351 | the free space totals the table area less the live lengths |
| Allocator.FreeSpaceOrdered | config.py:339-348 | with well-placed regions, the gaps are non-empty, ascending and non-overlapping, and lie inside the table area |
| Allocator.FreeSpaceApart | config.py:339-348 | with well-placed regions, no gap overlaps a live region |
| Allocator.FreeSpaceExact | config.py:339-348 | with well-placed regions, an address is in a gap exactly when it is in the table area and no live region holds it |
| Allocator.FirstFit | config.py:367-369 | the first gap of at least `size` bytes: every earlier gap is smaller, and None means every gap is smaller |
| Dicts.Lookup | config.py:316 | a key is absent exactly when it is not among the keys |
| Dicts.PutKeys | config.py:325 | assigning a present key keeps the key order; a new key goes at the end |
| Dicts.PutEntries | config.py:325 | only the assigned key's entry changes |
| Dicts.LookupPut | config.py:325 | an assigned key reads back as the assigned value |
| Dicts.LookupPutOther | config.py:325 | an assignment leaves every other key as it was |
| Registry.Register | config.py:324-327 | registering a field keeps the table area and the variable list, and leaves the table view alone for a non-table field (last-wins lookup is stated by Registry.RegisterAllLookup) |
| Registry.ProcessItems | config.py:319-327 | walking a menu keeps the table area and the variable list (what it registers is stated by Registry.ProcessItemsIsRegisterLeaves) |
| Registry.NewConfig | config.py:290-306 | a new registry has the given area and variables, and is the empty registry with the depth-first leaves of the menu registered in order (lookups stated by Registry.NewConfigLookup) |
| Registry.ProcessItemsIsRegisterLeaves | config.py:319-327 | walking the menu registers exactly its leaf fields, in depth-first order |
| Registry.RegisterAllLookup | config.py:324-327 | registration is last-wins per short name, in both the field view and the table view |
| Registry.NewConfigLookup | config.py:290-306 | in a new registry, each short name denotes the last field of that name in menu order, and the table view holds the last table of that name |
| Registry.Live | config.py:340-342 | a table's live region is present exactly when its TableLen is not 0, and is (TablePtr, TableLen) |
| Registry.LiveRegions | config.py:340-342 | the live regions are read table by table; the first failing read aborts the list |
| Registry.GetFreeTableSpace | config.py:339-348 | succeeds exactly when every table's region reads |
| Registry.TotalFreeTableSpace | config.py:350-351 | succeeds exactly when every table's region reads (the total is stated by Registry.TotalFreeTableSpaceValue) |
| Registry.TotalFreeTableSpaceValue | config.py:350-351 | the free space totals the table area less the sum of all TableLens, whether or not the tables overlap |
| Registry.FreeTableSpaceExact | config.py:339-348 | with disjoint tables inside the area, the gaps are ascending inside it, and an address is free exactly when it is in the area and no table holds it |
| Registry.TableHoldsIsHeld | config.py:340-342 | some table holds an address exactly when one of the live regions read from the tables holds it |
| Registry.PackRegion | config.py:353-366 | packing succeeds exactly when both variables are listed and both headers pack; an unlisted x-axis variable fails with NotListed; a packed region has the reserved size and is the zeroed mode bytes, the two headers and the zeroed data |
| Registry.PackRegionUnlistedY | config.py:360-366 | once the x header packs, an unlisted y-axis variable fails with NotListed too |
| Registry.Place | config.py:367-372 | the region goes at the start of the first gap large enough for it; with no such gap the image is unchanged and every gap is smaller |
| Registry.AllocateTable | config.py:353-372 | an unknown table name is a KeyError; success needs the table, the packed region and a readable free space |
| Registry.PlacedApart | config.py:367-372 | with disjoint tables inside the area, a placed region lies inside the area and overlaps no live table |
| Registry.AllocationLayout | config.py:353-372 | once the table points at the region AllocateTable stored for it: TableLen is the reserved size; counts, exponents, bins and axis variables read back as packed; the mode is 0 |
| Registry.EncodeHeader | config.py:264-274 | a failed allocation cannot be stored as a pointer and aborts the encode |
| Registry.TableEncode | config.py:261-279 | None writes nothing; an unknown table is a KeyError; a failed allocation aborts |
| Registry.TableEncodeDecode | config.py:249-279 | a value `Table.encode` stores decodes to its interpolation fields, its axes as decoding normalises them, and its grid masked and sign-extended |
| Registry.TableRoundTrip | config.py:249-279 | a table value in decoded shape with representable entries decodes back unchanged |
| Registry.DecodeField | config.py:55-119 | a Scalar or Text decode succeeds exactly when its read does; a decoded value has the field's kind |
| Registry.EncodeField | config.py:55-119 | a value of the wrong kind for the field fails |
| Registry.FieldRoundTrip | config.py:46-98 | a successful Scalar, Select or VarSelect encode changes only the field's slot and decodes back to the value |
| Registry.TextFieldRoundTrip | config.py:108-119 | a Text encode changes only its slot, and a NUL-free value that fits decodes back unchanged |
| Registry.DecodeAll | config.py:308-311 | decoding succeeds exactly when every field decodes, and pairs each field's name with its decoded value |
| Registry.Decode | config.py:308-311 | succeeds exactly when every catalogued field decodes, with one entry per field holding its decoded value (keys and lookups stated by Registry.DecodeKeys and Registry.DecodeEntries) |
| Registry.DecodeKeys | config.py:308-311 | the decoded image lists the catalogue's names in catalogue order, each once |
| Registry.DecodeEntries | config.py:308-311 | each catalogued name decodes to its field's decoded value, and no other name appears |
| Registry.EncodeAll | config.py:313-317 | a pair naming an unknown field makes the encode fail |
| Registry.Encode | config.py:313-317 | a pair naming an unknown field fails the encode (the effect of the pairs is stated by Registry.EncodeLastWins) |
| Registry.EncodeLastWins | config.py:313-317 | whatever earlier pairs wrote, the last pair for a fixed field decides its decoded value |
| Registry.EncodeOrderMatters | config.py:313-317 | for two overlapping fields, the same pairs in the other order give a different image |

## Left out

- `Config.EvalConditional`: it evaluates Python source text with `eval`, which has no meaning in the model.
- The `10 ** exponent` scaling and `round` in `Scalar`, `AxisBins`, `Data`, `setData` and `AllocateTable`: these are floating point. The model reads and writes raw stored integers, and a Scalar's value is converted with `int` beforehand.
- `Scalar` encodings other than 2: they raise at construction, so only format 'H' exists.
- UTF-8: Text values are modelled as byte strings, and `decode`/`encode` of characters is left out.
- The `Variable` records (`all_variables`): nothing in the core reads them. The variable list keeps only the short names, as `self.variables` does.
- `print` calls in `GetFreeTableSpace` and `AllocateTable`: output only.
- `Decode`'s `'config'` entry: it echoes the schema unchanged. The model returns the `'tune'` dictionary only.
- `class_map`'s KeyError for an unknown field kind: menus are typed, so no unknown kind can be written.
- Python's duck typing on values: a value of the wrong shape for its field is a `WrongKind` failure, not whatever exception Python would raise.
- Writes made before an exception: Python leaves them in the bytearray, but the model's `Fail` drops the image.
- `setTablePtr(tune, None)` after a failed allocation: it raises in `struct.pack_into`, and the model reports it as `OutOfSpace`.
- The float `abs(encoding) * cells + 1.9` in `TableLen` and `AllocateTable`: it is computed in exact integers from the cell width in bits. For the encodings used (multiples of 1/8) the result is the same.
- tunedemo.py is not part of this model.
- Registry.EncodeField: no length-preservation clause, because the table branch's proof of it is out of reach of the solver budget. Each fixed field's codec states it.
- Registry.TableEncodeDecode, Registry.TableRoundTrip and Registry.AllocationLayout: proved only when the table's pointer slot lies before the table area and the live regions are disjoint and inside it. The code does not check either; overlapping regions can corrupt each other.
- Registry.EncodeAll: the full image after `Encode` is described only by EncodeLastWins and EncodeOrderMatters, not by one closed formula.
- Tables.SetData: the success condition and footprint are in Tables.SetDataEffect rather than on SetData itself.
- Tables.SetDataKeepsEarlier, Tables.SetDataKeepsLayout, Tables.WriteRowsHolds and Tables.GridRoundTrip: proved only when the table's region starts past its own 2-byte pointer slot. `setTablePtr` stores any pointer, and the grid of a table pointing below its slot can overwrite the slot; the model promises nothing about that case.
- Tables.InterpolateVar: for an absent table `config.py` returns the integer 0; the model returns `None`, which is distinct from `Some(None)`, the reading of a variable with no short name.

=== FILE: allocator.dfy ===
/**
 The free-space computation behind `Config.GetFreeTableSpace`,
 `TotalFreeTableSpace` and the first-fit search of `AllocateTable`.  Free
 space is not tracked: it is recomputed on every call from the live regions
 (pointer, length) of the present tables, sorted as Python sorts tuples,
 bracketed by the empty regions (table_offset, 0) and (total_size, 0), and
 read off as the holes between neighbours.
 */
module Allocator {
  import opened Results

  /** A live region (start, length), compared as a Python tuple. */
  datatype Span = Span(start: nat, len: nat) {
    function End(): nat {
      start + len
    }
  }

  /** A free range [lo, hi).  config.py makes one for every pair of
      neighbours where one ends short of the other's start, so with
      overlapping regions `lo` may exceed `hi`. */
  datatype Gap = Gap(lo: nat, hi: nat) {
    function Size(): int {
      hi - lo
    }
  }

  // ---- sorting ------------------------------------------------------------------

  /** Python's tuple order on (start, length). */
  predicate Before(x: Span, y: Span)
  {
    x.start < y.start || (x.start == y.start && x.len <= y.len)
  }

  predicate Sorted(s: seq<Span>)
  {
    forall i, j :: 0 <= i < j < |s| ==> Before(s[i], s[j])
  }

  /** `y` comes no later than any element of `s`. */
  predicate FirstOf(y: Span, s: seq<Span>)
  {
    forall k :: 0 <= k < |s| ==> Before(y, s[k])
  }

  function Insert(x: Span, s: seq<Span>): (r: seq<Span>)
    requires Sorted(s)
    ensures Sorted(r)
    ensures |r| == |s| + 1
    ensures multiset(r) == multiset(s) + multiset{x}
    ensures forall y :: FirstOf(y, s) && Before(y, x) ==> FirstOf(y, r)
  {
    if |s| == 0 || Before(x, s[0]) then [x] + s
    else
      assert s == [s[0]] + s[1..];
      assert FirstOf(s[0], s[1..]);
      var rest := Insert(x, s[1..]);
      [s[0]] + rest
  }

  /** `list.sort()`: the sorted permutation of the live regions. */
  function Sort(s: seq<Span>): (r: seq<Span>)
    ensures Sorted(r)
    ensures |r| == |s|
    ensures multiset(r) == multiset(s)
  {
    if |s| == 0 then []
    else
      assert s == [s[0]] + s[1..];
      Insert(s[0], Sort(s[1..]))
  }

  /** Two sorted lists with the same elements start with the same element. */
  lemma SortedHeads(s: seq<Span>, t: seq<Span>)
    requires Sorted(s) && Sorted(t) && multiset(s) == multiset(t) && |s| > 0
    ensures |t| > 0 && s[0] == t[0]
  {
    assert |t| == |multiset(t)| == |multiset(s)| == |s|;
    assert s[0] in multiset(t) && t[0] in multiset(s);
    var i :| 0 <= i < |t| && t[i] == s[0];
    var j :| 0 <= j < |s| && s[j] == t[0];
    assert Before(t[0], t[i]) || i == 0;
    assert Before(s[0], s[j]) || j == 0;
  }

  /** Dropping the head leaves the rest of the elements. */
  lemma TailMultiset(s: seq<Span>)
    requires |s| > 0
    ensures multiset(s[1..]) == multiset(s) - multiset{s[0]}
  {
    assert s == [s[0]] + s[1..];
    assert multiset(s) == multiset{s[0]} + multiset(s[1..]);
  }

  /** The order is total and antisymmetric, so a sorted permutation is unique:
      any correct sort, Python's included, yields the list Sort yields. */
  lemma {:induction false} SortedUnique(s: seq<Span>, t: seq<Span>)
    requires Sorted(s) && Sorted(t) && multiset(s) == multiset(t)
    ensures s == t
  {
    if |s| == 0 {
      assert |t| == |multiset(t)| == 0;
    } else {
      SortedHeads(s, t);
      TailMultiset(s);
      TailMultiset(t);
      assert Sorted(s[1..]) && Sorted(t[1..]);
      SortedUnique(s[1..], t[1..]);
      assert s == [s[0]] + s[1..] && t == [t[0]] + t[1..];
    }
  }

  // ---- lengths ----------------------------------------------------------------

  /** Total length of the live regions. */
  function SumLen(s: seq<Span>): nat
  {
    if |s| == 0 then 0 else s[0].len + SumLen(s[1..])
  }

  lemma {:induction false} SumLenAppend(s: seq<Span>, t: seq<Span>)
    ensures SumLen(s + t) == SumLen(s) + SumLen(t)
  {
    if |s| > 0 {
      assert (s + t)[0] == s[0];
      assert (s + t)[1..] == s[1..] + t;
      SumLenAppend(s[1..], t);
    } else {
      assert s + t == t;
    }
  }

  lemma {:induction false} SumLenInsert(x: Span, s: seq<Span>)
    requires Sorted(s)
    ensures SumLen(Insert(x, s)) == x.len + SumLen(s)
  {
    if |s| > 0 && !Before(x, s[0]) {
      SumLenInsert(x, s[1..]);
    }
  }

  lemma {:induction false} SumLenSort(s: seq<Span>)
    ensures SumLen(Sort(s)) == SumLen(s)
  {
    if |s| > 0 {
      SumLenSort(s[1..]);
      SumLenInsert(s[0], Sort(s[1..]));
    }
  }

  // ---- disjointness -------------------------------------------------------------

  predicate Apart(x: Span, y: Span)
  {
    x.End() <= y.start || y.End() <= x.start
  }

  /** No two regions at different positions overlap. */
  predicate Disjoint(s: seq<Span>)
  {
    forall i, j :: 0 <= i < |s| && 0 <= j < |s| && i != j ==> Apart(s[i], s[j])
  }

  lemma {:induction false} InsertDisjoint(x: Span, s: seq<Span>)
    requires Sorted(s) && Disjoint(s)
    requires forall k :: 0 <= k < |s| ==> Apart(x, s[k])
    ensures Disjoint(Insert(x, s))
  {
    if |s| > 0 && !Before(x, s[0]) {
      var rest := Insert(x, s[1..]);
      InsertDisjoint(x, s[1..]);
      assert s == [s[0]] + s[1..];
      forall k | 0 <= k < |rest|
        ensures Apart(s[0], rest[k])
      {
        assert rest[k] in multiset(s[1..]) + multiset{x};
        if rest[k] != x {
          assert rest[k] in s[1..];
          var m :| 0 <= m < |s[1..]| && s[1..][m] == rest[k];
          assert s[m + 1] == rest[k];
        }
      }
      assert Insert(x, s) == [s[0]] + rest;
    }
  }

  lemma {:induction false} SortDisjoint(s: seq<Span>)
    requires Disjoint(s)
    ensures Disjoint(Sort(s))
  {
    if |s| > 0 {
      var rest := Sort(s[1..]);
      assert Disjoint(s[1..]) by {
        forall i, j | 0 <= i < |s[1..]| && 0 <= j < |s[1..]| && i != j
          ensures Apart(s[1..][i], s[1..][j])
        {
          assert s[1..][i] == s[i + 1] && s[1..][j] == s[j + 1];
        }
      }
      SortDisjoint(s[1..]);
      forall k | 0 <= k < |rest|
        ensures Apart(s[0], rest[k])
      {
        assert rest[k] in multiset(s[1..]);
        var m :| 0 <= m < |s[1..]| && s[1..][m] == rest[k];
        assert s[m + 1] == rest[k];
      }
      InsertDisjoint(s[0], rest);
    }
  }

  // ---- gaps ----------------------------------------------------------------------

  /** The live regions between the two empty sentinels, in sorted order. */
  function Bracket(used: seq<Span>, lo: nat, hi: nat): (r: seq<Span>)
    ensures |r| == |used| + 2 && r[0] == Span(lo, 0) && r[|r| - 1] == Span(hi, 0)
    ensures Sorted(r[1..|r| - 1]) && multiset(r[1..|r| - 1]) == multiset(used)
  {
    var r := [Span(lo, 0)] + Sort(used) + [Span(hi, 0)];
    assert r[0] == Span(lo, 0) && r[|r| - 1] == Span(hi, 0);
    assert r[1..|r| - 1] == Sort(used);
    r
  }

  /** One gap per pair of neighbours that do not touch. */
  function GapsOf(s: seq<Span>): (r: seq<Gap>)
    ensures |s| > 0 ==> |r| < |s|
    ensures forall i :: 0 <= i < |r| ==> r[i].Size() != 0
  {
    if |s| < 2 then []
    else
      (if s[0].End() != s[1].start then [Gap(s[0].End(), s[1].start)] else [])
      + GapsOf(s[1..])
  }

  /** `GetFreeTableSpace`. */
  function FreeSpace(used: seq<Span>, lo: nat, hi: nat): (r: seq<Gap>)
    ensures |r| <= |used| + 1
    ensures forall i :: 0 <= i < |r| ==> r[i].Size() != 0
  {
    GapsOf(Bracket(used, lo, hi))
  }

  /** Sum of the gap sizes, which may be negative for overlapping regions. */
  function Total(gaps: seq<Gap>): int
  {
    if |gaps| == 0 then 0 else gaps[0].Size() + Total(gaps[1..])
  }

  /** `TotalFreeTableSpace`. */
  function TotalFree(used: seq<Span>, lo: nat, hi: nat): int
  {
    Total(FreeSpace(used, lo, hi))
  }

  lemma {:induction false} TotalAppend(g: seq<Gap>, h: seq<Gap>)
    ensures Total(g + h) == Total(g) + Total(h)
  {
    if |g| > 0 {
      assert (g + h)[0] == g[0];
      assert (g + h)[1..] == g[1..] + h;
      TotalAppend(g[1..], h);
    } else {
      assert g + h == h;
    }
  }

  /** The gap sizes telescope: the holes between neighbours add up to the
      distance from the first start to the last, less every length but the
      last.  Touching neighbours make no gap but would add 0 anyway. */
  lemma {:induction false} GapsTelescope(s: seq<Span>)
    requires |s| >= 1
    ensures Total(GapsOf(s)) == s[|s| - 1].start - s[0].start - SumLen(s[..|s| - 1])
  {
    if |s| >= 2 {
      var head := if s[0].End() != s[1].start then [Gap(s[0].End(), s[1].start)] else [];
      TotalAppend(head, GapsOf(s[1..]));
      GapsTelescope(s[1..]);
      assert s[..|s| - 1] == [s[0]] + s[1..][..|s[1..]| - 1];
    }
  }

  /** The free space always totals the table area minus the live lengths,
      whether or not the regions are well placed. */
  lemma TotalFreeIsSpanLessUsed(used: seq<Span>, lo: nat, hi: nat)
    ensures TotalFree(used, lo, hi) == hi - lo - SumLen(used)
  {
    var b := Bracket(used, lo, hi);
    GapsTelescope(b);
    assert b[..|b| - 1] == [Span(lo, 0)] + Sort(used);
    SumLenAppend([Span(lo, 0)], Sort(used));
    SumLenSort(used);
  }

  /** Each region ends no later than any later region starts. */
  predicate Chain(s: seq<Span>)
  {
    forall i, j :: 0 <= i < j < |s| ==> s[i].End() <= s[j].start
  }

  /** The live regions are non-empty, pairwise disjoint and inside [lo, hi). */
  predicate WellPlaced(used: seq<Span>, lo: nat, hi: nat)
  {
    && lo <= hi
    && (forall i :: 0 <= i < |used| ==> used[i].len > 0 && lo <= used[i].start && used[i].End() <= hi)
    && Disjoint(used)
  }

  lemma WellPlacedChain(used: seq<Span>, lo: nat, hi: nat)
    requires WellPlaced(used, lo, hi)
    ensures Chain(Bracket(used, lo, hi))
  {
    var s := Sort(used);
    var b := Bracket(used, lo, hi);
    SortDisjoint(used);
    forall k | 0 <= k < |s|
      ensures s[k].len > 0 && lo <= s[k].start && s[k].End() <= hi
    {
      assert s[k] in multiset(used);
      var m :| 0 <= m < |used| && used[m] == s[k];
    }
    forall i, j | 0 <= i < j < |b|
      ensures b[i].End() <= b[j].start
    {
      if 0 < i && j < |b| - 1 {
        assert b[i] == s[i - 1] && b[j] == s[j - 1];
        assert Before(s[i - 1], s[j - 1]) && Apart(s[i - 1], s[j - 1]);
      } else if 0 < i {
        assert b[i] == s[i - 1];
      } else if j < |b| - 1 {
        assert b[j] == s[j - 1];
      }
    }
  }

  /** Every gap of a chain is non-empty and lies between the end of the first
      region and the start of the last. */
  lemma {:induction false} GapsWithin(s: seq<Span>)
    requires |s| >= 1 && Chain(s)
    ensures forall g :: g in GapsOf(s) ==> s[0].End() <= g.lo < g.hi <= s[|s| - 1].start
  {
    if |s| >= 2 {
      var t := s[1..];
      assert Chain(t) by {
        forall i, j | 0 <= i < j < |t| ensures t[i].End() <= t[j].start {
          assert t[i] == s[i + 1] && t[j] == s[j + 1];
        }
      }
      GapsWithin(t);
      assert s[0].End() <= s[1].start;
      if |s| > 2 {
        assert s[1].End() <= s[|s| - 1].start;
      }
    }
  }

  /** The gaps of a chain come in ascending order without overlapping. */
  lemma {:induction false} GapsAscending(s: seq<Span>)
    requires |s| >= 1 && Chain(s)
    ensures forall i, j :: 0 <= i < j < |GapsOf(s)| ==> GapsOf(s)[i].hi <= GapsOf(s)[j].lo
  {
    if |s| >= 2 {
      var t := s[1..];
      assert Chain(t) by {
        forall i, j | 0 <= i < j < |t| ensures t[i].End() <= t[j].start {
          assert t[i] == s[i + 1] && t[j] == s[j + 1];
        }
      }
      GapsAscending(t);
      GapsWithin(t);
      var rest := GapsOf(t);
      if s[0].End() != s[1].start {
        var g := GapsOf(s);
        assert g == [Gap(s[0].End(), s[1].start)] + rest;
        forall i, j | 0 <= i < j < |g|
          ensures g[i].hi <= g[j].lo
        {
          if i == 0 {
            assert g[j] == rest[j - 1] && g[j] in rest;
          } else {
            assert g[i] == rest[i - 1] && g[j] == rest[j - 1];
          }
        }
      }
    }
  }

  /** No gap of a chain overlaps any of its regions. */
  lemma {:induction false} GapsApart(s: seq<Span>)
    requires |s| >= 1 && Chain(s)
    ensures forall g, k :: g in GapsOf(s) && 0 <= k < |s| ==> g.hi <= s[k].start || s[k].End() <= g.lo
  {
    if |s| >= 2 {
      var t := s[1..];
      assert Chain(t) by {
        forall i, j | 0 <= i < j < |t| ensures t[i].End() <= t[j].start {
          assert t[i] == s[i + 1] && t[j] == s[j + 1];
        }
      }
      GapsApart(t);
      GapsWithin(t);
      forall g, k | g in GapsOf(s) && 0 <= k < |s|
        ensures g.hi <= s[k].start || s[k].End() <= g.lo
      {
        if g in GapsOf(t) {
          if k > 0 {
            assert s[k] == t[k - 1];
          }
        } else {
          assert g == Gap(s[0].End(), s[1].start);
          if k > 1 {
            assert s[1].End() <= s[k].start;
          }
        }
      }
    }
  }

  /** Address `x` lies in region `u`. */
  predicate Holds(u: Span, x: int)
  {
    u.start <= x < u.End()
  }

  /** No region of `s` holds address `x`. */
  predicate Unheld(s: seq<Span>, x: int)
  {
    forall k :: 0 <= k < |s| ==> !Holds(s[k], x)
  }

  /** Address `x` lies in one of the gaps. */
  predicate InSomeGap(gaps: seq<Gap>, x: int)
  {
    exists g :: g in gaps && g.lo <= x < g.hi
  }

  /** Every address of a chain's span that no region holds lies in a gap. */
  lemma {:induction false} GapsCover(s: seq<Span>, x: nat)
    requires |s| >= 1 && Chain(s)
    requires s[0].End() <= x < s[|s| - 1].start
    requires Unheld(s, x)
    ensures InSomeGap(GapsOf(s), x)
  {
    var t := s[1..];
    assert |s| >= 2;
    if x < s[1].start {
      assert Gap(s[0].End(), s[1].start) in GapsOf(s);
    } else {
      assert Chain(t) by {
        forall i, j | 0 <= i < j < |t| ensures t[i].End() <= t[j].start {
          assert t[i] == s[i + 1] && t[j] == s[j + 1];
        }
      }
      assert !Holds(s[1], x);
      assert Unheld(t, x) by {
        forall k | 0 <= k < |t|
          ensures !Holds(t[k], x)
        {
          assert t[k] == s[k + 1];
        }
      }
      GapsCover(t, x);
      var g :| g in GapsOf(t) && g.lo <= x < g.hi;
      assert g in GapsOf(s);
    }
  }

  /** With well-placed live regions the free space is a list of non-empty gaps
      in ascending order inside the table area [lo, hi). */
  lemma FreeSpaceOrdered(used: seq<Span>, lo: nat, hi: nat)
    requires WellPlaced(used, lo, hi)
    ensures forall g :: g in FreeSpace(used, lo, hi) ==> lo <= g.lo < g.hi <= hi
    ensures forall i, j :: 0 <= i < j < |FreeSpace(used, lo, hi)| ==>
              FreeSpace(used, lo, hi)[i].hi <= FreeSpace(used, lo, hi)[j].lo
  {
    var b := Bracket(used, lo, hi);
    WellPlacedChain(used, lo, hi);
    GapsWithin(b);
    GapsAscending(b);
  }

  /** With well-placed live regions no gap overlaps a live region. */
  lemma FreeSpaceApart(used: seq<Span>, lo: nat, hi: nat)
    requires WellPlaced(used, lo, hi)
    ensures forall g, k :: g in FreeSpace(used, lo, hi) && 0 <= k < |used| ==>
              g.hi <= used[k].start || used[k].End() <= g.lo
  {
    var b := Bracket(used, lo, hi);
    var s := Sort(used);
    WellPlacedChain(used, lo, hi);
    GapsApart(b);
    forall g, k | g in FreeSpace(used, lo, hi) && 0 <= k < |used|
      ensures g.hi <= used[k].start || used[k].End() <= g.lo
    {
      assert used[k] in multiset(s);
      var m :| 0 <= m < |s| && s[m] == used[k];
      assert b[m + 1] == used[k];
    }
  }

  /** A live region is one of the bracketed regions. */
  lemma BracketHolds(used: seq<Span>, lo: nat, hi: nat, k: nat)
    requires 0 < k < |used| + 1
    ensures Bracket(used, lo, hi)[k] in used
  {
    var s := Sort(used);
    assert Bracket(used, lo, hi)[k] == s[k - 1];
    assert s[k - 1] in multiset(used);
  }

  /** An address inside [lo, hi) that no live region holds lies in a gap. */
  lemma FreeSpaceCovers(used: seq<Span>, lo: nat, hi: nat, x: nat)
    requires WellPlaced(used, lo, hi)
    requires lo <= x < hi && Unheld(used, x)
    ensures InSomeGap(FreeSpace(used, lo, hi), x)
  {
    var b := Bracket(used, lo, hi);
    WellPlacedChain(used, lo, hi);
    forall k | 0 <= k < |b|
      ensures !Holds(b[k], x)
    {
      if 0 < k < |b| - 1 {
        BracketHolds(used, lo, hi, k);
      }
    }
    GapsCover(b, x);
  }

  /** An address in a gap lies inside [lo, hi) and no live region holds it. */
  lemma FreeSpaceUnheld(used: seq<Span>, lo: nat, hi: nat, x: nat)
    requires WellPlaced(used, lo, hi)
    requires InSomeGap(FreeSpace(used, lo, hi), x)
    ensures lo <= x < hi && Unheld(used, x)
  {
    FreeSpaceOrdered(used, lo, hi);
    FreeSpaceApart(used, lo, hi);
    var g :| g in FreeSpace(used, lo, hi) && g.lo <= x < g.hi;
    assert forall k :: 0 <= k < |used| ==> !Holds(used[k], x);
  }

  /** With well-placed live regions an address is in a gap exactly when it is
      inside [lo, hi) and no live region holds it. */
  lemma FreeSpaceExact(used: seq<Span>, lo: nat, hi: nat, x: nat)
    requires WellPlaced(used, lo, hi)
    ensures InSomeGap(FreeSpace(used, lo, hi), x) <==> lo <= x < hi && Unheld(used, x)
  {
    if lo <= x < hi && Unheld(used, x) {
      FreeSpaceCovers(used, lo, hi, x);
    }
    if InSomeGap(FreeSpace(used, lo, hi), x) {
      FreeSpaceUnheld(used, lo, hi, x);
    }
  }

  // ---- first fit -------------------------------------------------------------------

  /** Position of the first gap of at least `size` bytes. */
  function FirstFit(gaps: seq<Gap>, size: nat): (r: Option<nat>)
    ensures r.Some? ==> r.value < |gaps| && gaps[r.value].Size() >= size
    ensures r.Some? ==> forall j :: 0 <= j < r.value ==> gaps[j].Size() < size
    ensures r.None? ==> forall j :: 0 <= j < |gaps| ==> gaps[j].Size() < size
  {
    if |gaps| == 0 then None
    else if gaps[0].Size() >= size then Some(0)
    else
      match FirstFit(gaps[1..], size)
      case None => None
      case Some(k) => Some(k + 1)
  }
}

=== FILE: arith.dfy ===
/**
 Powers of two and the Euclidean division facts that the bit codec needs.
 Python's `>>`, `<<` and `&` on non-negative integers are division,
 multiplication and remainder by powers of two.
 */
module Arith {

  function Pow2(k: nat): (r: nat)
    ensures r >= 1
  {
    if k == 0 then 1 else 2 * Pow2(k - 1)
  }

  lemma {:induction false} Pow2Add(i: nat, j: nat)
    ensures Pow2(i + j) == Pow2(i) * Pow2(j)
  {
    if i > 0 {
      Pow2Add(i - 1, j);
      assert Pow2(i + j) == 2 * Pow2(i - 1 + j);
    }
  }

  lemma Pow2Eight()
    ensures Pow2(8) == 256
  {
  }

  lemma {:induction false} Pow2Monotone(i: nat, j: nat)
    requires i <= j
    ensures Pow2(i) <= Pow2(j)
  {
    if i < j {
      Pow2Monotone(i, j - 1);
    }
  }

  /** Quotient and remainder are determined by any decomposition x == q*d + r. */
  lemma DivModUnique(x: int, d: int, q: int, r: int)
    requires d > 0 && 0 <= r < d && x == q * d + r
    ensures x / d == q && x % d == r
  {
    var q0, r0 := x / d, x % d;
    assert x == q0 * d + r0;
    if q0 > q {
      MulAtLeast(q0 - q, d);
      assert false;
    } else if q0 < q {
      MulAtLeast(q - q0, d);
      assert false;
    }
  }

  /** Adding a multiple of `d` adds its factor to the quotient. */
  lemma DivAddMultiple(x: int, d: int, y: int)
    requires d > 0
    ensures (x + d * y) / d == x / d + y
  {
    assert x + d * y == (x / d + y) * d + x % d;
    DivModUnique(x + d * y, d, x / d + y, x % d);
  }

  lemma MulMonotone(x: int, y: int, d: int)
    requires x <= y && d >= 0
    ensures x * d <= y * d
  {
  }

  lemma MulNonneg(x: int, y: int)
    requires x >= 0 && y >= 0
    ensures x * y >= 0
  {
  }

  lemma MulAtLeast(k: int, d: int)
    requires k >= 1 && d > 0
    ensures k * d >= d
  {
  }

  /** The quotient of a natural number is a natural number no larger. */
  lemma DivNonneg(x: int, d: int)
    requires x >= 0 && d > 0
    ensures 0 <= x / d <= x
  {
    var q := x / d;
    if q < 0 {
      MulAtLeast(-q, d);
      assert false;
    } else if q > x {
      MulMonotone(1, d, q);
      assert false;
    }
  }

  /** Adding a multiple of `d` below a remainder: the low part is kept exactly. */
  lemma SplitLow(low: int, v: int, d: int)
    requires d > 0 && 0 <= low < d
    ensures (low + v * d) / d == v
    ensures (low + v * d) % d == low
  {
    DivModUnique(low + v * d, d, v, low);
  }

  lemma ModAddMultiple(x: int, d: int, e: int, y: int)
    requires d > 0
    ensures (x + (d * e) * y) % d == x % d
  {
    var q := x / d + e * y;
    assert (d * e) * y == d * (e * y);
    assert x + (d * e) * y == q * d + x % d;
    DivModUnique(x + (d * e) * y, d, q, x % d);
  }

  /** `x % 2^k` ignores multiples of `2^m` when k <= m. */
  lemma ModOfHighMultiple(x: int, y: int, k: nat, m: nat)
    requires k <= m
    ensures (x + Pow2(m) * y) % Pow2(k) == x % Pow2(k)
  {
    Pow2Add(k, m - k);
    ModAddMultiple(x, Pow2(k), Pow2(m - k), y);
  }

  /** A value below `2^k` is its own remainder and has quotient 0. */
  lemma Small(x: int, k: nat)
    requires 0 <= x < Pow2(k)
    ensures x % Pow2(k) == x && x / Pow2(k) == 0
  {
    DivModUnique(x, Pow2(k), 0, x);
  }

  /** Adding a multiple of `d` leaves the remainder by `d` alone. */
  lemma ModAddMul(x: int, d: int, y: int)
    requires d > 0
    ensures (x + d * y) % d == x % d
  {
    DivModUnique(x + d * y, d, x / d + y, x % d);
  }

  /** x == y (mod r) gives u + k x == u + k y (mod k r). */
  lemma ModMulShift(u: int, x: int, y: int, k: int, r: int)
    requires k > 0 && r > 0 && x % r == y % r
    ensures (u + k * x) % (k * r) == (u + k * y) % (k * r)
  {
    var m := x % r;
    var qx, qy := x / r, y / r;
    assert k * x == k * m + (k * r) * qx by {
      assert x == r * qx + m;
      assert k * (r * qx + m) == k * (r * qx) + k * m;
      assert k * (r * qx) == (k * r) * qx;
    }
    assert k * y == k * m + (k * r) * qy by {
      assert y == r * qy + m;
      assert k * (r * qy + m) == k * (r * qy) + k * m;
      assert k * (r * qy) == (k * r) * qy;
    }
    ModAddMul(u + k * m, k * r, qx);
    ModAddMul(u + k * m, k * r, qy);
  }

  /** x / b splits into the part from x mod (b e) and e times the part above. */
  lemma ShiftSplit(x: int, b: int, e: int)
    requires x >= 0 && b > 0 && e > 0
    ensures x / b == (x % (b * e)) / b + e * (x / (b * e))
  {
    var hi, low := x / (b * e), x % (b * e);
    var lq, lr := low / b, low % b;
    assert x == (b * e) * hi + low;
    assert low == b * lq + lr;
    assert (b * e) * hi == (e * hi) * b;
    assert x == (lq + e * hi) * b + lr;
    DivModUnique(x, b, lq + e * hi, lr);
  }
}

=== FILE: bytes.dfy ===
/**
 The byte arena ("tune"): a fixed-length sequence of octets, and the
 fixed-width little-endian accessors that Python's `struct.unpack_from` and
 `struct.pack_into` provide for the formats the core uses
 ('B', 'b', 'H', 'h' and '%ds').  A write returns the updated arena.
 */
module Bytes {
  import opened Results
  import opened Arith

  /** One octet of the tune image. */
  type byte = x: int | 0 <= x < 256

  /** The tune image. */
  type Arena = seq<byte>

  /** A freshly allocated `bytearray(n)`. */
  function Zeros(n: nat): (r: Arena)
    ensures |r| == n
    ensures forall i :: 0 <= i < n ==> r[i] == 0
  {
    seq(n, _ => 0)
  }

  /** `b` equals `a` except possibly at the indices in [lo, hi). */
  ghost predicate SameOutside(a: Arena, b: Arena, lo: int, hi: int)
  {
    |a| == |b| && forall i :: 0 <= i < |a| && !(lo <= i < hi) ==> b[i] == a[i]
  }

  // ---- 'B' and 'b': one byte -------------------------------------------

  function GetU8(a: Arena, off: nat): Result<byte>
  {
    if off < |a| then Ok(a[off]) else Fail(OutOfBounds)
  }

  /** Two's-complement reading of one byte (format 'b'). */
  function SignedByte(x: byte): (r: int)
    ensures -128 <= r < 128
    ensures r % 256 == x
  {
    if x >= 128 then x - 256 else x
  }

  function GetS8(a: Arena, off: nat): Result<int>
  {
    if off < |a| then Ok(SignedByte(a[off])) else Fail(OutOfBounds)
  }

  function PutU8(a: Arena, off: nat, v: int): (r: Result<Arena>)
    ensures r.Ok? <==> off < |a| && 0 <= v < 256
    ensures r.Fail? ==> r.error == (if off < |a| then ValueRange else OutOfBounds)
    ensures r.Ok? ==> GetU8(r.value, off) == Ok(v) && SameOutside(a, r.value, off, off + 1)
  {
    if off >= |a| then Fail(OutOfBounds)
    else if !(0 <= v < 256) then Fail(ValueRange)
    else Ok(a[off := v])
  }

  function PutS8(a: Arena, off: nat, v: int): (r: Result<Arena>)
    ensures r.Ok? <==> off < |a| && -128 <= v < 128
    ensures r.Ok? ==> GetS8(r.value, off) == Ok(v) && SameOutside(a, r.value, off, off + 1)
  {
    if off >= |a| then Fail(OutOfBounds)
    else if !(-128 <= v < 128) then Fail(ValueRange)
    else Ok(a[off := v % 256])
  }

  // ---- 'H' and 'h': two bytes, little-endian ---------------------------

  /** The little-endian word made of bytes `lo` and `hi`. */
  function Word(lo: byte, hi: byte): (r: nat)
    ensures r < 65536
  {
    lo as int + 256 * hi as int
  }

  function GetU16(a: Arena, off: nat): Result<nat>
  {
    if off + 2 <= |a| then Ok(Word(a[off], a[off + 1])) else Fail(OutOfBounds)
  }

  /** Two's-complement reading of a 16-bit word (format 'h'). */
  function SignedWord(x: nat): (r: int)
    requires x < 65536
    ensures -32768 <= r < 32768
    ensures r % 65536 == x
  {
    if x >= 32768 then x - 65536 else x
  }

  /** A word read back determines both of its bytes. */
  lemma WordParts(a: Arena, off: nat, v: nat)
    requires GetU16(a, off) == Ok(v)
    ensures a[off] == v % 256 && a[off + 1] == v / 256
  {
    DivModUnique(v, 256, a[off + 1], a[off]);
  }

  function GetS16(a: Arena, off: nat): Result<int>
  {
    if off + 2 <= |a| then Ok(SignedWord(Word(a[off], a[off + 1]))) else Fail(OutOfBounds)
  }

  /** A signed word survives its two's-complement encoding. */
  lemma SignedWordOfMod(v: int)
    requires -32768 <= v < 32768
    ensures 0 <= v % 65536 < 65536 && SignedWord(v % 65536) == v
  {
    if v >= 0 {
      DivModUnique(v, 65536, 0, v);
    } else {
      DivModUnique(v, 65536, -1, v + 65536);
    }
  }

  /** The two little-endian bytes of a word 0 <= v < 65536. */
  function WordBytes(v: nat): (r: seq<byte>)
    requires v < 65536
    ensures |r| == 2 && Word(r[0], r[1]) == v
  {
    [v % 256, v / 256]
  }

  function PutU16(a: Arena, off: nat, v: int): (r: Result<Arena>)
    ensures r.Ok? <==> off + 2 <= |a| && 0 <= v < 65536
    ensures r.Fail? ==> r.error == (if off + 2 <= |a| then ValueRange else OutOfBounds)
    ensures r.Ok? ==> GetU16(r.value, off) == Ok(v) && SameOutside(a, r.value, off, off + 2)
  {
    if off + 2 > |a| then Fail(OutOfBounds)
    else if !(0 <= v < 65536) then Fail(ValueRange)
    else
      var w := WordBytes(v);
      Ok(a[off := w[0]][off + 1 := w[1]])
  }

  // ---- '%dh': a run of signed words -------------------------------------

  /** `n` consecutive signed words read from `off`; the whole run is bounds-checked first. */
  function GetS16Run(a: Arena, off: nat, n: nat): (r: Result<seq<int>>)
    ensures r.Ok? <==> off + 2 * n <= |a|
    ensures r.Ok? ==> |r.value| == n
    ensures r.Ok? ==> forall k :: 0 <= k < n ==> GetS16(a, off + 2 * k) == Ok(r.value[k])
  {
    if off + 2 * n > |a| then Fail(OutOfBounds)
    else Ok(seq(n, k requires 0 <= k < n => SignedWord(Word(a[off + 2 * k], a[off + 2 * k + 1]))))
  }

  /** The signed word stored at word index `k` of a byte string. */
  function WordAt(s: seq<byte>, k: nat): int
    requires 2 * k + 2 <= |s|
  {
    SignedWord(Word(s[2 * k], s[2 * k + 1]))
  }

  /** Every value fits a signed 16-bit word. */
  predicate AllWords(vs: seq<int>)
  {
    forall k :: 0 <= k < |vs| ==> -32768 <= vs[k] < 32768
  }

  /** Byte `i` of the little-endian packing of `vs`. */
  function PackedByte(vs: seq<int>, i: nat): byte
    requires i < 2 * |vs|
  {
    WordBytes(vs[i / 2] % 65536)[i % 2]
  }

  /** The packed bytes of signed words (format '%dh'); fails if one is out of range. */
  function S16Bytes(vs: seq<int>): (r: Result<seq<byte>>)
    ensures r.Ok? <==> AllWords(vs)
    ensures r.Ok? ==> |r.value| == 2 * |vs|
    ensures r.Fail? ==> r.error == ValueRange
  {
    if AllWords(vs) then Ok(seq(2 * |vs|, i requires 0 <= i < 2 * |vs| => PackedByte(vs, i)))
    else Fail(ValueRange)
  }

  /** Each packed word reads back as the value it packs. */
  lemma S16BytesAt(vs: seq<int>, k: nat)
    requires S16Bytes(vs).Ok? && k < |vs|
    ensures WordAt(S16Bytes(vs).value, k) == vs[k]
  {
    var r := S16Bytes(vs).value;
    var wb := WordBytes(vs[k] % 65536);
    assert (2 * k) / 2 == k && (2 * k) % 2 == 0;
    assert (2 * k + 1) / 2 == k && (2 * k + 1) % 2 == 1;
    assert r[2 * k] == wb[0] && r[2 * k + 1] == wb[1];
    SignedWordOfMod(vs[k]);
  }

  /** Packed words stored at `q` read back as the values packed. */
  lemma GetS16RunOfPacked(a: Arena, q: nat, vs: seq<int>, words: seq<byte>)
    requires S16Bytes(vs) == Ok(words) && q + |words| <= |a|
    requires forall k :: 0 <= k < |words| ==> a[q + k] == words[k]
    ensures GetS16Run(a, q, |vs|) == Ok(vs)
  {
    var run := GetS16Run(a, q, |vs|).value;
    forall k | 0 <= k < |vs|
      ensures run[k] == vs[k]
    {
      S16BytesAt(vs, k);
      assert a[q + 2 * k] == words[2 * k];
      assert a[q + (2 * k + 1)] == words[2 * k + 1];
      assert GetS16(a, q + 2 * k) == Ok(WordAt(words, k));
    }
    assert run == vs;
  }

  // ---- '%ds': a fixed-length byte string --------------------------------

  function GetBytes(a: Arena, off: nat, n: nat): (r: Result<seq<byte>>)
    ensures r.Ok? <==> off + n <= |a|
    ensures r.Ok? ==> |r.value| == n
  {
    if off + n <= |a| then Ok(a[off..off + n]) else Fail(OutOfBounds)
  }

  /** `s` written at `off`, as a byte string of exactly |s| bytes. */
  function Overwrite(a: Arena, off: nat, s: seq<byte>): (r: Arena)
    requires off + |s| <= |a|
    ensures SameOutside(a, r, off, off + |s|)
    ensures r[off..off + |s|] == s
  {
    a[..off] + s + a[off + |s|..]
  }

  /** Python's slice assignment `a[lo:lo+|s|] = s`: the slice bounds are clamped to
      the arena, so a slice running past the end makes the arena longer. */
  function SliceAssign(a: Arena, lo: nat, s: seq<byte>): (r: Arena)
    ensures lo + |s| <= |a| ==> r == Overwrite(a, lo, s)
  {
    var l := if lo <= |a| then lo else |a|;
    var h := if lo + |s| <= |a| then lo + |s| else |a|;
    a[..l] + s + a[h..]
  }
}

=== FILE: cells.dfy ===
/**
 The sub-byte cell codec behind `Table.Data` and `Table.setData`: an n-bit
 cell starting at bit `bit` of byte `ptr`, consumed least-significant bit
 first, crossing byte boundaries.  The two loops are modelled as recursive
 functions over (ptr, bit, rem) exactly as they step: each round handles
 the 8 - bit bits left in the current byte, then moves to the next byte with
 bit = 0.  The chunks a round contributes occupy disjoint bit ranges, so
 config.py's `|` is `+` here.
 */
module Cells {
  import opened Results
  import opened Arith
  import opened Bytes

  /** A table's cell encoding: config.py's float encoding `e` gives a width of
      int(8*|e|) bits, signed when e < 0. */
  datatype Encoding = Encoding(bits: nat, signed: bool)

  /** A cell position as `DataPtr` returns it: byte index, bit within that
      byte, and width in bits. */
  datatype CellAddr = CellAddr(pos: nat, bit: nat, width: nat)

  /** Splits an absolute bit position into (byte, bit), as `ptr % 8` and `ptr >> 3`. */
  function Locate(p: nat, width: nat): (r: CellAddr)
    ensures r.bit < 8 && 8 * r.pos + r.bit == p && r.width == width
  {
    CellAddr(p / 8, p % 8, width)
  }

  /** The number of rounds either loop makes, i.e. of bytes it touches. */
  function Chunks(bit: nat, rem: int): nat
    requires bit < 8
    decreases rem
  {
    if rem <= 0 then 0 else 1 + Chunks(0, rem - (8 - bit))
  }

  /** A cell of n > 0 bits starting at bit `bit` spans ceil((bit + n) / 8) bytes. */
  lemma {:induction false} ChunksCount(bit: nat, n: nat)
    requires bit < 8 && n > 0
    ensures Chunks(bit, n) == (bit + n + 7) / 8
    decreases n
  {
    if n > 8 - bit {
      ChunksCount(0, n - (8 - bit));
    }
  }

  // ---- reading (Table.Data, config.py:209-217) -----------------------------

  /** The loop of `Data`: `val |= (tune[ptr] >> bit) << shift`, round by round. */
  function ReadLoop(a: Arena, ptr: nat, bit: nat, rem: int): (r: Result<int>)
    requires bit < 8
    ensures r.Ok? <==> rem <= 0 || ptr + Chunks(bit, rem) <= |a|
    ensures r.Fail? ==> r.error == OutOfBounds
    decreases rem
  {
    if rem <= 0 then Ok(0)
    else if ptr >= |a| then Fail(OutOfBounds)
    else
      match ReadLoop(a, ptr + 1, 0, rem - (8 - bit))
      case Fail(e) => Fail(e)
      case Ok(rest) => Ok(a[ptr] / Pow2(bit) + Pow2(8 - bit) * rest)
  }

  /** Masking to the cell width and two's-complement sign extension
      (config.py:218-221): `val & (span - 1)`, then `val - span` when signed and
      the top bit `span >> 1` is set. */
  function Interpret(raw: int, e: Encoding): (r: int)
    ensures !e.signed ==> 0 <= r < Pow2(e.bits)
    ensures e.signed && e.bits > 0 ==> -(Pow2(e.bits - 1) as int) <= r < Pow2(e.bits - 1)
    ensures r % Pow2(e.bits) == raw % Pow2(e.bits)
  {
    var span := Pow2(e.bits);
    var v := raw % span;
    Small(v, e.bits);
    if e.signed && e.bits > 0 && v >= Pow2(e.bits - 1) then
      ModAddMultiple(v, span, 1, -1);
      v - span
    else v
  }

  /** The values a cell can hold. */
  predicate Representable(v: int, e: Encoding)
  {
    if e.signed && e.bits > 0 then -(Pow2(e.bits - 1) as int) <= v < Pow2(e.bits - 1)
    else 0 <= v < Pow2(e.bits)
  }

  /** Masking then sign-extending a representable value gives it back. */
  lemma InterpretRepresentable(v: int, e: Encoding)
    requires Representable(v, e)
    ensures Interpret(v % Pow2(e.bits), e) == v
  {
    var p := Pow2(e.bits);
    if v >= 0 {
      if e.signed && e.bits > 0 {
        Pow2Monotone(e.bits - 1, e.bits);
      }
      Small(v, e.bits);
    } else {
      assert e.signed && e.bits > 0;
      DivModUnique(v, p, -1, v + p);
      Small(v + p, e.bits);
    }
  }

  /** A representable value is its own masked and sign-extended reading. */
  lemma InterpretFixes(v: int, e: Encoding)
    requires Representable(v, e)
    ensures Interpret(v, e) == v
  {
    InterpretRepresentable(v, e);
    Small(v % Pow2(e.bits), e.bits);
  }

  function ReadCell(a: Arena, c: CellAddr, e: Encoding): (r: Result<int>)
    requires c.bit < 8
    ensures r.Ok? <==> c.width == 0 || c.pos + Chunks(c.bit, c.width) <= |a|
  {
    var raw :- ReadLoop(a, c.pos, c.bit, c.width);
    Ok(Interpret(raw, e))
  }

  /** The number a byte string spells little-endian: first byte least significant. */
  function LittleEndian(s: seq<byte>): nat
  {
    if |s| == 0 then 0 else s[0] + 256 * LittleEndian(s[1..])
  }

  /** One round of the read loop on numbers: the byte's bits from `bit` on,
      plus the rest placed above them. */
  lemma RoundValue(x: nat, bit: nat, rest: nat)
    requires bit < 8
    ensures (x + 256 * rest) / Pow2(bit) == x / Pow2(bit) + Pow2(8 - bit) * rest
  {
    var low, high := Pow2(bit), Pow2(8 - bit);
    assert low * high == 256 by { Pow2Add(bit, 8 - bit); Pow2Eight(); }
    assert 256 * rest == low * (high * rest);
    DivAddMultiple(x, low, high * rest);
  }

  /** What the read loop assembles: the bytes the cell spans, taken as one
      little-endian number, shifted right by the cell's starting bit. */
  lemma {:induction false} ReadLoopValue(a: Arena, ptr: nat, bit: nat, rem: int)
    requires bit < 8 && rem > 0 && ptr + Chunks(bit, rem) <= |a|
    ensures ReadLoop(a, ptr, bit, rem) == Ok(LittleEndian(a[ptr..ptr + Chunks(bit, rem)]) / Pow2(bit))
    decreases rem
  {
    var n, next := Chunks(bit, rem), rem - (8 - bit);
    var s := a[ptr..ptr + n];
    assert s[0] == a[ptr] && s[1..] == a[ptr + 1..ptr + n];
    var rest := LittleEndian(s[1..]);
    if next > 0 {
      ReadLoopValue(a, ptr + 1, 0, next);
    }
    assert ReadLoop(a, ptr + 1, 0, next) == Ok(rest);
    RoundValue(a[ptr], bit, rest);
  }

  /** A byte-aligned unsigned 16-bit cell reads as the little-endian word of
      its two bytes. */
  lemma ReadAlignedWord(a: Arena, ptr: nat)
    requires ptr + 2 <= |a|
    ensures ReadCell(a, CellAddr(ptr, 0, 16), Encoding(16, false)) == Ok(Word(a[ptr], a[ptr + 1]))
  {
    ReadLoopValue(a, ptr, 0, 16);
    assert Chunks(0, 16) == 2;
    var s := a[ptr..ptr + 2];
    assert s[1..][1..] == [];
    assert LittleEndian(s) == Word(a[ptr], a[ptr + 1]);
    assert Pow2(16) == 65536 by { Pow2Add(8, 8); Pow2Eight(); }
    Small(Word(a[ptr], a[ptr + 1]), 16);
  }

  // ---- writing (Table.setData, config.py:227-235) --------------------------

  /** The loop of `setData`:
      `tune[ptr] = (tune[ptr] & ((1 << bit) - 1)) | (val << bit)`, then
      `val >>= 8 - bit`.  The chunk is not masked to 8 bits, so assigning it
      fails as soon as it exceeds 255. */
  function WriteLoop(a: Arena, ptr: nat, bit: nat, rem: int, val: nat): (r: Result<Arena>)
    requires bit < 8
    ensures r.Ok? ==> |r.value| == |a|
    decreases rem
  {
    if rem <= 0 then Ok(a)
    else if ptr >= |a| then Fail(OutOfBounds)
    else
      var low := a[ptr] % Pow2(bit);
      var shifted := Shl(val, bit);
      var b := low + shifted;
      if b > 255 then Fail(ValueRange)
      else WriteLoop(a[ptr := b], ptr + 1, 0, rem - (8 - bit), Shr(val, 8 - bit))
  }

  /** `v << k`. */
  function Shl(v: nat, k: nat): nat
  {
    v * Pow2(k)
  }

  /** `v >> k`. */
  function Shr(v: nat, k: nat): nat
  {
    DivNonneg(v, Pow2(k));
    v / Pow2(k)
  }

  /** `setData` after its `val & (span - 1)` masking. */
  function WriteCell(a: Arena, c: CellAddr, v: int): Result<Arena>
    requires c.bit < 8
  {
    WriteLoop(a, c.pos, c.bit, c.width, v % Pow2(c.width))
  }

  /** The first chunk fits in a byte exactly when the value fits in the 8 - bit
      bits left in that byte. */
  lemma FirstChunk(x: byte, val: nat, bit: nat)
    requires bit < 8
    ensures x % Pow2(bit) + val * Pow2(bit) <= 255 <==> val < Pow2(8 - bit)
  {
    Pow2Add(bit, 8 - bit);
    Pow2Eight();
    ChunkBound(x % Pow2(bit), val, Pow2(bit), Pow2(8 - bit));
  }

  lemma ChunkBound(low: int, val: int, d: int, e: int)
    requires d >= 1 && d * e == 256 && 0 <= low < d && val >= 0
    ensures low + val * d <= 255 <==> val < e
  {
    if val < e {
      MulMonotone(val, e - 1, d);
      assert (e - 1) * d == e * d - d;
    } else {
      MulMonotone(e, val, d);
    }
  }

  /** The write succeeds exactly when the cell lies inside the image and the
      value fits in the bits left in the cell's first byte: a value that needs
      a second byte makes `setData` raise. */
  lemma {:induction false} WriteLoopOk(a: Arena, ptr: nat, bit: nat, rem: int, val: nat)
    requires bit < 8
    ensures WriteLoop(a, ptr, bit, rem, val).Ok? <==>
              rem <= 0 || (ptr + Chunks(bit, rem) <= |a| && val < Pow2(8 - bit))
    ensures WriteLoop(a, ptr, bit, rem, val).Fail? && ptr + Chunks(bit, rem) <= |a| ==>
              WriteLoop(a, ptr, bit, rem, val).error == ValueRange
    decreases rem
  {
    if rem > 0 && ptr < |a| {
      var low := a[ptr] % Pow2(bit);
      var shifted := Shl(val, bit);
      var b := low + shifted;
      FirstChunk(a[ptr], val, bit);
      if b <= 255 {
        Small(val, 8 - bit);
        WriteLoopOk(a[ptr := b], ptr + 1, 0, rem - (8 - bit), 0);
      }
    }
  }

  /** Only the Chunks(bit, rem) bytes from `ptr` on are touched. */
  lemma {:induction false} WriteLoopFrame(a: Arena, ptr: nat, bit: nat, rem: int, val: nat)
    requires bit < 8
    requires WriteLoop(a, ptr, bit, rem, val).Ok?
    ensures SameOutside(a, WriteLoop(a, ptr, bit, rem, val).value, ptr, ptr + Chunks(bit, rem))
    decreases rem
  {
    if rem > 0 {
      var low := a[ptr] % Pow2(bit);
      var shifted := Shl(val, bit);
      var b := low + shifted;
      var a1 := a[ptr := b];
      WriteLoopFrame(a1, ptr + 1, 0, rem - (8 - bit), Shr(val, 8 - bit));
    }
  }

  /** What a successful write leaves in the cell's bytes: the first byte keeps its
      low `bit` bits and holds the whole value above them; every later byte of the
      cell is cleared. */
  lemma {:induction false} WriteLoopContents(a: Arena, ptr: nat, bit: nat, rem: int, val: nat)
    requires bit < 8 && rem > 0
    requires WriteLoop(a, ptr, bit, rem, val).Ok?
    ensures ptr < |a| && ptr + Chunks(bit, rem) <= |a|
    ensures WriteLoop(a, ptr, bit, rem, val).value[ptr] % Pow2(bit) == a[ptr] % Pow2(bit)
    ensures WriteLoop(a, ptr, bit, rem, val).value[ptr] / Pow2(bit) == val
    ensures forall j :: ptr < j < ptr + Chunks(bit, rem) ==>
              WriteLoop(a, ptr, bit, rem, val).value[j] == 0
    decreases rem
  {
    var low := a[ptr] % Pow2(bit);
    var shifted := Shl(val, bit);
    var b := low + shifted;
    var a1 := a[ptr := b];
    var rem' := rem - (8 - bit);
    WriteLoopOk(a, ptr, bit, rem, val);
    Small(val, 8 - bit);
    var r := WriteLoop(a1, ptr + 1, 0, rem', 0).value;
    WriteLoopFrame(a1, ptr + 1, 0, rem', 0);
    assert r[ptr] == b;
    SplitLow(low, val, Pow2(bit));
    if rem' > 0 {
      WriteLoopContents(a1, ptr + 1, 0, rem', 0);
    }
  }

  /** Bytes that are all zero read as 0. */
  lemma {:induction false} ReadLoopZeros(a: Arena, ptr: nat, rem: int)
    requires rem <= 0 || ptr + Chunks(0, rem) <= |a|
    requires forall j :: ptr <= j < ptr + Chunks(0, rem) ==> a[j] == 0
    ensures ReadLoop(a, ptr, 0, rem) == Ok(0)
    decreases rem
  {
    if rem > 0 {
      ReadLoopZeros(a, ptr + 1, rem - 8);
    }
  }

  /** Reading the cell just written returns the value the write stored. */
  lemma {:induction false} WriteThenRead(a: Arena, ptr: nat, bit: nat, rem: int, val: nat)
    requires bit < 8
    requires WriteLoop(a, ptr, bit, rem, val).Ok?
    ensures ReadLoop(WriteLoop(a, ptr, bit, rem, val).value, ptr, bit, rem)
              == Ok(if rem > 0 then val else 0)
  {
    if rem > 0 {
      var r := WriteLoop(a, ptr, bit, rem, val).value;
      WriteLoopOk(a, ptr, bit, rem, val);
      WriteLoopFrame(a, ptr, bit, rem, val);
      WriteLoopContents(a, ptr, bit, rem, val);
      ReadLoopZeros(r, ptr + 1, rem - (8 - bit));
    }
  }

  /** Cell round trip: after a successful write of `v`, reading the cell with the
      same encoding returns `v` masked to the width and sign-extended, which is
      `v` itself whenever `v` is representable. */
  lemma CellRoundTrip(a: Arena, c: CellAddr, e: Encoding, v: int)
    requires c.bit < 8 && c.width == e.bits
    requires WriteCell(a, c, v).Ok?
    ensures ReadCell(WriteCell(a, c, v).value, c, e) == Ok(Interpret(v, e))
    ensures Representable(v, e) ==> ReadCell(WriteCell(a, c, v).value, c, e) == Ok(v)
  {
    var m := v % Pow2(c.width);
    var b := WriteCell(a, c, v).value;
    WriteThenRead(a, c.pos, c.bit, c.width, m);
    if c.width > 0 {
      assert ReadLoop(b, c.pos, c.bit, c.width) == Ok(m);
      Small(m, c.width);
      assert Interpret(m, e) == Interpret(v, e);
    } else {
      assert ReadLoop(b, c.pos, c.bit, c.width) == Ok(0);
      assert Interpret(0, e) == 0 == Interpret(v, e);
    }
    if Representable(v, e) {
      InterpretRepresentable(v, e);
    }
  }

  // ---- framing: which bits a read depends on --------------------------------

  /** `a` and `b` agree on the bits a read from (ptr, bit) of width `rem`
      consumes, counting in the last byte only the bits below the width. */
  ghost predicate BitsAgree(a: Arena, b: Arena, ptr: nat, bit: nat, rem: int)
    requires bit < 8
    decreases rem
  {
    rem <= 0 ||
    (&& ptr < |a| && ptr < |b|
     && if rem < 8 - bit then (a[ptr] / Pow2(bit)) % Pow2(rem) == (b[ptr] / Pow2(bit)) % Pow2(rem)
        else a[ptr] / Pow2(bit) == b[ptr] / Pow2(bit) && BitsAgree(a, b, ptr + 1, 0, rem - (8 - bit)))
  }

  /** Equal low parts survive a shift: x == y (mod 2^r) gives
      u + 2^k x == u + 2^k y (mod 2^(k + r)). */
  lemma ShiftedModEq(u: int, x: int, y: int, k: nat, r: nat)
    requires x % Pow2(r) == y % Pow2(r)
    ensures (u + Pow2(k) * x) % Pow2(k + r) == (u + Pow2(k) * y) % Pow2(k + r)
  {
    Pow2Add(k, r);
    ModMulShift(u, x, y, Pow2(k), Pow2(r));
  }

  /** A read depends only on the bits it consumes: where two images agree on
      them, the reads agree below the width, so the cell values agree. */
  lemma {:induction false} ReadAgree(a: Arena, b: Arena, ptr: nat, bit: nat, rem: nat)
    requires bit < 8 && rem > 0 && BitsAgree(a, b, ptr, bit, rem)
    requires ReadLoop(a, ptr, bit, rem).Ok? && ReadLoop(b, ptr, bit, rem).Ok?
    ensures ReadLoop(a, ptr, bit, rem).value % Pow2(rem) == ReadLoop(b, ptr, bit, rem).value % Pow2(rem)
    decreases rem
  {
    var k := 8 - bit;
    var ua, ub := a[ptr] / Pow2(bit), b[ptr] / Pow2(bit);
    var ra, rb := ReadLoop(a, ptr + 1, 0, rem - k), ReadLoop(b, ptr + 1, 0, rem - k);
    assert ReadLoop(a, ptr, bit, rem).value == ua + Pow2(k) * ra.value;
    assert ReadLoop(b, ptr, bit, rem).value == ub + Pow2(k) * rb.value;
    if rem < k {
      ModOfHighMultiple(ua, ra.value, rem, k);
      ModOfHighMultiple(ub, rb.value, rem, k);
    } else if rem == k {
      ModOfHighMultiple(ua, ra.value, rem, k);
      ModOfHighMultiple(ub, rb.value, rem, k);
    } else {
      ReadAgree(a, b, ptr + 1, 0, rem - k);
      ShiftedModEq(ua, ra.value, rb.value, k, rem - k);
    }
  }

  /** The bits of x from `bit` on, below bit k, are fixed by x mod 2^k. */
  lemma LowBitsDetermine(x: nat, y: nat, bit: nat, n: nat, k: nat)
    requires bit + n <= k && x % Pow2(k) == y % Pow2(k)
    ensures (x / Pow2(bit)) % Pow2(n) == (y / Pow2(bit)) % Pow2(n)
  {
    var b, e, m := Pow2(bit), Pow2(k - bit), Pow2(k);
    assert m == b * e by { Pow2Add(bit, k - bit); }
    var low := (x % m) / b;
    assert x / b == low + e * (x / m) by { ShiftSplit(x, b, e); }
    assert y / b == low + e * (y / m) by { ShiftSplit(y, b, e); }
    ModOfHighMultiple(low, x / m, n, k - bit);
    ModOfHighMultiple(low, y / m, n, k - bit);
  }

  /** An image that agrees with `a` on every byte before `q` and on the low
      `qbit` bits of byte `q` agrees on every cell that ends by bit (q, qbit). */
  lemma {:induction false} KeepsBitsBelow(a: Arena, b: Arena, ptr: nat, bit: nat, rem: int, q: nat, qbit: nat)
    requires bit < 8 && qbit < 8 && |a| == |b|
    requires rem <= 0 || ptr + Chunks(bit, rem) <= |a|
    requires 8 * ptr + bit + rem <= 8 * q + qbit
    requires forall i :: 0 <= i < |a| && i < q ==> b[i] == a[i]
    requires q < |a| ==> b[q] % Pow2(qbit) == a[q] % Pow2(qbit)
    ensures BitsAgree(a, b, ptr, bit, rem)
    decreases rem
  {
    if rem > 0 {
      if ptr < q {
        assert b[ptr] == a[ptr];
        if rem >= 8 - bit {
          KeepsBitsBelow(a, b, ptr + 1, 0, rem - (8 - bit), q, qbit);
        }
      } else {
        assert ptr == q;
        LowBitsDetermine(a[q], b[q], bit, rem, qbit);
      }
    }
  }

  /** A successful write leaves alone every byte before the cell and the low
      `bit` bits of its first byte, so every cell ending before it reads the same. */
  lemma WriteKeepsEarlier(a: Arena, c: CellAddr, v: int, d: CellAddr, e: Encoding)
    requires c.bit < 8 && d.bit < 8 && d.width == e.bits
    requires WriteCell(a, c, v).Ok? && ReadCell(a, d, e).Ok?
    requires 8 * d.pos + d.bit + d.width <= 8 * c.pos + c.bit
    ensures ReadCell(WriteCell(a, c, v).value, d, e) == ReadCell(a, d, e)
  {
    var b := WriteCell(a, c, v).value;
    var m := v % Pow2(c.width);
    if c.width > 0 && d.width > 0 {
      WriteLoopFrame(a, c.pos, c.bit, c.width, m);
      WriteLoopContents(a, c.pos, c.bit, c.width, m);
      KeepsBitsBelow(a, b, d.pos, d.bit, d.width, c.pos, c.bit);
      ReadAgree(a, b, d.pos, d.bit, d.width);
    } else if c.width == 0 {
      assert b == a;
    }
  }
}

=== FILE: dicts.dfy ===
/**
 Python's insertion-ordered `dict` keyed by short name, as the registry uses
 it for `all_fields` and `all_tables`: assigning to a present key replaces the
 value in place (the key keeps its position), assigning to a new key appends
 it, and iteration follows insertion order.
 */
module Dicts {
  import opened Results

  /** An association list of (key, value) pairs in insertion order. */
  type Dict<V> = seq<(string, V)>

  /** The keys in iteration order. */
  function Keys<V>(d: Dict<V>): (r: seq<string>)
    ensures |r| == |d| && forall i :: 0 <= i < |d| ==> r[i] == d[i].0
  {
    seq(|d|, i requires 0 <= i < |d| => d[i].0)
  }

  /** No key occurs twice. */
  predicate KeysUnique<V>(d: Dict<V>)
  {
    forall i, j :: 0 <= i < j < |d| ==> d[i].0 != d[j].0
  }

  /** `d[k]`; None where Python raises KeyError. */
  function Lookup<V>(d: Dict<V>, k: string): (r: Option<V>)
    ensures r.None? <==> k !in Keys(d)
  {
    if |d| == 0 then None
    else if d[|d| - 1].0 == k then Some(d[|d| - 1].1)
    else Lookup(d[..|d| - 1], k)
  }

  /** `d[k] = v`. */
  function Put<V>(d: Dict<V>, k: string, v: V): (r: Dict<V>)
  {
    if |d| == 0 then [(k, v)]
    else if d[0].0 == k then [(k, v)] + d[1..]
    else [d[0]] + Put(d[1..], k, v)
  }

  /** A present key keeps its position; a new key goes at the end. */
  lemma {:induction false} PutKeys<V>(d: Dict<V>, k: string, v: V)
    ensures k in Keys(d) ==> Keys(Put(d, k, v)) == Keys(d)
    ensures k !in Keys(d) ==> Keys(Put(d, k, v)) == Keys(d) + [k]
  {
    if |d| > 0 && d[0].0 != k {
      PutKeys(d[1..], k, v);
      assert Keys(d) == [d[0].0] + Keys(d[1..]);
      assert Keys(Put(d, k, v)) == [d[0].0] + Keys(Put(d[1..], k, v));
    } else if |d| > 0 {
      assert Keys(Put(d, k, v)) == Keys(d);
    }
  }

  /** Only the entry for `k` changes, and it becomes (k, v). */
  lemma {:induction false} PutEntries<V>(d: Dict<V>, k: string, v: V)
    requires KeysUnique(d)
    ensures k in Keys(d) ==> |Put(d, k, v)| == |d|
    ensures k !in Keys(d) ==> Put(d, k, v) == d + [(k, v)]
    ensures forall i :: 0 <= i < |d| ==>
              Put(d, k, v)[i] == (if d[i].0 == k then (k, v) else d[i])
  {
    if |d| > 0 && d[0].0 != k {
      assert KeysUnique(d[1..]);
      assert Keys(d) == [d[0].0] + Keys(d[1..]);
      PutEntries(d[1..], k, v);
    }
  }

  /** Assignment keeps the keys unique. */
  lemma PutUnique<V>(d: Dict<V>, k: string, v: V)
    requires KeysUnique(d)
    ensures KeysUnique(Put(d, k, v))
  {
    PutKeys(d, k, v);
    var r := Put(d, k, v);
    forall i, j | 0 <= i < j < |r|
      ensures r[i].0 != r[j].0
    {
      assert Keys(r)[i] == r[i].0 && Keys(r)[j] == r[j].0;
      if k !in Keys(d) {
        if j == |d| {
          assert Keys(d)[i] == d[i].0;
        }
      }
    }
  }

  /** With unique keys, the last entry for a key is its only entry. */
  lemma {:induction false} LookupUnique<V>(d: Dict<V>, i: nat)
    requires KeysUnique(d) && i < |d|
    ensures Lookup(d, d[i].0) == Some(d[i].1)
  {
    if i != |d| - 1 {
      assert KeysUnique(d[..|d| - 1]);
      assert d[..|d| - 1][i] == d[i];
      LookupUnique(d[..|d| - 1], i);
    }
  }

  /** Reading back an assignment gives the value assigned. */
  lemma LookupPut<V>(d: Dict<V>, k: string, v: V)
    requires KeysUnique(d)
    ensures Lookup(Put(d, k, v), k) == Some(v)
  {
    PutKeys(d, k, v);
    PutEntries(d, k, v);
    PutUnique(d, k, v);
    var r := Put(d, k, v);
    if k in Keys(d) {
      var i :| 0 <= i < |d| && Keys(d)[i] == k;
      LookupUnique(r, i);
    } else {
      LookupUnique(r, |d|);
    }
  }

  /** An assignment leaves every other key as it was. */
  lemma LookupPutOther<V>(d: Dict<V>, k: string, v: V, k': string)
    requires KeysUnique(d) && k' != k
    ensures Lookup(Put(d, k, v), k') == Lookup(d, k')
  {
    PutKeys(d, k, v);
    PutEntries(d, k, v);
    PutUnique(d, k, v);
    var r := Put(d, k, v);
    if k' in Keys(d) {
      var i :| 0 <= i < |d| && Keys(d)[i] == k';
      LookupUnique(r, i);
      LookupUnique(d, i);
    } else {
      assert k' !in Keys(r);
    }
  }

  /** The values in iteration order (`d.values()`). */
  function Values<V>(d: Dict<V>): (r: seq<V>)
    ensures |r| == |d| && forall i :: 0 <= i < |d| ==> r[i] == d[i].1
  {
    seq(|d|, i requires 0 <= i < |d| => d[i].1)
  }
}

=== FILE: fields.dfy ===
/**
 The fixed-offset field descriptors of config.py: Scalar, Select, VarSelect
 and Text.  Each reads and writes one slot at a fixed byte offset of the tune
 image; `get` reads it, `set` returns the image with the slot rewritten.
 Decimal scaling by `10 ** exponent` is not modelled: a Scalar's value is its
 raw stored word (exponent 0).
 */
module Fields {
  import opened Results
  import opened Bytes

  /** A variable's short name as listed in the schema; the list may hold a null
      (None) entry, which is what a table records for an absent axis. */
  type VarName = Option<string>

  /** A 2-byte unsigned word (format 'H', little-endian) at `offset`.  The
      Python code only accepts encoding 2, so the width is fixed. */
  datatype Scalar = Scalar(shortName: string, offset: nat)

  /** A 1-byte index into the ordered `choices`. */
  datatype Select = Select(shortName: string, offset: nat, choices: seq<string>)

  /** A 1-byte index into the registry's ordered list of variable short names. */
  datatype VarSelect = VarSelect(shortName: string, offset: nat)

  /** A fixed-length byte string (format '%ds'), NUL-padded. */
  datatype Text = Text(shortName: string, offset: nat, length: nat)

  // ---- Scalar ------------------------------------------------------------

  function ScalarGet(s: Scalar, a: Arena): (r: Result<nat>)
    ensures r.Ok? <==> s.offset + 2 <= |a|
    ensures r.Ok? ==> r.value < 65536
  {
    GetU16(a, s.offset)
  }

  /** `struct.pack_into('H', ...)` of the raw value: fails unless 0 <= v < 65536. */
  function ScalarSet(s: Scalar, a: Arena, v: int): (r: Result<Arena>)
    ensures r.Ok? <==> s.offset + 2 <= |a| && 0 <= v < 65536
    ensures r.Ok? ==> ScalarGet(s, r.value) == Ok(v)
    ensures r.Ok? ==> SameOutside(a, r.value, s.offset, s.offset + 2)
  {
    PutU16(a, s.offset, v)
  }

  /** Writing back what was read leaves the image unchanged. */
  lemma ScalarSetOfGet(s: Scalar, a: Arena)
    requires ScalarGet(s, a).Ok?
    ensures ScalarSet(s, a, ScalarGet(s, a).value) == Ok(a)
  {
    var v := ScalarGet(s, a).value;
    var b := ScalarSet(s, a, v).value;
    assert b[s.offset] == a[s.offset];
    assert b[s.offset + 1] == a[s.offset + 1];
    assert b == a;
  }

  // ---- Select ------------------------------------------------------------

  function SelectGet(s: Select, a: Arena): (r: Result<string>)
    ensures r.Ok? <==> s.offset < |a| && a[s.offset] < |s.choices|
    ensures r.Ok? ==> r.value == s.choices[a[s.offset]]
  {
    var i :- GetU8(a, s.offset);
    if i < |s.choices| then Ok(s.choices[i]) else Fail(BadIndex)
  }

  /** Stores the position of the first occurrence of `v` in `choices`. */
  function SelectSet(s: Select, a: Arena, v: string): (r: Result<Arena>)
    ensures r.Ok? <==> v in s.choices && s.offset < |a| && IndexOf(s.choices, v).value < 256
    ensures v !in s.choices ==> r == Fail(NotListed)
    ensures r.Ok? ==> SelectGet(s, r.value) == Ok(v)
    ensures r.Ok? ==> SameOutside(a, r.value, s.offset, s.offset + 1)
  {
    var i :- IndexOf(s.choices, v);
    PutU8(a, s.offset, i)
  }

  /** Writing back what was read leaves the image unchanged when the stored
      index is the first occurrence of its choice. */
  lemma SelectSetOfGet(s: Select, a: Arena)
    requires SelectGet(s, a).Ok?
    requires forall j :: 0 <= j < a[s.offset] ==> s.choices[j] != s.choices[a[s.offset]]
    ensures SelectSet(s, a, SelectGet(s, a).value) == Ok(a)
  {
    var v := SelectGet(s, a).value;
    assert IndexOf(s.choices, v) == Ok(a[s.offset] as nat);
    assert a[s.offset := a[s.offset]] == a;
  }

  // ---- VarSelect ---------------------------------------------------------

  /** The short name stored at the slot (not a Variable record: the registry's
      variable list holds short names). */
  function VarSelectGet(s: VarSelect, vars: seq<VarName>, a: Arena): (r: Result<VarName>)
    ensures r.Ok? <==> s.offset < |a| && a[s.offset] < |vars|
    ensures r.Ok? ==> r.value == vars[a[s.offset]]
  {
    var i :- GetU8(a, s.offset);
    if i < |vars| then Ok(vars[i]) else Fail(BadIndex)
  }

  function VarSelectSet(s: VarSelect, vars: seq<VarName>, a: Arena, v: VarName): (r: Result<Arena>)
    ensures r.Ok? <==> v in vars && s.offset < |a| && IndexOf(vars, v).value < 256
    ensures v !in vars ==> r == Fail(NotListed)
    ensures r.Ok? ==> VarSelectGet(s, vars, r.value) == Ok(v)
    ensures r.Ok? ==> SameOutside(a, r.value, s.offset, s.offset + 1)
  {
    var i :- IndexOf(vars, v);
    PutU8(a, s.offset, i)
  }

  // ---- Text --------------------------------------------------------------

  /** The bytes before the first NUL (Python's `s.split('\0')[0]`). */
  function UpToNul(s: seq<byte>): (r: seq<byte>)
    ensures |r| <= |s| && r == s[..|r|]
    ensures 0 !in r
    ensures |r| < |s| ==> s[|r|] == 0
  {
    if |s| == 0 || s[0] == 0 then [] else [s[0]] + UpToNul(s[1..])
  }

  /** The exactly-`n`-byte string that format '%ds' packs: `v` cut to `n` bytes,
      or padded with NULs up to `n`. */
  function Fit(v: seq<byte>, n: nat): (r: seq<byte>)
    ensures |r| == n
    ensures forall i :: 0 <= i < n ==> r[i] == (if i < |v| then v[i] else 0)
  {
    if |v| >= n then v[..n] else v + Zeros(n - |v|)
  }

  function TextGet(t: Text, a: Arena): (r: Result<seq<byte>>)
    ensures r.Ok? <==> t.offset + t.length <= |a|
    ensures r.Ok? ==> |r.value| <= t.length && 0 !in r.value
  {
    var s :- GetBytes(a, t.offset, t.length);
    Ok(UpToNul(s))
  }

  /** Always writes exactly `length` bytes: too long a value is silently cut. */
  function TextSet(t: Text, a: Arena, v: seq<byte>): (r: Result<Arena>)
    ensures r.Ok? <==> t.offset + t.length <= |a|
    ensures r.Ok? ==> SameOutside(a, r.value, t.offset, t.offset + t.length)
    ensures r.Ok? ==> forall i :: 0 <= i < t.length ==>
                        r.value[t.offset + i] == (if i < |v| then v[i] else 0)
  {
    if t.offset + t.length > |a| then Fail(OutOfBounds)
    else Ok(Overwrite(a, t.offset, Fit(v, t.length)))
  }

  /** Reading after writing gives the written value up to its first NUL and
      its first `length` bytes; in particular a NUL-free value of at most
      `length` bytes comes back unchanged. */
  lemma {:induction false} TextGetOfSet(t: Text, a: Arena, v: seq<byte>)
    requires TextSet(t, a, v).Ok?
    ensures TextGet(t, TextSet(t, a, v).value)
              == Ok(UpToNul(if |v| <= t.length then v else v[..t.length]))
    ensures 0 !in v && |v| <= t.length ==> TextGet(t, TextSet(t, a, v).value) == Ok(v)
  {
    var b := TextSet(t, a, v).value;
    var slot := b[t.offset..t.offset + t.length];
    assert slot == Fit(v, t.length);
    var w := if |v| <= t.length then v else v[..t.length];
    UpToNulOfPadded(w, t.length - |w|);
    assert Fit(v, t.length) == w + Zeros(t.length - |w|);
    if 0 !in v && |v| <= t.length {
      UpToNulOfClean(v);
    }
  }

  lemma {:induction false} UpToNulOfPadded(w: seq<byte>, k: nat)
    ensures UpToNul(w + Zeros(k)) == UpToNul(w)
  {
    if |w| == 0 {
      if k > 0 {
        assert (w + Zeros(k))[0] == 0;
      }
    } else if w[0] != 0 {
      assert (w + Zeros(k))[1..] == w[1..] + Zeros(k);
      UpToNulOfPadded(w[1..], k);
    }
  }

  lemma {:induction false} UpToNulOfClean(w: seq<byte>)
    requires 0 !in w
    ensures UpToNul(w) == w
  {
    if |w| > 0 {
      assert w[0] != 0;
      assert 0 !in w[1..];
      UpToNulOfClean(w[1..]);
    }
  }

  /** Writing back what was read reproduces the slot when everything after the
      stored string's first NUL is NUL padding. */
  lemma TextSetOfGet(t: Text, a: Arena)
    requires TextGet(t, a).Ok?
    requires forall i :: t.offset + |TextGet(t, a).value| <= i < t.offset + t.length ==> a[i] == 0
    ensures TextSet(t, a, TextGet(t, a).value) == Ok(a)
  {
    var s := TextGet(t, a).value;
    var slot := a[t.offset..t.offset + t.length];
    assert s == slot[..|s|];
    assert Fit(s, t.length) == slot by {
      forall i | 0 <= i < t.length
        ensures Fit(s, t.length)[i] == slot[i]
      {
        if i < |s| {
          assert s[i] == slot[i];
        } else {
          assert a[t.offset + i] == 0;
        }
      }
    }
    assert a[..t.offset] + slot + a[t.offset + t.length..] == a;
  }
}

=== FILE: registry.dfy ===
/**
 The schema registry (`Config`): the flat catalogue of field descriptors built
 from the nested menu description, the table-only view the allocator
 enumerates, the free-space queries, table allocation, and whole-image
 Decode / Encode.
 */
module Registry {
  import opened Results
  import opened Bytes
  import opened Cells
  import opened Fields
  import opened Tables
  import opened Allocator
  import opened Dicts

  /** A field descriptor of any kind, as `class_map` instantiates it. */
  datatype Field =
    | ScalarField(scalar: Scalar)
    | SelectField(select: Select)
    | VarSelectField(varSelect: VarSelect)
    | TextField(text: Text)
    | TableField(table: Table)
  {
    function ShortName(): string
    {
      match this
      case ScalarField(s) => s.shortName
      case SelectField(s) => s.shortName
      case VarSelectField(s) => s.shortName
      case TextField(s) => s.shortName
      case TableField(s) => s.shortName
    }
  }

  /** The menu description: submenus and pages hold further entries (the
      Python code skips their title, `menu[1]`); any other entry is a field. */
  datatype Menu =
    | Submenu(title: string, items: seq<Menu>)
    | Page(title: string, items: seq<Menu>)
    | Leaf(field: Field)

  /** The registry: the table area [tableOffset, totalSize), the ordered
      variable short names, and the short-name dictionaries `all_fields` and
      `all_tables`. */
  datatype Config = Config(
    tableOffset: nat,
    totalSize: nat,
    variables: seq<VarName>,
    fields: Dict<Field>,
    tables: Dict<Table>)

  // ---- building the catalogue ---------------------------------------------------

  /** The leaf case of `ProcessMenu`: file the field under its short name,
      replacing any earlier field of that name, and tables also in the table view. */
  function Register(c: Config, f: Field): (r: Config)
    ensures r.tableOffset == c.tableOffset && r.totalSize == c.totalSize && r.variables == c.variables
    ensures !f.TableField? ==> r.tables == c.tables
  {
    var fields := Put(c.fields, f.ShortName(), f);
    if f.TableField? then c.(fields := fields, tables := Put(c.tables, f.ShortName(), f.table))
    else c.(fields := fields)
  }

  /** `ProcessMenu` applied to each entry in turn. */
  function ProcessItems(c: Config, items: seq<Menu>): (r: Config)
    ensures r.tableOffset == c.tableOffset && r.totalSize == c.totalSize && r.variables == c.variables
    decreases items
  {
    if |items| == 0 then c
    else
      var c1 := match items[0]
        case Submenu(_, sub) => ProcessItems(c, sub)
        case Page(_, sub) => ProcessItems(c, sub)
        case Leaf(f) => Register(c, f);
      ProcessItems(c1, items[1..])
  }

  /** `Config.__init__`: empty dictionaries, then every top-level menu entry. */
  function NewConfig(tableOffset: nat, totalSize: nat, variables: seq<VarName>, menu: seq<Menu>): (r: Config)
    ensures r.tableOffset == tableOffset && r.totalSize == totalSize && r.variables == variables
    ensures r == RegisterAll(Config(tableOffset, totalSize, variables, [], []), Leaves(menu))
  {
    ProcessItemsIsRegisterLeaves(Config(tableOffset, totalSize, variables, [], []), menu);
    ProcessItems(Config(tableOffset, totalSize, variables, [], []), menu)
  }

  /** Reference definition: the fields of a menu in depth-first order. */
  function Leaves(items: seq<Menu>): seq<Field>
    decreases items
  {
    if |items| == 0 then []
    else
      var first := match items[0]
        case Submenu(_, sub) => Leaves(sub)
        case Page(_, sub) => Leaves(sub)
        case Leaf(f) => [f];
      first + Leaves(items[1..])
  }

  /** Registering a list of fields one after another. */
  function RegisterAll(c: Config, fs: seq<Field>): Config
    decreases fs
  {
    if |fs| == 0 then c else RegisterAll(Register(c, fs[0]), fs[1..])
  }

  lemma {:induction false} RegisterAllAppend(c: Config, fs: seq<Field>, gs: seq<Field>)
    ensures RegisterAll(c, fs + gs) == RegisterAll(RegisterAll(c, fs), gs)
    decreases fs
  {
    if |fs| == 0 {
      assert fs + gs == gs;
    } else {
      assert (fs + gs)[0] == fs[0] && (fs + gs)[1..] == fs[1..] + gs;
      RegisterAllAppend(Register(c, fs[0]), fs[1..], gs);
    }
  }

  /** Walking the menu registers exactly its leaves, in depth-first order. */
  lemma {:induction false} ProcessItemsIsRegisterLeaves(c: Config, items: seq<Menu>)
    ensures ProcessItems(c, items) == RegisterAll(c, Leaves(items))
    decreases items
  {
    if |items| > 0 {
      var first := match items[0]
        case Submenu(_, sub) => Leaves(sub)
        case Page(_, sub) => Leaves(sub)
        case Leaf(f) => [f];
      var c1 := RegisterAll(c, first);
      match items[0] {
        case Submenu(_, sub) => ProcessItemsIsRegisterLeaves(c, sub);
        case Page(_, sub) => ProcessItemsIsRegisterLeaves(c, sub);
        case Leaf(f) => assert RegisterAll(c, [f]) == RegisterAll(Register(c, f), []);
      }
      assert ProcessItems(c, items) == ProcessItems(c1, items[1..]);
      ProcessItemsIsRegisterLeaves(c1, items[1..]);
      RegisterAllAppend(c, first, Leaves(items[1..]));
    }
  }

  /** Every entry is filed under its own short name, and no name twice. */
  predicate WellFiled(c: Config)
  {
    && KeysUnique(c.fields) && KeysUnique(c.tables)
    && (forall i :: 0 <= i < |c.fields| ==> c.fields[i].0 == c.fields[i].1.ShortName())
    && (forall i :: 0 <= i < |c.tables| ==> c.tables[i].0 == c.tables[i].1.shortName)
  }

  /** Filing under the short name keeps the dictionary well filed. */
  lemma PutFiled<V>(d: Dict<V>, k: string, v: V, name: V -> string)
    requires KeysUnique(d) && forall i :: 0 <= i < |d| ==> d[i].0 == name(d[i].1)
    requires name(v) == k
    ensures KeysUnique(Put(d, k, v))
    ensures forall i :: 0 <= i < |Put(d, k, v)| ==> Put(d, k, v)[i].0 == name(Put(d, k, v)[i].1)
  {
    PutUnique(d, k, v);
    PutKeys(d, k, v);
    PutEntries(d, k, v);
  }

  lemma RegisterFiled(c: Config, f: Field)
    requires WellFiled(c)
    ensures WellFiled(Register(c, f))
  {
    PutFiled(c.fields, f.ShortName(), f, (g: Field) => g.ShortName());
    if f.TableField? {
      PutFiled(c.tables, f.ShortName(), f.table, (t: Table) => t.shortName);
    }
  }

  lemma {:induction false} RegisterAllFiled(c: Config, fs: seq<Field>)
    requires WellFiled(c)
    ensures WellFiled(RegisterAll(c, fs))
    decreases fs
  {
    if |fs| > 0 {
      RegisterFiled(c, fs[0]);
      RegisterAllFiled(Register(c, fs[0]), fs[1..]);
    }
  }

  /** The last field of the list with short name `n`, if any. */
  function LastNamed(fs: seq<Field>, n: string): Option<Field>
  {
    if |fs| == 0 then None
    else if fs[|fs| - 1].ShortName() == n then Some(fs[|fs| - 1])
    else LastNamed(fs[..|fs| - 1], n)
  }

  /** The last table of the list with short name `n`, if any. */
  function LastTableNamed(fs: seq<Field>, n: string): Option<Table>
  {
    if |fs| == 0 then None
    else if fs[|fs| - 1].TableField? && fs[|fs| - 1].ShortName() == n then Some(fs[|fs| - 1].table)
    else LastTableNamed(fs[..|fs| - 1], n)
  }

  /** Registration is last-wins: a name denotes the last field registered under
      it, and in the table view the last table registered under it (which a
      later non-table field of the same name does not displace). */
  lemma {:induction false} RegisterAllLookup(c: Config, fs: seq<Field>, n: string)
    requires WellFiled(c)
    ensures Lookup(RegisterAll(c, fs).fields, n)
              == (if LastNamed(fs, n).Some? then LastNamed(fs, n) else Lookup(c.fields, n))
    ensures Lookup(RegisterAll(c, fs).tables, n)
              == (if LastTableNamed(fs, n).Some? then LastTableNamed(fs, n) else Lookup(c.tables, n))
    decreases |fs|
  {
    if |fs| > 0 {
      var init, f := fs[..|fs| - 1], fs[|fs| - 1];
      assert fs == init + [f];
      RegisterAllAppend(c, init, [f]);
      var c1 := RegisterAll(c, init);
      assert RegisterAll(c1, [f]) == Register(c1, f);
      RegisterAllLookup(c, init, n);
      RegisterAllFiled(c, init);
      if f.ShortName() == n {
        LookupPut(c1.fields, n, f);
        if f.TableField? {
          LookupPut(c1.tables, n, f.table);
        }
      } else {
        LookupPutOther(c1.fields, f.ShortName(), f, n);
        if f.TableField? {
          LookupPutOther(c1.tables, f.ShortName(), f.table, n);
        }
      }
    }
  }

  /** The catalogue of a fresh registry: each short name denotes the last field
      of that name in depth-first menu order. */
  lemma NewConfigLookup(tableOffset: nat, totalSize: nat, variables: seq<VarName>, menu: seq<Menu>, n: string)
    ensures WellFiled(NewConfig(tableOffset, totalSize, variables, menu))
    ensures Lookup(NewConfig(tableOffset, totalSize, variables, menu).fields, n) == LastNamed(Leaves(menu), n)
    ensures Lookup(NewConfig(tableOffset, totalSize, variables, menu).tables, n) == LastTableNamed(Leaves(menu), n)
  {
    var c := Config(tableOffset, totalSize, variables, [], []);
    ProcessItemsIsRegisterLeaves(c, menu);
    RegisterAllFiled(c, Leaves(menu));
    RegisterAllLookup(c, Leaves(menu), n);
  }

  // ---- free table space ---------------------------------------------------------

  /** One table's entry in the list of live regions: (TablePtr, TableLen), or
      nothing when TableLen is 0. */
  function Live(t: Table, a: Arena): (r: Result<Option<Span>>)
    ensures r.Ok? <==> TableLen(t, a).Ok?
    ensures r.Ok? ==> (r.value.None? <==> TableLen(t, a).value == 0)
    ensures r.Ok? && r.value.Some? ==>
              TablePtr(t, a).Ok? && r.value.value == Span(TablePtr(t, a).value, TableLen(t, a).value)
  {
    match TableLen(t, a)
    case Fail(e) => Fail(e)
    case Ok(len) =>
      if len == 0 then Ok(None)
      else
        assert TablePtr(t, a).Ok?;
        Ok(Some(Span(TablePtr(t, a).value, len)))
  }

  /** The live regions of the tables in order: one per table whose TableLen is
      not 0; the first failing read aborts the list. */
  function LiveRegions(ts: seq<Table>, a: Arena): (r: Result<seq<Span>>)
    ensures r.Ok? <==> forall i :: 0 <= i < |ts| ==> Live(ts[i], a).Ok?
    ensures r.Ok? ==> |r.value| <= |ts|
    ensures r.Ok? ==> forall i :: 0 <= i < |ts| && Live(ts[i], a).value.Some? ==>
                        Live(ts[i], a).value.value in r.value
    ensures r.Ok? ==> forall s :: s in r.value ==>
                        exists i :: 0 <= i < |ts| && Live(ts[i], a) == Ok(Some(s))
  {
    if |ts| == 0 then Ok([])
    else
      match Live(ts[0], a)
      case Fail(e) => Fail(e)
      case Ok(head) =>
        match LiveRegions(ts[1..], a)
        case Fail(e) => Fail(e)
        case Ok(rest) =>
          LiveRegionsStep(ts, a, head, rest);
          Ok(if head.Some? then [head.value] + rest else rest)
  }

  lemma LiveRegionsStep(ts: seq<Table>, a: Arena, head: Option<Span>, rest: seq<Span>)
    requires |ts| > 0 && Live(ts[0], a) == Ok(head) && LiveRegions(ts[1..], a) == Ok(rest)
    ensures var spans := if head.Some? then [head.value] + rest else rest;
            && (forall i :: 0 <= i < |ts| ==> Live(ts[i], a).Ok?)
            && (forall i :: 0 <= i < |ts| && Live(ts[i], a).value.Some? ==> Live(ts[i], a).value.value in spans)
            && (forall s :: s in spans ==> exists i :: 0 <= i < |ts| && Live(ts[i], a) == Ok(Some(s)))
  {
    assert forall i :: 1 <= i < |ts| ==> ts[i] == ts[1..][i - 1];
    var spans := if head.Some? then [head.value] + rest else rest;
    forall s | s in spans
      ensures exists i :: 0 <= i < |ts| && Live(ts[i], a) == Ok(Some(s))
    {
      if head.Some? && s == head.value {
        assert Live(ts[0], a) == Ok(Some(s));
      } else {
        assert s in rest;
        var i :| 0 <= i < |ts[1..]| && Live(ts[1..][i], a) == Ok(Some(s));
        assert Live(ts[i + 1], a) == Ok(Some(s));
      }
    }
  }

  /** The live regions of the registry's table view. */
  function Used(c: Config, a: Arena): Result<seq<Span>>
  {
    LiveRegions(Values(c.tables), a)
  }

  /** `GetFreeTableSpace`. */
  function GetFreeTableSpace(c: Config, a: Arena): (r: Result<seq<Gap>>)
    ensures r.Ok? <==> Used(c, a).Ok?
  {
    var used :- Used(c, a);
    Ok(FreeSpace(used, c.tableOffset, c.totalSize))
  }

  /** `TotalFreeTableSpace`. */
  function TotalFreeTableSpace(c: Config, a: Arena): (r: Result<int>)
    ensures r.Ok? <==> Used(c, a).Ok?
  {
    var gaps :- GetFreeTableSpace(c, a);
    Ok(Total(gaps))
  }

  /** Sum of TableLen over the tables (absent tables count 0). */
  function SumTableLen(ts: seq<Table>, a: Arena): int
    requires forall i :: 0 <= i < |ts| ==> TableLen(ts[i], a).Ok?
  {
    if |ts| == 0 then 0 else TableLen(ts[0], a).value + SumTableLen(ts[1..], a)
  }

  lemma {:induction false} SumLenLive(ts: seq<Table>, a: Arena)
    requires LiveRegions(ts, a).Ok?
    ensures SumLen(LiveRegions(ts, a).value) == SumTableLen(ts, a)
  {
    if |ts| > 0 {
      assert forall i :: 1 <= i < |ts| ==> ts[i] == ts[1..][i - 1];
      SumLenLive(ts[1..], a);
      var head := Live(ts[0], a).value;
      var rest := LiveRegions(ts[1..], a).value;
      if head.Some? {
        assert LiveRegions(ts, a).value == [head.value] + rest;
      }
    }
  }

  /** The free space always totals the table area less the lengths of all
      tables, whether or not the tables overlap. */
  lemma TotalFreeTableSpaceValue(c: Config, a: Arena)
    requires Used(c, a).Ok?
    ensures TotalFreeTableSpace(c, a)
              == Ok(c.totalSize - c.tableOffset - SumTableLen(Values(c.tables), a))
  {
    TotalFreeIsSpanLessUsed(Used(c, a).value, c.tableOffset, c.totalSize);
    SumLenLive(Values(c.tables), a);
  }

  /** Some table with a non-empty region holds address `x`. */
  predicate TableHolds(ts: seq<Table>, a: Arena, x: int)
    requires forall i :: 0 <= i < |ts| ==> Live(ts[i], a).Ok?
  {
    exists i :: 0 <= i < |ts| && Live(ts[i], a).value.Some? && Holds(Live(ts[i], a).value.value, x)
  }

  /** A table holds `x` exactly when one of the live regions does. */
  lemma TableHoldsIsHeld(ts: seq<Table>, a: Arena, x: nat)
    requires LiveRegions(ts, a).Ok?
    ensures TableHolds(ts, a, x) <==> !Unheld(LiveRegions(ts, a).value, x)
  {
    var used := LiveRegions(ts, a).value;
    if TableHolds(ts, a, x) {
      var i :| 0 <= i < |ts| && Live(ts[i], a).value.Some? && Holds(Live(ts[i], a).value.value, x);
      var s := Live(ts[i], a).value.value;
      assert s in used;
      var k :| 0 <= k < |used| && used[k] == s;
      assert Holds(used[k], x);
    }
    if !Unheld(used, x) {
      var k :| 0 <= k < |used| && Holds(used[k], x);
      assert used[k] in used;
      var i :| 0 <= i < |ts| && Live(ts[i], a) == Ok(Some(used[k]));
    }
  }

  /** With the live tables disjoint and inside the table area, the free space
      is a list of non-empty ascending gaps inside the area, and an address lies
      in one exactly when it is in the area and no table holds it. */
  lemma FreeTableSpaceExact(c: Config, a: Arena, x: nat)
    requires Used(c, a).Ok? && WellPlaced(Used(c, a).value, c.tableOffset, c.totalSize)
    ensures var gaps := GetFreeTableSpace(c, a).value;
            && (forall g :: g in gaps ==> c.tableOffset <= g.lo < g.hi <= c.totalSize)
            && (forall i, j :: 0 <= i < j < |gaps| ==> gaps[i].hi <= gaps[j].lo)
    ensures InSomeGap(GetFreeTableSpace(c, a).value, x) <==>
              c.tableOffset <= x < c.totalSize && !TableHolds(Values(c.tables), a, x)
  {
    var used := Used(c, a).value;
    FreeSpaceOrdered(used, c.tableOffset, c.totalSize);
    FreeSpaceExact(used, c.tableOffset, c.totalSize, x);
    TableHoldsIsHeld(Values(c.tables), a, x);
  }

  // ---- table allocation -----------------------------------------------------------

  /** What `AllocateTable` returns: the start of the chosen gap, or None when
      no gap is large enough, together with the image it leaves. */
  datatype Placement = Placement(at: Option<nat>, tune: Arena)

  /** The region of a table named `name` packed from the given axes: the
      variables are looked up first, each axis header is packed after its
      variable's index is found. */
  function PackRegion(c: Config, bits: nat,
                      xexp: int, xvar: VarName, xbins: seq<int>,
                      yexp: int, yvar: VarName, ybins: seq<int>): (r: Result<seq<byte>>)
    ensures r.Ok? <==> && xvar in c.variables && yvar in c.variables
                       && AxisHeader(xbins, xexp, IndexOf(c.variables, xvar).value).Ok?
                       && AxisHeader(ybins, yexp, IndexOf(c.variables, yvar).value).Ok?
    ensures xvar !in c.variables ==> r == Fail(NotListed)
    ensures r.Ok? ==> |r.value| == RegionSize(bits, |xbins|, |ybins|)
    ensures r.Ok? ==> r.value == Region(bits, AxisHeader(xbins, xexp, IndexOf(c.variables, xvar).value).value,
                                        AxisHeader(ybins, yexp, IndexOf(c.variables, yvar).value).value,
                                        |xbins|, |ybins|)
  {
    var xidx :- IndexOf(c.variables, xvar);
    var xh :- AxisHeader(xbins, xexp, xidx);
    var yidx :- IndexOf(c.variables, yvar);
    var yh :- AxisHeader(ybins, yexp, yidx);
    Ok(Region(bits, xh, yh, |xbins|, |ybins|))
  }

  /** The y variable is looked up only after the x header packs; from there an
      unlisted y variable fails with NotListed as well. */
  lemma PackRegionUnlistedY(c: Config, bits: nat,
                            xexp: int, xvar: VarName, xbins: seq<int>,
                            yexp: int, yvar: VarName, ybins: seq<int>)
    requires xvar in c.variables && AxisHeader(xbins, xexp, IndexOf(c.variables, xvar).value).Ok?
    requires yvar !in c.variables
    ensures PackRegion(c, bits, xexp, xvar, xbins, yexp, yvar, ybins) == Fail(NotListed)
  {
  }

  /** Gap `i` is the first of at least `size` bytes and starts at `b`. */
  predicate FirstFitAt(gaps: seq<Gap>, size: nat, i: nat, b: nat)
  {
    && i < |gaps| && gaps[i].lo == b && gaps[i].Size() >= size
    && forall j :: 0 <= j < i ==> gaps[j].Size() < size
  }

  /** The first-fit store: `region` goes at the start of the first gap large
      enough for it, by Python's slice assignment; with no such gap the image
      is left as it is. */
  function Place(a: Arena, gaps: seq<Gap>, region: seq<byte>): (r: Placement)
    ensures r.at.None? ==> r.tune == a && forall j :: 0 <= j < |gaps| ==> gaps[j].Size() < |region|
    ensures r.at.Some? ==> exists i: nat :: FirstFitAt(gaps, |region|, i, r.at.value)
    ensures r.at.Some? && r.at.value + |region| <= |a| ==>
              SameOutside(a, r.tune, r.at.value, r.at.value + |region|)
              && r.tune[r.at.value..r.at.value + |region|] == region
  {
    match FirstFit(gaps, |region|)
    case None => Placement(None, a)
    case Some(i) =>
      assert FirstFitAt(gaps, |region|, i, gaps[i].lo);
      Placement(Some(gaps[i].lo), SliceAssign(a, gaps[i].lo, region))
  }

  /** `AllocateTable`: the encoding comes from the table view, the region is
      packed, then placed first-fit in the free space of the image. */
  function AllocateTable(c: Config, a: Arena, name: string,
                         xexp: int, xvar: VarName, xbins: seq<int>,
                         yexp: int, yvar: VarName, ybins: seq<int>): (r: Result<Placement>)
    ensures Lookup(c.tables, name).None? ==> r == Fail(UnknownField)
    ensures r.Ok? <==> && Lookup(c.tables, name).Some?
                       && PackRegion(c, Lookup(c.tables, name).value.enc.bits, xexp, xvar, xbins, yexp, yvar, ybins).Ok?
                       && Used(c, a).Ok?
    ensures r.Ok? ==>
              r.value == Place(a, GetFreeTableSpace(c, a).value,
                               PackRegion(c, Lookup(c.tables, name).value.enc.bits,
                                          xexp, xvar, xbins, yexp, yvar, ybins).value)
  {
    var t :- match Lookup(c.tables, name) case None => Fail(UnknownField) case Some(t) => Ok(t);
    var region :- PackRegion(c, t.enc.bits, xexp, xvar, xbins, yexp, yvar, ybins);
    var gaps :- GetFreeTableSpace(c, a);
    Ok(Place(a, gaps, region))
  }

  /** With the live tables disjoint and inside the table area, a region placed
      in their free space lies inside the area and overlaps no live table. */
  lemma PlacedApart(c: Config, a: Arena, region: seq<byte>)
    requires Used(c, a).Ok? && WellPlaced(Used(c, a).value, c.tableOffset, c.totalSize)
    requires Place(a, GetFreeTableSpace(c, a).value, region).at.Some?
    ensures var b := Place(a, GetFreeTableSpace(c, a).value, region).at.value;
            var used := Used(c, a).value;
            && c.tableOffset <= b && b + |region| <= c.totalSize
            && forall k :: 0 <= k < |used| ==> Apart(Span(b, |region|), used[k])
  {
    var gaps := GetFreeTableSpace(c, a).value;
    var b := Place(a, gaps, region).at.value;
    var used := Used(c, a).value;
    var i: nat :| FirstFitAt(gaps, |region|, i, b);
    assert gaps[i] in gaps;
    FreeSpaceOrdered(used, c.tableOffset, c.totalSize);
    FreeSpaceApart(used, c.tableOffset, c.totalSize);
  }

  // ---- writing a table -------------------------------------------------------------

  /** The allocation arguments `Table.encode` takes from an axis value:
      exponent 0, variable None and no bins for an absent axis. */
  function ArgExponent(ax: Option<AxisValue>): int
  {
    if ax.Some? then ax.value.exponent else 0
  }

  function ArgVariable(ax: Option<AxisValue>): VarName
  {
    if ax.Some? then ax.value.variable else None
  }

  function ArgBins(ax: Option<AxisValue>): seq<int>
  {
    if ax.Some? then ax.value.bins else []
  }

  /** The allocation `Table.encode` requests for a table value. */
  function AllocateFor(t: Table, c: Config, a: Arena, tv: TableValue): Result<Placement>
  {
    AllocateTable(c, a, t.shortName,
                  ArgExponent(tv.xAxis), ArgVariable(tv.xAxis), ArgBins(tv.xAxis),
                  ArgExponent(tv.yAxis), ArgVariable(tv.yAxis), ArgBins(tv.yAxis))
  }

  /** The first part of `Table.encode`: allocate, point the table at the
      region (a failed allocation cannot be stored and aborts), then write the
      interpolation mode and the two blend variables. */
  function EncodeHeader(t: Table, c: Config, a: Arena, tv: TableValue): (r: Result<Arena>)
    ensures AllocateFor(t, c, a, tv).Ok? && AllocateFor(t, c, a, tv).value.at.None? ==> r == Fail(OutOfSpace)
    ensures r.Ok? ==> AllocateFor(t, c, a, tv).Ok? && AllocateFor(t, c, a, tv).value.at.Some?
  {
    var pl :- AllocateFor(t, c, a, tv);
    var p :- match pl.at case None => Fail(OutOfSpace) case Some(b) => Ok(b);
    var a1 :- SetTablePtr(t, pl.tune, p);
    var a2 :- SetInterpolate(t, a1, tv.interpolate);
    var a3 :- SetInterpolateVar(t, c.variables, a2, 0, tv.blendB);
    SetInterpolateVar(t, c.variables, a3, 1, tv.blendC)
  }

  /** `Table.encode`: nothing for None; otherwise EncodeHeader, then the grid
      written from the counts just stored: (h or 2) rows of (w or 1) cells,
      row by row. */
  function TableEncode(t: Table, c: Config, a: Arena, v: Option<TableValue>): (r: Result<Arena>)
    ensures v.None? ==> r == Ok(a)
    ensures v.Some? && Lookup(c.tables, t.shortName).None? ==> r == Fail(UnknownField)
    ensures v.Some? && AllocateFor(t, c, a, v.value).Ok? && AllocateFor(t, c, a, v.value).value.at.None? ==>
              r == Fail(OutOfSpace)
  {
    match v
    case None => Ok(a)
    case Some(tv) =>
      var a4 :- EncodeHeader(t, c, a, tv);
      var w :- AxisNBins(t, a4, X);
      var h :- AxisNBins(t, a4, Y);
      WriteRows(t, a4, tv.data, 0, Or2(h), Or1(w))
  }

  // ---- the table round trip --------------------------------------------------------

  /** An axis value as decoding returns it: an axis without bins reads as None. */
  function Normal(ax: Option<AxisValue>): (r: Option<AxisValue>)
  {
    if ax.Some? && |ax.value.bins| > 0 then ax else None
  }

  /** The packed header of the x or y axis of a table value. */
  function HeaderOf(vars: seq<VarName>, ax: Option<AxisValue>): Result<seq<byte>>
  {
    var idx :- IndexOf(vars, ArgVariable(ax));
    AxisHeader(ArgBins(ax), ArgExponent(ax), idx)
  }

  /** The table points at `p`, past its own pointer slot, and the
      interpolation bytes hold the value's mode and blend indices. */
  ghost predicate Pointed(t: Table, vars: seq<VarName>, b: Arena, p: nat, tv: TableValue)
  {
    && TablePtr(t, b) == Ok(p) && 0 < p && t.offset + 2 <= p && p + 2 < |b|
    && tv.blendB in vars && tv.blendC in vars
    && b[p] == tv.interpolate
    && b[p + 1] == IndexOf(vars, tv.blendB).value
    && b[p + 2] == IndexOf(vars, tv.blendC).value
  }

  /** What an image looks like once `Table.encode` has written everything but
      the grid of `tv`: Pointed, with both headers following from `p + 4`. */
  ghost predicate Prepared(t: Table, vars: seq<VarName>, b: Arena, p: nat, tv: TableValue)
  {
    && Pointed(t, vars, b, p, tv)
    && HeaderOf(vars, tv.xAxis).Ok? && HeaderOf(vars, tv.yAxis).Ok?
    && HeadersAt(b, p, HeaderOf(vars, tv.xAxis).value, HeaderOf(vars, tv.yAxis).value)
  }

  /** Headers survive a change confined to bytes outside them. */
  lemma HeadersKept(a: Arena, b: Arena, p: nat, xh: seq<byte>, yh: seq<byte>, lo: int, hi: int)
    requires HeadersAt(a, p, xh, yh) && SameOutside(a, b, lo, hi)
    requires hi <= p + 4 || p + 4 + |xh| + |yh| <= lo
    ensures HeadersAt(b, p, xh, yh)
  {
    forall k | 0 <= k < |xh|
      ensures b[p + 4 + k] == xh[k]
    {
      assert b[p + 4 + k] == a[p + 4 + k];
    }
    forall k | 0 <= k < |yh|
      ensures b[p + 4 + |xh| + k] == yh[k]
    {
      assert b[p + 4 + |xh| + k] == a[p + 4 + |xh| + k];
    }
  }

  /** With the live tables disjoint inside the table area, a placed region
      is stored whole, inside the area, and inside the image. */
  lemma PlacedInside(c: Config, a: Arena, region: seq<byte>)
    requires c.totalSize <= |a|
    requires Used(c, a).Ok? && WellPlaced(Used(c, a).value, c.tableOffset, c.totalSize)
    requires Place(a, GetFreeTableSpace(c, a).value, region).at.Some?
    ensures var pl := Place(a, GetFreeTableSpace(c, a).value, region);
            var p := pl.at.value;
            && c.tableOffset <= p && p + |region| <= |a|
            && SameOutside(a, pl.tune, p, p + |region|)
            && pl.tune[p..p + |region|] == region
  {
    PlacedApart(c, a, region);
  }

  /** Pointing a table at a region stored after its pointer slot leaves
      the region's mode byte 0 and its headers intact. */
  lemma PointedRegion(t: Table, a: Arena, p: nat, bits: nat, xh: seq<byte>, yh: seq<byte>, nx: nat, ny: nat)
    requires t.offset + 2 <= p && p + |Region(bits, xh, yh, nx, ny)| <= |a|
    requires a[p..p + |Region(bits, xh, yh, nx, ny)|] == Region(bits, xh, yh, nx, ny)
    requires SetTablePtr(t, a, p).Ok?
    ensures TablePtr(t, SetTablePtr(t, a, p).value) == Ok(p)
    ensures SetTablePtr(t, a, p).value[p] == 0
    ensures HeadersAt(SetTablePtr(t, a, p).value, p, xh, yh)
  {
    RegionParts(a, p, bits, xh, yh, nx, ny);
    var b := SetTablePtr(t, a, p).value;
    HeadersKept(a, b, p, xh, yh, t.offset, t.offset + 2);
    assert b[p] == a[p];
  }

  /** With the live tables disjoint inside the table area, AllocateTable
      stores the region packed for the named table whole, inside the area. */
  lemma AllocatedSlice(c: Config, a: Arena, name: string,
                       xexp: int, xvar: VarName, xbins: seq<int>,
                       yexp: int, yvar: VarName, ybins: seq<int>)
    requires c.totalSize <= |a|
    requires Used(c, a).Ok? && WellPlaced(Used(c, a).value, c.tableOffset, c.totalSize)
    requires var r := AllocateTable(c, a, name, xexp, xvar, xbins, yexp, yvar, ybins);
             r.Ok? && r.value.at.Some?
    ensures xvar in c.variables && yvar in c.variables
    ensures AxisHeader(xbins, xexp, IndexOf(c.variables, xvar).value).Ok?
    ensures AxisHeader(ybins, yexp, IndexOf(c.variables, yvar).value).Ok?
    ensures var pl := AllocateTable(c, a, name, xexp, xvar, xbins, yexp, yvar, ybins).value;
            var p := pl.at.value;
            var region := Region(Lookup(c.tables, name).value.enc.bits,
                                 AxisHeader(xbins, xexp, IndexOf(c.variables, xvar).value).value,
                                 AxisHeader(ybins, yexp, IndexOf(c.variables, yvar).value).value,
                                 |xbins|, |ybins|);
            && c.tableOffset <= p && p + |region| <= |pl.tune|
            && pl.tune[p..p + |region|] == region
  {
    var bits := Lookup(c.tables, name).value.enc.bits;
    var region := PackRegion(c, bits, xexp, xvar, xbins, yexp, yvar, ybins).value;
    PlacedInside(c, a, region);
  }

  /** With the live tables disjoint inside the table area, and the table's
      pointer slot before the area, AllocateTable stores the packed region
      inside the image, and pointing the table at it leaves its mode byte 0
      and its headers intact. */
  lemma AllocatedRegion(t: Table, c: Config, a: Arena, name: string,
                        xexp: int, xvar: VarName, xbins: seq<int>,
                        yexp: int, yvar: VarName, ybins: seq<int>)
    requires t.offset + 2 <= c.tableOffset && c.totalSize <= |a|
    requires Used(c, a).Ok? && WellPlaced(Used(c, a).value, c.tableOffset, c.totalSize)
    requires var r := AllocateTable(c, a, name, xexp, xvar, xbins, yexp, yvar, ybins);
             r.Ok? && r.value.at.Some? && SetTablePtr(t, r.value.tune, r.value.at.value).Ok?
    ensures xvar in c.variables && yvar in c.variables
    ensures AxisHeader(xbins, xexp, IndexOf(c.variables, xvar).value).Ok?
    ensures AxisHeader(ybins, yexp, IndexOf(c.variables, yvar).value).Ok?
    ensures var pl := AllocateTable(c, a, name, xexp, xvar, xbins, yexp, yvar, ybins).value;
            t.offset + 2 <= pl.at.value && TablePtr(t, SetTablePtr(t, pl.tune, pl.at.value).value) == Ok(pl.at.value)
    ensures var pl := AllocateTable(c, a, name, xexp, xvar, xbins, yexp, yvar, ybins).value;
            var b := SetTablePtr(t, pl.tune, pl.at.value).value;
            pl.at.value < |b| && b[pl.at.value] == 0
    ensures var pl := AllocateTable(c, a, name, xexp, xvar, xbins, yexp, yvar, ybins).value;
            HeadersAt(SetTablePtr(t, pl.tune, pl.at.value).value, pl.at.value,
                      AxisHeader(xbins, xexp, IndexOf(c.variables, xvar).value).value,
                      AxisHeader(ybins, yexp, IndexOf(c.variables, yvar).value).value)
  {
    AllocatedSlice(c, a, name, xexp, xvar, xbins, yexp, yvar, ybins);
    var pl := AllocateTable(c, a, name, xexp, xvar, xbins, yexp, yvar, ybins).value;
    var p := pl.at.value;
    var bits := Lookup(c.tables, name).value.enc.bits;
    var xh := AxisHeader(xbins, xexp, IndexOf(c.variables, xvar).value).value;
    var yh := AxisHeader(ybins, yexp, IndexOf(c.variables, yvar).value).value;
    var region := Region(bits, xh, yh, |xbins|, |ybins|);
    assert c.tableOffset <= p && p + |region| <= |pl.tune|;
    assert pl.tune[p..p + |region|] == region;
    assert SetTablePtr(t, pl.tune, p).Ok?;
    PointedRegion(t, pl.tune, p, bits, xh, yh, |xbins|, |ybins|);
  }

  /** Layout agreement: once a table points at the region AllocateTable
      stored for it, TableLen measures exactly the reserved size, the counts,
      exponents, bins and axis variables read back as packed, and the
      interpolation mode is 0. */
  lemma AllocationLayout(t: Table, c: Config, a: Arena,
                         xexp: int, xvar: VarName, xbins: seq<int>,
                         yexp: int, yvar: VarName, ybins: seq<int>)
    requires t.offset + 2 <= c.tableOffset && c.totalSize <= |a|
    requires Used(c, a).Ok? && WellPlaced(Used(c, a).value, c.tableOffset, c.totalSize)
    requires var r := AllocateTable(c, a, t.shortName, xexp, xvar, xbins, yexp, yvar, ybins);
             r.Ok? && r.value.at.Some? && SetTablePtr(t, r.value.tune, r.value.at.value).Ok?
    requires Lookup(c.tables, t.shortName).Some? && Lookup(c.tables, t.shortName).value.enc == t.enc
    ensures PackRegion(c, t.enc.bits, xexp, xvar, xbins, yexp, yvar, ybins).Ok?
    ensures var pl := AllocateTable(c, a, t.shortName, xexp, xvar, xbins, yexp, yvar, ybins).value;
            var b := SetTablePtr(t, pl.tune, pl.at.value).value;
            var vars := c.variables;
            && TablePtr(t, b) == Ok(pl.at.value) && pl.at.value != 0
            && TableLen(t, b) == Ok(|PackRegion(c, t.enc.bits, xexp, xvar, xbins, yexp, yvar, ybins).value|)
            && AxisNBins(t, b, X) == Ok(|xbins|) && AxisNBins(t, b, Y) == Ok(|ybins|)
            && AxisExponent(t, b, X) == Ok(xexp) && AxisExponent(t, b, Y) == Ok(yexp)
            && AxisBins(t, b, X) == Ok(xbins) && AxisBins(t, b, Y) == Ok(ybins)
            && AxisShortName(t, vars, b, X) == Ok(if |xbins| == 0 then None else Some(xvar))
            && AxisShortName(t, vars, b, Y) == Ok(if |ybins| == 0 then None else Some(yvar))
            && Interpolate(t, b) == Ok(0)
  {
    var vars := c.variables;
    AllocatedRegion(t, c, a, t.shortName, xexp, xvar, xbins, yexp, yvar, ybins);
    var pl := AllocateTable(c, a, t.shortName, xexp, xvar, xbins, yexp, yvar, ybins).value;
    var b := SetTablePtr(t, pl.tune, pl.at.value).value;
    var xi, yi := IndexOf(vars, xvar).value, IndexOf(vars, yvar).value;
    RegionCounts(t, b, xbins, xexp, xi, ybins, yexp, yi);
    RegionAxes(t, vars, b, xbins, xexp, xi, ybins, yexp, yi);
  }

  /** The same for the allocation `Table.encode` requests: the headers of
      the value's axes sit in the region once the table points at it. */
  lemma AllocatedHeaders(t: Table, c: Config, a: Arena, tv: TableValue)
    requires t.offset + 2 <= c.tableOffset && c.totalSize <= |a|
    requires Used(c, a).Ok? && WellPlaced(Used(c, a).value, c.tableOffset, c.totalSize)
    requires AllocateFor(t, c, a, tv).Ok? && AllocateFor(t, c, a, tv).value.at.Some?
    requires var pl := AllocateFor(t, c, a, tv).value;
             SetTablePtr(t, pl.tune, pl.at.value).Ok?
    ensures HeaderOf(c.variables, tv.xAxis).Ok? && HeaderOf(c.variables, tv.yAxis).Ok?
    ensures var pl := AllocateFor(t, c, a, tv).value;
            var p := pl.at.value;
            && t.offset + 2 <= p
            && HeadersAt(SetTablePtr(t, pl.tune, p).value, p,
                         HeaderOf(c.variables, tv.xAxis).value, HeaderOf(c.variables, tv.yAxis).value)
  {
    AllocatedRegion(t, c, a, t.shortName, ArgExponent(tv.xAxis), ArgVariable(tv.xAxis), ArgBins(tv.xAxis),
                    ArgExponent(tv.yAxis), ArgVariable(tv.yAxis), ArgBins(tv.yAxis));
  }

  /** A change confined to bytes past the pointer slot keeps the pointer. */
  lemma SlotKept(t: Table, a: Arena, b: Arena, lo: int, hi: int)
    requires SameOutside(a, b, lo, hi) && t.offset + 2 <= lo
    ensures TablePtr(t, b) == TablePtr(t, a)
  {
    if t.offset + 2 <= |a| {
      assert b[t.offset] == a[t.offset] && b[t.offset + 1] == a[t.offset + 1];
    }
  }

  /** Everything `Table.encode` writes before the grid is where the layout
      expects it: EncodeHeader leaves a Prepared image. */
  lemma EncodeHeaderPrepared(t: Table, c: Config, a: Arena, tv: TableValue)
    requires t.offset + 2 <= c.tableOffset && c.totalSize <= |a|
    requires Used(c, a).Ok? && WellPlaced(Used(c, a).value, c.tableOffset, c.totalSize)
    requires EncodeHeader(t, c, a, tv).Ok?
    ensures Prepared(t, c.variables, EncodeHeader(t, c, a, tv).value, AllocateFor(t, c, a, tv).value.at.value, tv)
  {
    var vars := c.variables;
    var pl := AllocateFor(t, c, a, tv).value;
    var p := pl.at.value;
    var a1 := SetTablePtr(t, pl.tune, p).value;
    var a2 := SetInterpolate(t, a1, tv.interpolate).value;
    var a3 := SetInterpolateVar(t, vars, a2, 0, tv.blendB).value;
    var a4 := SetInterpolateVar(t, vars, a3, 1, tv.blendC).value;
    assert a4 == EncodeHeader(t, c, a, tv).value;
    AllocatedHeaders(t, c, a, tv);
    var xh, yh := HeaderOf(vars, tv.xAxis).value, HeaderOf(vars, tv.yAxis).value;
    assert TablePtr(t, a1) == Ok(p);
    SlotKept(t, a1, a2, p, p + 1);
    HeadersKept(a1, a2, p, xh, yh, p, p + 1);
    SlotKept(t, a2, a3, p + 1, p + 2);
    HeadersKept(a2, a3, p, xh, yh, p + 1, p + 2);
    SlotKept(t, a3, a4, p + 2, p + 3);
    HeadersKept(a3, a4, p, xh, yh, p + 2, p + 3);
  }

  /** A change past both headers keeps a Prepared image Prepared. */
  lemma PreparedKept(t: Table, vars: seq<VarName>, a: Arena, b: Arena, p: nat, tv: TableValue)
    requires Prepared(t, vars, a, p, tv)
    requires SameOutside(a, b, p + 4 + |HeaderOf(vars, tv.xAxis).value| + |HeaderOf(vars, tv.yAxis).value|, |a|)
    ensures Prepared(t, vars, b, p, tv)
  {
    var xh, yh := HeaderOf(vars, tv.xAxis).value, HeaderOf(vars, tv.yAxis).value;
    SlotKept(t, a, b, p + 4 + |xh| + |yh|, |a|);
    HeadersKept(a, b, p, xh, yh, p + 4 + |xh| + |yh|, |a|);
  }

  /** In a Prepared image the counts are those of the value's axes, and the
      grid starts right after the two headers. */
  lemma PreparedLayout(t: Table, vars: seq<VarName>, b: Arena, p: nat, tv: TableValue)
    requires Prepared(t, vars, b, p, tv)
    ensures AxisNBins(t, b, X) == Ok(|ArgBins(tv.xAxis)|) && AxisNBins(t, b, Y) == Ok(|ArgBins(tv.yAxis)|)
    ensures DataStart(p, |ArgBins(tv.xAxis)|, |ArgBins(tv.yAxis)|) ==
              p + 4 + |HeaderOf(vars, tv.xAxis).value| + |HeaderOf(vars, tv.yAxis).value|
  {
    var x, y := tv.xAxis, tv.yAxis;
    RegionCounts(t, b, ArgBins(x), ArgExponent(x), IndexOf(vars, ArgVariable(x)).value,
                 ArgBins(y), ArgExponent(y), IndexOf(vars, ArgVariable(y)).value);
  }

  /** The interpolation fields of a Pointed image read back. */
  lemma PreparedInterpolation(t: Table, vars: seq<VarName>, b: Arena, p: nat, tv: TableValue)
    requires Pointed(t, vars, b, p, tv)
    ensures Interpolate(t, b) == Ok(tv.interpolate)
    ensures InterpolateVar(t, vars, b, 0) == Ok(Some(tv.blendB))
    ensures InterpolateVar(t, vars, b, 1) == Ok(Some(tv.blendC))
  {
    var ib, ic := IndexOf(vars, tv.blendB).value, IndexOf(vars, tv.blendC).value;
    assert b[p + 1] == ib && b[p + 2] == ic;
    assert GetU8(b, p + 1) == Ok(ib) && GetU8(b, p + 2) == Ok(ic);
    assert ib < |vars| && vars[ib] == tv.blendB;
    assert ic < |vars| && vars[ic] == tv.blendC;
  }

  /** Both axes of a Prepared image decode to the value's axes as decoding
      normalises them. */
  lemma PreparedAxes(t: Table, vars: seq<VarName>, b: Arena, p: nat, tv: TableValue)
    requires Prepared(t, vars, b, p, tv)
    ensures DecodeAxis(t, vars, b, X) == Ok(Normal(tv.xAxis))
    ensures DecodeAxis(t, vars, b, Y) == Ok(Normal(tv.yAxis))
  {
    var x, y := tv.xAxis, tv.yAxis;
    var xi, yi := IndexOf(vars, ArgVariable(x)).value, IndexOf(vars, ArgVariable(y)).value;
    RegionCounts(t, b, ArgBins(x), ArgExponent(x), xi, ArgBins(y), ArgExponent(y), yi);
    RegionAxes(t, vars, b, ArgBins(x), ArgExponent(x), xi, ArgBins(y), ArgExponent(y), yi);
  }

  /** A Prepared image decodes to the value's interpolation fields and its
      axes as decoding normalises them, with whatever grid it holds. */
  lemma PreparedDecodes(t: Table, vars: seq<VarName>, b: Arena, p: nat, tv: TableValue)
    requires Prepared(t, vars, b, p, tv) && DecodeData(t, b).Ok?
    ensures TableDecode(t, vars, b) ==
              Ok(Some(TableValue(tv.interpolate, tv.blendB, tv.blendC, Normal(tv.xAxis), Normal(tv.yAxis),
                                 DecodeData(t, b).value)))
  {
    PreparedInterpolation(t, vars, b, p, tv);
    PreparedAxes(t, vars, b, p, tv);
  }

  /** `Table.encode` of a value is EncodeHeader followed by the grid writes. */
  lemma TableEncodeSteps(t: Table, c: Config, a: Arena, tv: TableValue)
    requires TableEncode(t, c, a, Some(tv)).Ok?
    ensures EncodeHeader(t, c, a, tv).Ok?
    ensures var a4 := EncodeHeader(t, c, a, tv).value;
            && AxisNBins(t, a4, X).Ok? && AxisNBins(t, a4, Y).Ok?
            && TableEncode(t, c, a, Some(tv)) ==
                 WriteRows(t, a4, tv.data, 0, Or2(AxisNBins(t, a4, Y).value), Or1(AxisNBins(t, a4, X).value))
  {
  }

  /** Table round trip: with the live tables disjoint inside the table area
      and the table's pointer slot before it, a value that `Table.encode`
      stores decodes to its interpolation fields, its axes (an axis without
      bins reading as None) and the (h or 2) by (w or 1) corner of its data,
      each entry masked and sign-extended to the cell encoding. */
  lemma TableEncodeDecode(t: Table, c: Config, a: Arena, tv: TableValue)
    requires t.offset + 2 <= c.tableOffset && c.totalSize <= |a|
    requires Used(c, a).Ok? && WellPlaced(Used(c, a).value, c.tableOffset, c.totalSize)
    requires TableEncode(t, c, a, Some(tv)).Ok?
    ensures var rows, cols := Or2(|ArgBins(tv.yAxis)|), Or1(|ArgBins(tv.xAxis)|);
            rows <= |tv.data| && forall i :: 0 <= i < rows ==> cols <= |tv.data[i]|
    ensures var rows, cols := Or2(|ArgBins(tv.yAxis)|), Or1(|ArgBins(tv.xAxis)|);
            TableDecode(t, c.variables, TableEncode(t, c, a, Some(tv)).value) ==
              Ok(Some(TableValue(tv.interpolate, tv.blendB, tv.blendC, Normal(tv.xAxis), Normal(tv.yAxis),
                                 Grid(tv.data, t.enc, rows, cols))))
  {
    var vars := c.variables;
    TableEncodeSteps(t, c, a, tv);
    var a4 := EncodeHeader(t, c, a, tv).value;
    var p := AllocateFor(t, c, a, tv).value.at.value;
    EncodeHeaderPrepared(t, c, a, tv);
    PreparedLayout(t, vars, a4, p, tv);
    PreparedGrid(t, vars, a4, p, tv);
    var b := WriteRows(t, a4, tv.data, 0, Or2(|ArgBins(tv.yAxis)|), Or1(|ArgBins(tv.xAxis)|)).value;
    PreparedDecodes(t, vars, b, p, tv);
  }

  /** Writing the grid into a Prepared image keeps it Prepared, and the grid
      reads back as the value's data masked and sign-extended. */
  lemma PreparedGrid(t: Table, vars: seq<VarName>, a: Arena, p: nat, tv: TableValue)
    requires Prepared(t, vars, a, p, tv)
    requires WriteRows(t, a, tv.data, 0, Or2(|ArgBins(tv.yAxis)|), Or1(|ArgBins(tv.xAxis)|)).Ok?
    ensures var rows, cols := Or2(|ArgBins(tv.yAxis)|), Or1(|ArgBins(tv.xAxis)|);
            rows <= |tv.data| && forall i :: 0 <= i < rows ==> cols <= |tv.data[i]|
    ensures var rows, cols := Or2(|ArgBins(tv.yAxis)|), Or1(|ArgBins(tv.xAxis)|);
            var b := WriteRows(t, a, tv.data, 0, rows, cols).value;
            && Prepared(t, vars, b, p, tv)
            && DecodeData(t, b) == Ok(Grid(tv.data, t.enc, rows, cols))
  {
    PreparedLayout(t, vars, a, p, tv);
    var rows, cols := Or2(|ArgBins(tv.yAxis)|), Or1(|ArgBins(tv.xAxis)|);
    var b := WriteRows(t, a, tv.data, 0, rows, cols).value;
    GridRoundTrip(t, a, tv.data);
    var xh, yh := HeaderOf(vars, tv.xAxis).value, HeaderOf(vars, tv.yAxis).value;
    assert SameOutside(a, b, p + 4 + |xh| + |yh|, |a|);
    PreparedKept(t, vars, a, b, p, tv);
  }

  /** A table value in the shape decoding produces, every entry representable
      in the cell encoding, comes back unchanged. */
  lemma TableRoundTrip(t: Table, c: Config, a: Arena, tv: TableValue)
    requires t.offset + 2 <= c.tableOffset && c.totalSize <= |a|
    requires Used(c, a).Ok? && WellPlaced(Used(c, a).value, c.tableOffset, c.totalSize)
    requires Normal(tv.xAxis) == tv.xAxis && Normal(tv.yAxis) == tv.yAxis
    requires |tv.data| == Or2(|ArgBins(tv.yAxis)|)
    requires forall i :: 0 <= i < |tv.data| ==> |tv.data[i]| == Or1(|ArgBins(tv.xAxis)|)
    requires forall i, j :: 0 <= i < |tv.data| && 0 <= j < |tv.data[i]| ==> Representable(tv.data[i][j], t.enc)
    requires TableEncode(t, c, a, Some(tv)).Ok?
    ensures TableDecode(t, c.variables, TableEncode(t, c, a, Some(tv)).value) == Ok(Some(tv))
  {
    TableEncodeDecode(t, c, a, tv);
    GridOfRepresentable(tv.data, t.enc, Or1(|ArgBins(tv.xAxis)|));
  }

  // ---- field codecs and the whole image -------------------------------------------

  /** A decoded field value: a raw number (Scalar), a choice (Select), a
      variable short name (VarSelect), bytes (Text) or a table. */
  datatype Value =
    | Number(n: int)
    | Choice(choice: string)
    | Variable(name: VarName)
    | Chars(bytes: seq<byte>)
    | TableData(table: Option<TableValue>)

  /** `f.decode(tune, conf)`: each kind's reading, wrapped as a Value. */
  function DecodeField(c: Config, f: Field, a: Arena): (r: Result<Value>)
    ensures f.ScalarField? ==> (r.Ok? <==> ScalarGet(f.scalar, a).Ok?)
    ensures f.TextField? ==> (r.Ok? <==> TextGet(f.text, a).Ok?)
    ensures r.Ok? ==> Fits(f, r.value)
  {
    match f
    case ScalarField(s) =>
      var n :- ScalarGet(s, a);
      Ok(Number(n))
    case SelectField(s) =>
      var x :- SelectGet(s, a);
      Ok(Choice(x))
    case VarSelectField(s) =>
      var x :- VarSelectGet(s, c.variables, a);
      Ok(Variable(x))
    case TextField(s) =>
      var x :- TextGet(s, a);
      Ok(Chars(x))
    case TableField(t) =>
      var x :- TableDecode(t, c.variables, a);
      Ok(TableData(x))
  }

  /** Whether a value has the shape a field's `encode` accepts. */
  predicate Fits(f: Field, v: Value)
  {
    match f
    case ScalarField(_) => v.Number?
    case SelectField(_) => v.Choice?
    case VarSelectField(_) => v.Variable?
    case TextField(_) => v.Chars?
    case TableField(_) => v.TableData?
  }

  /** `f.encode(tune, conf, val)`; a value of the wrong shape fails as Python's
      duck typing would. */
  function EncodeField(c: Config, f: Field, a: Arena, v: Value): (r: Result<Arena>)
    ensures !Fits(f, v) ==> r == Fail(WrongKind)
  {
    match f
    case ScalarField(s) => if v.Number? then ScalarSet(s, a, v.n) else Fail(WrongKind)
    case SelectField(s) => if v.Choice? then SelectSet(s, a, v.choice) else Fail(WrongKind)
    case VarSelectField(s) => if v.Variable? then VarSelectSet(s, c.variables, a, v.name) else Fail(WrongKind)
    case TextField(s) => if v.Chars? then TextSet(s, a, v.bytes) else Fail(WrongKind)
    case TableField(t) => if v.TableData? then TableEncode(t, c, a, v.table) else Fail(WrongKind)
  }

  /** The byte slot a fixed-offset field occupies. */
  function Slot(f: Field): (nat, nat)
  {
    match f
    case ScalarField(s) => (s.offset, s.offset + 2)
    case SelectField(s) => (s.offset, s.offset + 1)
    case VarSelectField(s) => (s.offset, s.offset + 1)
    case TextField(s) => (s.offset, s.offset + s.length)
    case TableField(s) => (s.offset, s.offset + 2)
  }

  /** Fixed-field round trip through the registry: a successful encode of a
      Scalar, Select or VarSelect changes only the field's slot and decodes back
      to the value encoded. */
  lemma FieldRoundTrip(c: Config, f: Field, a: Arena, v: Value)
    requires f.ScalarField? || f.SelectField? || f.VarSelectField?
    requires EncodeField(c, f, a, v).Ok?
    ensures SameOutside(a, EncodeField(c, f, a, v).value, Slot(f).0, Slot(f).1)
    ensures DecodeField(c, f, EncodeField(c, f, a, v).value) == Ok(v)
  {
  }

  /** Text round trip through the registry: encoding changes only the
      field's `length`-byte slot, and a NUL-free value of at most `length`
      bytes decodes back unchanged. */
  lemma TextFieldRoundTrip(c: Config, f: Field, a: Arena, v: Value)
    requires f.TextField? && EncodeField(c, f, a, v).Ok?
    ensures SameOutside(a, EncodeField(c, f, a, v).value, Slot(f).0, Slot(f).1)
    ensures 0 !in v.bytes && |v.bytes| <= f.text.length ==>
              DecodeField(c, f, EncodeField(c, f, a, v).value) == Ok(v)
  {
    TextGetOfSet(f.text, a, v.bytes);
  }

  /** `Decode` over the fields in catalogue order: (short name, decoded value)
      pairs; the first failing field aborts. */
  function DecodeAll(c: Config, fs: seq<Field>, a: Arena): (r: Result<Dict<Value>>)
    ensures r.Ok? <==> forall i :: 0 <= i < |fs| ==> DecodeField(c, fs[i], a).Ok?
    ensures r.Ok? ==> |r.value| == |fs|
    ensures r.Ok? ==> forall i :: 0 <= i < |fs| ==>
                        r.value[i] == (fs[i].ShortName(), DecodeField(c, fs[i], a).value)
  {
    if |fs| == 0 then Ok([])
    else
      match DecodeField(c, fs[0], a)
      case Fail(e) => Fail(e)
      case Ok(v) =>
        match DecodeAll(c, fs[1..], a)
        case Fail(e) => Fail(e)
        case Ok(rest) =>
          assert forall i :: 1 <= i < |fs| ==> fs[i] == fs[1..][i - 1];
          Ok([(fs[0].ShortName(), v)] + rest)
  }

  /** `Config.Decode` (the 'tune' part of its result): every field of the
      catalogue decoded. */
  function Decode(c: Config, a: Arena): (r: Result<Dict<Value>>)
    ensures r.Ok? <==> forall i :: 0 <= i < |c.fields| ==> DecodeField(c, c.fields[i].1, a).Ok?
    ensures r.Ok? ==> |r.value| == |c.fields|
    ensures r.Ok? ==> forall i :: 0 <= i < |c.fields| ==>
                        r.value[i].1 == DecodeField(c, c.fields[i].1, a).value
  {
    DecodeAll(c, Values(c.fields), a)
  }

  /** A decoded image lists the catalogue's names in order. */
  lemma DecodeKeys(c: Config, a: Arena)
    requires WellFiled(c) && Decode(c, a).Ok?
    ensures Keys(Decode(c, a).value) == Keys(c.fields)
    ensures KeysUnique(Decode(c, a).value)
  {
    var d := Decode(c, a).value;
    var fs := Values(c.fields);
    forall i | 0 <= i < |d|
      ensures d[i].0 == c.fields[i].0
    {
      assert d[i].0 == fs[i].ShortName();
    }
    assert Keys(d) == Keys(c.fields);
  }

  /** Each name of the catalogue decodes to its field's decoded value. */
  lemma {:induction false} DecodeEntries(c: Config, a: Arena, n: string)
    requires WellFiled(c) && Decode(c, a).Ok?
    ensures Lookup(Decode(c, a).value, n).Some? <==> Lookup(c.fields, n).Some?
    ensures Lookup(c.fields, n).Some? ==> DecodeField(c, Lookup(c.fields, n).value, a).Ok?
    ensures Lookup(c.fields, n).Some? ==>
              Lookup(Decode(c, a).value, n) == Some(DecodeField(c, Lookup(c.fields, n).value, a).value)
  {
    var d := Decode(c, a).value;
    DecodeKeys(c, a);
    if Lookup(c.fields, n).Some? {
      var i :| 0 <= i < |c.fields| && Keys(c.fields)[i] == n;
      var f := c.fields[i].1;
      LookupUnique(c.fields, i);
      assert Lookup(c.fields, n) == Some(f);
      assert Keys(d)[i] == n;
      LookupUnique(d, i);
      assert Lookup(d, n) == Some(d[i].1);
      assert Values(c.fields)[i] == f;
      assert d[i].1 == DecodeField(c, f, a).value;
    }
  }

  /** Encodes the (name, value) pairs in order; an unknown name is a KeyError. */
  function EncodeAll(c: Config, items: Dict<Value>, a: Arena): (r: Result<Arena>)
    ensures (exists i :: 0 <= i < |items| && items[i].0 !in Keys(c.fields)) ==> r.Fail?
  {
    if |items| == 0 then Ok(a)
    else
      match Lookup(c.fields, items[0].0)
      case None => Fail(UnknownField)
      case Some(f) =>
        match EncodeField(c, f, a, items[0].1)
        case Fail(e) => Fail(e)
        case Ok(a1) =>
          assert forall i :: 1 <= i < |items| ==> items[i] == items[1..][i - 1];
          EncodeAll(c, items[1..], a1)
  }

  /** `Config.Encode`: a zeroed image of `total_size` bytes, then each pair. */
  function Encode(c: Config, data: Dict<Value>): (r: Result<Arena>)
    ensures (exists i :: 0 <= i < |data| && data[i].0 !in Keys(c.fields)) ==> r.Fail?
  {
    EncodeAll(c, data, Zeros(c.totalSize))
  }

  /** Encoding a list of pairs is encoding all but the last, then the last. */
  lemma {:induction false} EncodeAllSnoc(c: Config, items: Dict<Value>, last: (string, Value), a: Arena)
    ensures EncodeAll(c, items + [last], a) ==
              match EncodeAll(c, items, a)
              case Fail(e) => Fail(e)
              case Ok(b) =>
                match Lookup(c.fields, last.0)
                case None => Fail(UnknownField)
                case Some(f) => EncodeField(c, f, b, last.1)
    decreases |items|
  {
    if |items| == 0 {
      assert items + [last] == [last];
      assert [last][1..] == [];
    } else {
      assert (items + [last])[0] == items[0];
      assert (items + [last])[1..] == items[1..] + [last];
      match Lookup(c.fields, items[0].0)
      case None =>
      case Some(f) =>
        match EncodeField(c, f, a, items[0].1)
        case Fail(_) =>
        case Ok(a1) => EncodeAllSnoc(c, items[1..], last, a1);
    }
  }

  /** The last assignment to a fixed field wins: whatever the pairs before it
      wrote, the field decodes to the value of the final pair. */
  lemma EncodeLastWins(c: Config, items: Dict<Value>, n: string, v: Value, a: Arena)
    requires Lookup(c.fields, n).Some?
    requires var f := Lookup(c.fields, n).value; f.ScalarField? || f.SelectField? || f.VarSelectField?
    requires EncodeAll(c, items + [(n, v)], a).Ok?
    ensures DecodeField(c, Lookup(c.fields, n).value, EncodeAll(c, items + [(n, v)], a).value) == Ok(v)
  {
    EncodeAllSnoc(c, items, (n, v), a);
    var b := EncodeAll(c, items, a).value;
    FieldRoundTrip(c, Lookup(c.fields, n).value, b, v);
  }

  /** The catalogue with two Scalars whose slots overlap in one byte. */
  function Overlapping(): Config
  {
    Config(0, 3, [], [("lo", ScalarField(Scalar("lo", 0))), ("hi", ScalarField(Scalar("hi", 1)))], [])
  }

  /** Encode applies the pairs in order, so the same pairs in the other order
      give a different image when two fields overlap: the later pair wins the
      shared byte. */
  lemma EncodeOrderMatters()
    ensures Encode(Overlapping(), [("lo", Number(257)), ("hi", Number(0))]).Ok?
    ensures Encode(Overlapping(), [("hi", Number(0)), ("lo", Number(257))]).Ok?
    ensures Encode(Overlapping(), [("lo", Number(257)), ("hi", Number(0))]) !=
            Encode(Overlapping(), [("hi", Number(0)), ("lo", Number(257))])
  {
    LoThenHi();
    HiThenLo();
  }

  lemma OverlappingFields()
    ensures Lookup(Overlapping().fields, "lo") == Some(ScalarField(Scalar("lo", 0)))
    ensures Lookup(Overlapping().fields, "hi") == Some(ScalarField(Scalar("hi", 1)))
  {
    assert Overlapping().fields[..1] == [("lo", ScalarField(Scalar("lo", 0)))];
  }

  /** Writing "hi" last clears the shared byte. */
  lemma LoThenHi()
    ensures var r := Encode(Overlapping(), [("lo", Number(257)), ("hi", Number(0))]);
            r.Ok? && |r.value| == 3 && r.value[1] == 0
  {
    var z := Zeros(3);
    OverlappingFields();
    assert ScalarSet(Scalar("lo", 0), z, 257).Ok?;
    var lo := ScalarSet(Scalar("lo", 0), z, 257).value;
    assert ScalarSet(Scalar("hi", 1), lo, 0).Ok?;
    EncodeTwo(Overlapping(), ("lo", Number(257)), ("hi", Number(0)), z);
    WordParts(ScalarSet(Scalar("hi", 1), lo, 0).value, 1, 0);
  }

  /** Writing "lo" last sets the shared byte to the high byte of 257. */
  lemma HiThenLo()
    ensures var r := Encode(Overlapping(), [("hi", Number(0)), ("lo", Number(257))]);
            r.Ok? && |r.value| == 3 && r.value[1] == 1
  {
    var z := Zeros(3);
    OverlappingFields();
    assert ScalarSet(Scalar("hi", 1), z, 0).Ok?;
    var hi := ScalarSet(Scalar("hi", 1), z, 0).value;
    assert ScalarSet(Scalar("lo", 0), hi, 257).Ok?;
    EncodeTwo(Overlapping(), ("hi", Number(0)), ("lo", Number(257)), z);
    WordParts(ScalarSet(Scalar("lo", 0), hi, 257).value, 0, 257);
  }

  /** Encoding two known pairs is encoding the first, then the second. */
  lemma EncodeTwo(c: Config, p: (string, Value), q: (string, Value), a: Arena)
    requires Lookup(c.fields, p.0).Some? && Lookup(c.fields, q.0).Some?
    requires EncodeField(c, Lookup(c.fields, p.0).value, a, p.1).Ok?
    ensures EncodeAll(c, [p, q], a) ==
              EncodeField(c, Lookup(c.fields, q.0).value, EncodeField(c, Lookup(c.fields, p.0).value, a, p.1).value, q.1)
  {
    var a1 := EncodeField(c, Lookup(c.fields, p.0).value, a, p.1).value;
    assert [p, q][1..] == [q];
    assert EncodeAll(c, [p, q], a) == EncodeAll(c, [q], a1);
    assert [q][0] == q && [q][1..] == [];
    match EncodeField(c, Lookup(c.fields, q.0).value, a1, q.1) {
      case Fail(e) =>
      case Ok(a2) => assert EncodeAll(c, [], a2) == Ok(a2);
    }
  }
}

=== FILE: results.dfy ===
/**
 The failure vocabulary of the tune-image core.  config.py raises Python
 exceptions (struct.error, IndexError, ValueError, KeyError) or returns None;
 here every such path is a `Fail` value, so each operation is a total function.
 */
module Results {

  /** Why an operation on the tune image did not complete. */
  datatype Error =
    | OutOfBounds   // a read or write runs past the end of the image
    | ValueRange    // a value does not fit the slot it is packed into, or a byte exceeds 255
    | NotListed     // `list.index` found no such element
    | BadIndex      // a stored index is past the end of the list it indexes
    | NoTable       // table metadata written while the table pointer is 0
    | OutOfSpace    // no free gap is large enough for the table being placed
    | UnknownField  // a short name that the registry does not know
    | WrongKind     // a value of the wrong kind for the field it is given to

  /** Conventional Some/None. */
  datatype Option<+T> = None | Some(value: T)

  /** Either a value or the reason there is none; usable with `:-`. */
  datatype Result<+T> = Ok(value: T) | Fail(error: Error) {

    predicate IsFailure() {
      Fail?
    }

    function PropagateFailure<U>(): Result<U>
      requires Fail?
    {
      Fail(error)
    }

    function Extract(): T
      requires Ok?
    {
      value
    }
  }

  /** Position of the first occurrence of `x` in `xs`, as Python's `list.index`. */
  function IndexOf<T(==)>(xs: seq<T>, x: T): (r: Result<nat>)
    ensures r.Ok? <==> x in xs
    ensures r.Ok? ==> r.value < |xs| && xs[r.value] == x
    ensures r.Ok? ==> forall j :: 0 <= j < r.value ==> xs[j] != x
    ensures r.Fail? ==> r.error == NotListed
  {
    if |xs| == 0 then Fail(NotListed)
    else if xs[0] == x then Ok(0)
    else
      match IndexOf(xs[1..], x)
      case Ok(k) => Ok(k + 1)
      case Fail(e) => Fail(e)
  }
}

=== FILE: tables.dfy ===
/**
 The Table field of config.py: a 2-byte pointer at a fixed offset to a
 variable-length region of the tune image laid out as

   ptr+0  interpolation mode     (1 byte)
   ptr+1  blend variable B       (1 byte, index into the variable list)
   ptr+2  blend variable C       (1 byte)
   ptr+3  padding                (1 byte)
   ptr+4  x axis: bin count (1 byte), exponent (signed byte),
          variable index (2 bytes), bins (signed words)
   then   y axis: the same shape
   then   the packed data grid, rounded up to an even number of bytes.

 A pointer of 0 means the table is absent.  Bin values and cells are raw
 stored integers: the decimal exponent is read and written but the scaling
 by `10 ** exponent` is not modelled.
 */
module Tables {
  import opened Results
  import opened Arith
  import opened Bytes
  import opened Cells
  import opened Fields

  datatype Table = Table(shortName: string, offset: nat, enc: Encoding)

  /** Axis 0 (x, the columns) and axis 1 (y, the rows). */
  datatype Axis = X | Y {
    function Rank(): nat {
      if X? then 0 else 1
    }
  }

  /** A decoded axis: `[short name, exponent, *bins]` in config.py. */
  datatype AxisValue = AxisValue(variable: VarName, exponent: int, bins: seq<int>)

  /** A decoded table: config.py's dict with keys 'interpolate',
      'interpolate-B', 'interpolate-C', 'x-axis', 'y-axis' and 'data'.
      An axis with no bins decodes to None. */
  datatype TableValue = TableValue(
    interpolate: int,
    blendB: VarName,
    blendC: VarName,
    xAxis: Option<AxisValue>,
    yAxis: Option<AxisValue>,
    data: seq<seq<int>>)

  /** Python's `n or 1`, which is also max(n, 1). */
  function Or1(n: nat): (r: nat)
    ensures r >= 1 && r >= n
    ensures n > 0 ==> r == n
  {
    if n == 0 then 1 else n
  }

  /** Python's `n or 2`: the row count of the decoded and encoded grid. */
  function Or2(n: nat): (r: nat)
    ensures r >= 1
    ensures n > 0 ==> r == n
  {
    if n == 0 then 2 else n
  }

  // ---- the region size formula (TableLen and AllocateTable) ---------------

  /** `x & -2` for x >= 0. */
  function ClearLowBit(x: nat): nat
  {
    x - x % 2
  }

  /** `int(|encoding| * cells + 1.9) & -2` with |encoding| = bits / 8, in
      integers: floor((10 * bits * cells + 152) / 80) with the low bit cleared. */
  function DataSize(bits: nat, cells: nat): nat
  {
    ClearLowBit((10 * bits * cells + 152) / 80)
  }

  /** The reserved data bytes hold every reserved cell: 8 * DataSize >= bits * cells,
      and the size is even. */
  lemma DataSizeCovers(bits: nat, cells: nat)
    ensures 8 * DataSize(bits, cells) >= bits * cells
    ensures DataSize(bits, cells) % 2 == 0
  {
    var k := bits * cells;
    var q, s := k / 8, k % 8;
    assert 10 * bits * cells == 10 * k;
    var f := (10 * k + 152) / 80;
    if s == 0 {
      DivModUnique(10 * k + 152, 80, q + 1, 72);
    } else {
      DivModUnique(10 * k + 152, 80, q + 2, 10 * s - 8);
    }
  }

  /** The byte size of a region with `w` x bins and `h` y bins: x header and
      bins, y header and bins, data.  The data reserves max(w,1) * max(h,1)
      cells (config.py:162-165 and 354-358 compute the same number). */
  function RegionSize(bits: nat, w: nat, h: nat): nat
  {
    (4 + 4 + 2 * w) + (4 + 2 * h) + DataSize(bits, Or1(w) * Or1(h))
  }

  // ---- pointer and headers ------------------------------------------------

  /** The pointer in the table's 2-byte slot, little-endian ('H'). */
  function TablePtr(t: Table, a: Arena): (r: Result<nat>)
    ensures r.Ok? <==> t.offset + 2 <= |a|
    ensures r.Ok? ==> r.value == Word(a[t.offset], a[t.offset + 1]) && r.value < 65536
  {
    GetU16(a, t.offset)
  }

  function SetTablePtr(t: Table, a: Arena, p: int): (r: Result<Arena>)
    ensures r.Ok? <==> t.offset + 2 <= |a| && 0 <= p < 65536
    ensures r.Ok? ==> TablePtr(t, r.value) == Ok(p)
    ensures r.Ok? ==> SameOutside(a, r.value, t.offset, t.offset + 2)
  {
    PutU16(a, t.offset, p)
  }

  /** Bin count of an axis; 0 when the table is absent. */
  function AxisNBins(t: Table, a: Arena, ax: Axis): (r: Result<nat>)
    ensures TablePtr(t, a) == Ok(0) ==> r == Ok(0)
    ensures TablePtr(t, a).Fail? ==> r.Fail?
    ensures r.Ok? ==> r.value < 256
    decreases ax.Rank(), 1
  {
    var p :- TablePtr(t, a);
    if p == 0 then Ok(0)
    else
      var q :- AxisPtr(t, a, ax);
      GetU8(a, q)
  }

  /** Start of an axis header: ptr + 4 for x; for y, after the x header and its
      bins. */
  function AxisPtr(t: Table, a: Arena, ax: Axis): (r: Result<nat>)
    ensures TablePtr(t, a).Fail? ==> r.Fail?
    ensures r.Ok? ==> TablePtr(t, a).Ok? && r.value >= TablePtr(t, a).value + 4
    decreases ax.Rank(), 0
  {
    var p :- TablePtr(t, a);
    if ax == Y then
      var w :- AxisNBins(t, a, X);
      Ok(p + 4 + 2 * w + 4)
    else Ok(p + 4)
  }

  /** Total byte length of the table's region; 0 when the table is absent. */
  function TableLen(t: Table, a: Arena): (r: Result<nat>)
    ensures TablePtr(t, a) == Ok(0) ==> r == Ok(0)
    ensures TablePtr(t, a).Fail? ==> r.Fail?
    ensures r.Ok? && TablePtr(t, a) != Ok(0) ==> r.value >= 12
  {
    var p :- TablePtr(t, a);
    if p == 0 then Ok(0)
    else
      var w :- AxisNBins(t, a, X);
      var h :- AxisNBins(t, a, Y);
      Ok(RegionSize(t.enc.bits, w, h))
  }

  /** The raw bins of an axis (format '%dh' after the 4-byte header). */
  function AxisBins(t: Table, a: Arena, ax: Axis): (r: Result<seq<int>>)
    ensures TablePtr(t, a) == Ok(0) ==> r == Ok([])
    ensures TablePtr(t, a).Fail? ==> r.Fail?
    ensures r.Ok? && TablePtr(t, a) != Ok(0) ==>
              AxisNBins(t, a, ax).Ok? && |r.value| == AxisNBins(t, a, ax).value
    ensures r.Ok? ==> forall k :: 0 <= k < |r.value| ==> -32768 <= r.value[k] < 32768
  {
    var p :- TablePtr(t, a);
    if p == 0 then Ok([])
    else
      var q :- AxisPtr(t, a, ax);
      var n :- AxisNBins(t, a, ax);
      GetS16Run(a, q + 4, n)
  }

  /** The signed exponent byte of an axis header ('b'); 0 when the table is absent. */
  function AxisExponent(t: Table, a: Arena, ax: Axis): (r: Result<int>)
    ensures TablePtr(t, a) == Ok(0) ==> r == Ok(0)
    ensures TablePtr(t, a).Fail? ==> r.Fail?
    ensures r.Ok? ==> -128 <= r.value < 128
  {
    var p :- TablePtr(t, a);
    if p == 0 then Ok(0)
    else
      var q :- AxisPtr(t, a, ax);
      GetS8(a, q + 1)
  }

  /** The axis variable's short name, or None for an axis with no bins. */
  function AxisShortName(t: Table, vars: seq<VarName>, a: Arena, ax: Axis): (r: Result<Option<VarName>>)
    ensures r.Ok? ==> AxisNBins(t, a, ax).Ok?
    ensures r.Ok? ==> (r.value.None? <==> AxisNBins(t, a, ax).value == 0)
  {
    var n :- AxisNBins(t, a, ax);
    if n == 0 then Ok(None)
    else
      var q :- AxisPtr(t, a, ax);
      var i :- GetU16(a, q + 2);
      if i < |vars| then Ok(Some(vars[i])) else Fail(BadIndex)
  }

  // ---- interpolation fields ----------------------------------------------

  /** The interpolation mode byte at the pointer; 0 when the table is absent. */
  function Interpolate(t: Table, a: Arena): (r: Result<nat>)
    ensures TablePtr(t, a) == Ok(0) ==> r == Ok(0)
    ensures TablePtr(t, a).Fail? ==> r.Fail?
    ensures r.Ok? ==> r.value < 256
  {
    var p :- TablePtr(t, a);
    if p == 0 then Ok(0) else GetU8(a, p)
  }

  /** Writes the interpolation mode at the pointed-to byte; fails with NoTable
      when the table is absent. */
  function SetInterpolate(t: Table, a: Arena, v: int): (r: Result<Arena>)
    ensures TablePtr(t, a) == Ok(0) ==> r == Fail(NoTable)
    ensures r.Ok? <==> TablePtr(t, a).Ok? && 0 < TablePtr(t, a).value < |a| && 0 <= v < 256
    ensures r.Ok? ==> SameOutside(a, r.value, TablePtr(t, a).value, TablePtr(t, a).value + 1)
    ensures r.Ok? ==> r.value[TablePtr(t, a).value] == v
    ensures r.Ok? && !(t.offset <= TablePtr(t, a).value < t.offset + 2) ==> Interpolate(t, r.value) == Ok(v)
  {
    var p :- TablePtr(t, a);
    if p == 0 then Fail(NoTable)
    else PutU8(a, p, v)
  }

  /** Blend variable B (`blend` = 0) or C (`blend` = 1); None when the table is
      absent (config.py returns the integer 0 there). */
  function InterpolateVar(t: Table, vars: seq<VarName>, a: Arena, blend: nat): (r: Result<Option<VarName>>)
    ensures r.Ok? ==> TablePtr(t, a).Ok?
    ensures r.Ok? ==> (r.value.None? <==> TablePtr(t, a).value == 0)
  {
    var p :- TablePtr(t, a);
    if p == 0 then Ok(None)
    else
      var i :- GetU8(a, p + 1 + blend);
      if i < |vars| then Ok(Some(vars[i])) else Fail(BadIndex)
  }

  function SetInterpolateVar(t: Table, vars: seq<VarName>, a: Arena, blend: nat, v: VarName): (r: Result<Arena>)
    ensures TablePtr(t, a) == Ok(0) ==> r == Fail(NoTable)
    ensures TablePtr(t, a).Ok? && TablePtr(t, a) != Ok(0) && v !in vars ==> r == Fail(NotListed)
    ensures r.Ok? ==> && TablePtr(t, a).Ok? && TablePtr(t, a).value != 0
                      && TablePtr(t, a).value + 1 + blend < |a| && v in vars
    ensures r.Ok? ==> SameOutside(a, r.value, TablePtr(t, a).value + 1 + blend,
                                  TablePtr(t, a).value + 2 + blend)
    ensures r.Ok? ==> r.value[TablePtr(t, a).value + 1 + blend] == IndexOf(vars, v).value
  {
    var p :- TablePtr(t, a);
    if p == 0 then Fail(NoTable)
    else
      var i :- IndexOf(vars, v);
      PutU8(a, p + 1 + blend, i)
  }

  // ---- cells ----------------------------------------------------------------

  /** The data grid starts after the interpolation bytes and both axis headers. */
  function DataStart(p: nat, w: nat, h: nat): nat
  {
    p + 12 + 2 * (w + h)
  }

  /** Bit offset of cell (r, c) from the start of the data, in a row-major grid
      of `cols` columns of `n`-bit cells. */
  function CellOffset(n: nat, r: nat, c: nat, cols: nat): nat
  {
    MulNonneg(r, cols);
    MulNonneg(n, r * cols + c);
    n * (r * cols + c)
  }

  /** A cell inside a grid of `rows` by `cols` cells ends within the grid's
      n * cols * rows bits. */
  lemma CellOffsetBound(n: nat, r: nat, c: nat, cols: nat, rows: nat)
    requires r < rows && c < cols
    ensures CellOffset(n, r, c, cols) + n <= n * (cols * rows)
  {
    var i := r * cols + c;
    MulMonotone(r, rows - 1, cols);
    assert (rows - 1) * cols == rows * cols - cols;
    MulMonotone(i + 1, rows * cols, n);
    assert n * (i + 1) == n * i + n;
    assert (rows * cols) * n == n * (cols * rows);
  }

  /** Cell (r, c) of a grid with Or1(w) columns, as a (byte, bit, width) triple. */
  function DataPtr(t: Table, a: Arena, r: nat, c: nat): (res: Result<CellAddr>)
    ensures res.Ok? <==> AxisNBins(t, a, X).Ok? && AxisNBins(t, a, Y).Ok?
    ensures res.Ok? ==>
              var p, w, h := TablePtr(t, a).value, AxisNBins(t, a, X).value, AxisNBins(t, a, Y).value;
              && res.value.bit < 8 && res.value.width == t.enc.bits
              && 8 * res.value.pos + res.value.bit == 8 * (p + 12 + 2 * (w + h)) + t.enc.bits * (r * Or1(w) + c)
  {
    var p :- TablePtr(t, a);
    var w :- AxisNBins(t, a, X);
    var h :- AxisNBins(t, a, Y);
    var n := t.enc.bits;
    Ok(Locate(DataStart(p, w, h) * 8 + CellOffset(n, r, c, Or1(w)), n))
  }

  /** The raw cell value, masked and sign-extended; 0 when the table is absent. */
  function Data(t: Table, a: Arena, r: nat, c: nat): (res: Result<int>)
    ensures TablePtr(t, a) == Ok(0) ==> res == Ok(0)
    ensures TablePtr(t, a).Fail? ==> res.Fail?
    ensures res.Ok? && !t.enc.signed ==> 0 <= res.value < Pow2(t.enc.bits)
    ensures res.Ok? && t.enc.signed && t.enc.bits > 0 ==>
              -(Pow2(t.enc.bits - 1) as int) <= res.value < Pow2(t.enc.bits - 1)
  {
    var p :- TablePtr(t, a);
    if p == 0 then Ok(0)
    else
      var addr :- DataPtr(t, a, r, c);
      ReadCell(a, addr, t.enc)
  }

  /** What a present table's cell reads, for any image: the bytes the cell
      spans as one little-endian number, shifted right by its starting bit,
      then masked and sign-extended. */
  lemma DataReads(t: Table, a: Arena, r: nat, c: nat)
    requires TablePtr(t, a).Ok? && TablePtr(t, a).value != 0 && DataPtr(t, a, r, c).Ok?
    requires var d := DataPtr(t, a, r, c).value; d.width > 0 && d.pos + Chunks(d.bit, d.width) <= |a|
    ensures var d := DataPtr(t, a, r, c).value;
            Data(t, a, r, c) == Ok(Interpret(LittleEndian(a[d.pos..d.pos + Chunks(d.bit, d.width)]) / Pow2(d.bit), t.enc))
  {
    var d := DataPtr(t, a, r, c).value;
    ReadLoopValue(a, d.pos, d.bit, d.width);
  }

  /** Writes the raw value masked to the cell width; a no-op when the table is
      absent. */
  function SetData(t: Table, a: Arena, r: nat, c: nat, v: int): (res: Result<Arena>)
    ensures TablePtr(t, a) == Ok(0) ==> res == Ok(a)
    ensures TablePtr(t, a).Fail? ==> res.Fail?
    ensures res.Ok? ==> |res.value| == |a|
  {
    var p :- TablePtr(t, a);
    if p == 0 then Ok(a)
    else
      var addr :- DataPtr(t, a, r, c);
      WriteCell(a, addr, v)
  }

  /** Writing a cell of a present table succeeds exactly when the cell lies in
      the image and the masked value fits in the bits left in the cell's first
      byte, and it touches only the bytes the cell spans. */
  lemma SetDataEffect(t: Table, a: Arena, r: nat, c: nat, v: int)
    requires TablePtr(t, a).Ok? && TablePtr(t, a).value != 0 && DataPtr(t, a, r, c).Ok?
    ensures var addr := DataPtr(t, a, r, c).value;
            SetData(t, a, r, c, v).Ok? <==>
              addr.width == 0 ||
              (addr.pos + Chunks(addr.bit, addr.width) <= |a| && v % Pow2(addr.width) < Pow2(8 - addr.bit))
    ensures var addr := DataPtr(t, a, r, c).value;
            SetData(t, a, r, c, v).Ok? ==>
              SameOutside(a, SetData(t, a, r, c, v).value, addr.pos, addr.pos + Chunks(addr.bit, addr.width))
  {
    var addr := DataPtr(t, a, r, c).value;
    var m := v % Pow2(addr.width);
    WriteLoopOk(a, addr.pos, addr.bit, addr.width, m);
    if SetData(t, a, r, c, v).Ok? {
      WriteLoopFrame(a, addr.pos, addr.bit, addr.width, m);
    }
  }

  /** A cell lies after both axis headers, at or past the start of the data. */
  lemma CellAfterHeaders(t: Table, a: Arena, r: nat, c: nat)
    requires TablePtr(t, a).Ok? && AxisNBins(t, a, X).Ok? && AxisNBins(t, a, Y).Ok?
    ensures DataPtr(t, a, r, c).Ok?
    ensures DataPtr(t, a, r, c).value.pos >=
              DataStart(TablePtr(t, a).value, AxisNBins(t, a, X).value, AxisNBins(t, a, Y).value)
  {
  }

  /** The layout of a table is read from its pointer slot and its two count
      bytes: an image that agrees with `a` there has the same cell addresses. */
  lemma LayoutKept(t: Table, a: Arena, b: Arena, r: nat, c: nat)
    requires TablePtr(t, a).Ok? && TablePtr(t, a).value != 0
    requires AxisNBins(t, a, X).Ok? && AxisNBins(t, a, Y).Ok?
    requires var p, w := TablePtr(t, a).value, AxisNBins(t, a, X).value;
             && |b| == |a|
             && b[t.offset] == a[t.offset] && b[t.offset + 1] == a[t.offset + 1]
             && b[p + 4] == a[p + 4] && b[p + 8 + 2 * w] == a[p + 8 + 2 * w]
    ensures TablePtr(t, b) == TablePtr(t, a)
    ensures AxisNBins(t, b, X) == AxisNBins(t, a, X) && AxisNBins(t, b, Y) == AxisNBins(t, a, Y)
    ensures DataPtr(t, b, r, c) == DataPtr(t, a, r, c)
  {
    var p, w := TablePtr(t, a).value, AxisNBins(t, a, X).value;
    assert AxisPtr(t, a, Y) == Ok(p + 8 + 2 * w);
    assert TablePtr(t, b) == Ok(p);
    assert AxisNBins(t, b, X) == Ok(w);
    assert AxisPtr(t, b, Y) == Ok(p + 8 + 2 * w);
  }

  /** Table-level cell round trip: when the cell's bytes do not overlap the
      table's pointer slot, reading the cell after writing it returns the value
      masked and sign-extended, i.e. the value itself when representable. */
  lemma DataOfSetData(t: Table, a: Arena, r: nat, c: nat, v: int)
    requires TablePtr(t, a).Ok? && TablePtr(t, a).value != 0 && DataPtr(t, a, r, c).Ok?
    requires var addr := DataPtr(t, a, r, c).value;
             t.offset + 2 <= addr.pos || addr.pos + Chunks(addr.bit, addr.width) <= t.offset
    requires SetData(t, a, r, c, v).Ok?
    ensures Data(t, SetData(t, a, r, c, v).value, r, c) == Ok(Interpret(v, t.enc))
    ensures Representable(v, t.enc) ==> Data(t, SetData(t, a, r, c, v).value, r, c) == Ok(v)
  {
    var p := TablePtr(t, a).value;
    var addr := DataPtr(t, a, r, c).value;
    var b := SetData(t, a, r, c, v).value;
    assert b == WriteCell(a, addr, v).value;
    SetDataEffect(t, a, r, c, v);
    CellAfterHeaders(t, a, r, c);
    LayoutKept(t, a, b, r, c);
    CellRoundTrip(a, addr, t.enc, v);
  }

  // ---- decoding ---------------------------------------------------------------

  function DecodeAxis(t: Table, vars: seq<VarName>, a: Arena, ax: Axis): (r: Result<Option<AxisValue>>)
    ensures r.Ok? ==> AxisNBins(t, a, ax).Ok?
    ensures r.Ok? ==> (r.value.None? <==> AxisNBins(t, a, ax).value == 0)
  {
    var n :- AxisNBins(t, a, ax);
    if n == 0 then Ok(None)
    else
      var name :- AxisShortName(t, vars, a, ax);
      var exp :- AxisExponent(t, a, ax);
      var bins :- AxisBins(t, a, ax);
      Ok(Some(AxisValue(name.value, exp, bins)))
  }

  /** Cells c, c+1, ... of row r up to column `cols`. */
  function DecodeRow(t: Table, a: Arena, r: nat, c: nat, cols: nat): (res: Result<seq<int>>)
    requires c <= cols
    ensures res.Ok? ==> |res.value| == cols - c
    ensures res.Ok? ==> forall j :: c <= j < cols ==> Data(t, a, r, j) == Ok(res.value[j - c])
    decreases cols - c
  {
    if c == cols then Ok([])
    else
      match Data(t, a, r, c)
      case Fail(e) => Fail(e)
      case Ok(v) =>
        match DecodeRow(t, a, r, c + 1, cols)
        case Fail(e) => Fail(e)
        case Ok(rest) =>
          var row := [v] + rest;
          assert row[0] == v && forall j :: 0 < j < |row| ==> row[j] == rest[j - 1];
          Ok(row)
  }

  /** Rows r, r+1, ... up to row `rows`, each of `cols` cells. */
  function DecodeRows(t: Table, a: Arena, r: nat, rows: nat, cols: nat): (res: Result<seq<seq<int>>>)
    requires r <= rows
    ensures res.Ok? ==> |res.value| == rows - r
    ensures res.Ok? ==> forall i :: 0 <= i < |res.value| ==> |res.value[i]| == cols
    ensures res.Ok? ==> forall i, j :: r <= i < rows && 0 <= j < cols ==>
                          Data(t, a, i, j) == Ok(res.value[i - r][j])
    decreases rows - r
  {
    if r == rows then Ok([])
    else
      match DecodeRow(t, a, r, 0, cols)
      case Fail(e) => Fail(e)
      case Ok(row) =>
        match DecodeRows(t, a, r + 1, rows, cols)
        case Fail(e) => Fail(e)
        case Ok(rest) =>
          var g := [row] + rest;
          assert g[0] == row && forall i :: 0 < i < |g| ==> g[i] == rest[i - 1];
          Ok(g)
  }

  /** The data grid: (h or 2) rows of (w or 1) cells, cell (i, j) being
      `Data(i, j)`. */
  function DecodeData(t: Table, a: Arena): (r: Result<seq<seq<int>>>)
    ensures r.Ok? ==> AxisNBins(t, a, X).Ok? && AxisNBins(t, a, Y).Ok?
    ensures r.Ok? ==>
              var w, h, g := AxisNBins(t, a, X).value, AxisNBins(t, a, Y).value, r.value;
              && |g| == Or2(h)
              && (forall i :: 0 <= i < |g| ==> |g[i]| == Or1(w))
              && (forall i, j :: 0 <= i < |g| && 0 <= j < Or1(w) ==> Data(t, a, i, j) == Ok(g[i][j]))
  {
    var w :- AxisNBins(t, a, X);
    var h :- AxisNBins(t, a, Y);
    DecodeRows(t, a, 0, Or2(h), Or1(w))
  }

  /** None exactly when the pointer is 0; otherwise both axes (None exactly when
      the axis has no bins) and the grid that DecodeData reads. */
  function TableDecode(t: Table, vars: seq<VarName>, a: Arena): (r: Result<Option<TableValue>>)
    ensures r.Ok? ==> TablePtr(t, a).Ok?
    ensures r.Ok? ==> (r.value.None? <==> TablePtr(t, a).value == 0)
    ensures r.Ok? && r.value.Some? ==>
              && AxisNBins(t, a, X).Ok? && AxisNBins(t, a, Y).Ok?
              && (r.value.value.xAxis.None? <==> AxisNBins(t, a, X).value == 0)
              && (r.value.value.yAxis.None? <==> AxisNBins(t, a, Y).value == 0)
              && DecodeData(t, a) == Ok(r.value.value.data)
  {
    var p :- TablePtr(t, a);
    if p == 0 then Ok(None)
    else
      var interp :- Interpolate(t, a);
      var b :- InterpolateVar(t, vars, a, 0);
      var c :- InterpolateVar(t, vars, a, 1);
      var x :- DecodeAxis(t, vars, a, X);
      var y :- DecodeAxis(t, vars, a, Y);
      var data :- DecodeData(t, a);
      Ok(Some(TableValue(interp, b.value, c.value, x, y, data)))
  }

  // ---- packing a fresh region (the buffer AllocateTable builds) --------------

  /** One axis header as format 'BbH%dh' packs it: bin count, exponent, variable
      index, bins.  Each field must fit its format. */
  function AxisHeader(bins: seq<int>, exp: int, idx: nat): (r: Result<seq<byte>>)
    ensures r.Ok? <==> && |bins| < 256 && -128 <= exp < 128 && idx < 65536
                       && AllWords(bins)
    ensures r.Ok? ==> |r.value| == 4 + 2 * |bins|
    ensures r.Fail? ==> r.error == ValueRange
  {
    if |bins| >= 256 || !(-128 <= exp < 128) || idx >= 65536 then Fail(ValueRange)
    else
      match S16Bytes(bins)
      case Fail(e) => Fail(e)
      case Ok(words) => Ok([|bins|, exp % 256] + WordBytes(idx) + words)
  }

  /** The whole region: four zero interpolation bytes, the x header, the y
      header, then the zeroed data bytes. */
  function Region(bits: nat, xh: seq<byte>, yh: seq<byte>, nx: nat, ny: nat): (r: seq<byte>)
    ensures |r| == 4 + |xh| + |yh| + DataSize(bits, Or1(nx) * Or1(ny))
  {
    [0, 0, 0, 0] + xh + yh + Zeros(DataSize(bits, Or1(nx) * Or1(ny)))
  }

  /** An axis header stored at `q` reads back as what was packed. */
  lemma AxisHeaderAt(a: Arena, q: nat, bins: seq<int>, exp: int, idx: nat)
    requires AxisHeader(bins, exp, idx).Ok?
    requires q + 4 + 2 * |bins| <= |a|
    requires forall k :: 0 <= k < 4 + 2 * |bins| ==> a[q + k] == AxisHeader(bins, exp, idx).value[k]
    ensures GetU8(a, q) == Ok(|bins|)
    ensures GetS8(a, q + 1) == Ok(exp)
    ensures GetU16(a, q + 2) == Ok(idx)
    ensures GetS16Run(a, q + 4, |bins|) == Ok(bins)
  {
    var h := AxisHeader(bins, exp, idx).value;
    var words := S16Bytes(bins).value;
    assert h == [|bins|, exp % 256] + WordBytes(idx) + words;
    assert a[q + 0] == h[0] && a[q + 1] == h[1] && a[q + 2] == h[2] && a[q + 3] == h[3];
    forall k | 0 <= k < 2 * |bins|
      ensures a[q + 4 + k] == words[k]
    {
      assert a[q + (4 + k)] == h[4 + k];
    }
    GetS16RunOfPacked(a, q + 4, bins, words);
  }

  /** The two headers `xh`, `yh` sit one after the other from `p + 4`: what a
      stored Region looks like to the accessors (the zeroed data bytes are not
      needed). */
  ghost predicate HeadersAt(a: Arena, p: nat, xh: seq<byte>, yh: seq<byte>)
  {
    && p + 4 + |xh| + |yh| <= |a|
    && (forall k :: 0 <= k < |xh| ==> a[p + 4 + k] == xh[k])
    && (forall k :: 0 <= k < |yh| ==> a[p + 4 + |xh| + k] == yh[k])
  }

  /** A region stored at `p` has its headers where the layout expects them. */
  lemma RegionParts(a: Arena, p: nat, bits: nat, xh: seq<byte>, yh: seq<byte>, nx: nat, ny: nat)
    requires p + |Region(bits, xh, yh, nx, ny)| <= |a|
    requires a[p..p + |Region(bits, xh, yh, nx, ny)|] == Region(bits, xh, yh, nx, ny)
    ensures a[p] == 0
    ensures HeadersAt(a, p, xh, yh)
  {
    var reg := Region(bits, xh, yh, nx, ny);
    assert a[p] == reg[0];
    forall k | 0 <= k < |xh|
      ensures a[p + 4 + k] == xh[k]
    {
      assert a[p + 4 + k] == reg[4 + k];
    }
    forall k | 0 <= k < |yh|
      ensures a[p + 4 + |xh| + k] == yh[k]
    {
      assert a[p + 4 + |xh| + k] == reg[4 + |xh| + k];
    }
  }

  /** The pointers and counts follow from the two count bytes alone. */
  lemma HeaderCounts(t: Table, a: Arena, p: nat, nx: nat, ny: nat)
    requires TablePtr(t, a) == Ok(p) && p != 0
    requires GetU8(a, p + 4) == Ok(nx) && GetU8(a, p + 8 + 2 * nx) == Ok(ny)
    ensures AxisPtr(t, a, X) == Ok(p + 4) && AxisPtr(t, a, Y) == Ok(p + 8 + 2 * nx)
    ensures AxisNBins(t, a, X) == Ok(nx) && AxisNBins(t, a, Y) == Ok(ny)
    ensures TableLen(t, a) == Ok(RegionSize(t.enc.bits, nx, ny))
  {
    assert AxisNBins(t, a, X) == Ok(nx);
    assert AxisPtr(t, a, Y) == Ok(p + 8 + 2 * nx);
  }

  /** An axis whose header fields read as given decodes to them. */
  lemma AxisFields(t: Table, vars: seq<VarName>, a: Arena, ax: Axis, q: nat,
                   bins: seq<int>, exp: int, idx: nat)
    requires TablePtr(t, a).Ok? && TablePtr(t, a).value != 0
    requires AxisPtr(t, a, ax) == Ok(q) && AxisNBins(t, a, ax) == Ok(|bins|)
    requires GetS8(a, q + 1) == Ok(exp) && GetU16(a, q + 2) == Ok(idx)
    requires GetS16Run(a, q + 4, |bins|) == Ok(bins) && idx < |vars|
    ensures AxisExponent(t, a, ax) == Ok(exp)
    ensures AxisBins(t, a, ax) == Ok(bins)
    ensures AxisShortName(t, vars, a, ax) == Ok(if |bins| == 0 then None else Some(vars[idx]))
  {
  }

  /** Layout agreement for the counts: the bin counts and the length TableLen
      measures are those of the packed region. */
  lemma RegionCounts(t: Table, a: Arena,
                     xbins: seq<int>, xexp: int, xidx: nat,
                     ybins: seq<int>, yexp: int, yidx: nat)
    requires AxisHeader(xbins, xexp, xidx).Ok? && AxisHeader(ybins, yexp, yidx).Ok?
    requires TablePtr(t, a).Ok? && TablePtr(t, a).value != 0
    requires HeadersAt(a, TablePtr(t, a).value, AxisHeader(xbins, xexp, xidx).value,
                       AxisHeader(ybins, yexp, yidx).value)
    ensures AxisPtr(t, a, X) == Ok(TablePtr(t, a).value + 4)
    ensures AxisPtr(t, a, Y) == Ok(TablePtr(t, a).value + 8 + 2 * |xbins|)
    ensures AxisNBins(t, a, X) == Ok(|xbins|) && AxisNBins(t, a, Y) == Ok(|ybins|)
    ensures TableLen(t, a) == Ok(RegionSize(t.enc.bits, |xbins|, |ybins|))
    ensures Interpolate(t, a) == Ok(a[TablePtr(t, a).value])
  {
    var p := TablePtr(t, a).value;
    var xh, yh := AxisHeader(xbins, xexp, xidx).value, AxisHeader(ybins, yexp, yidx).value;
    assert a[p + 4 + 0] == xh[0] == |xbins|;
    assert a[p + 4 + |xh| + 0] == yh[0] == |ybins|;
    HeaderCounts(t, a, p, |xbins|, |ybins|);
  }

  /** Layout agreement for the axes: exponents, bins and variable names read
      back as packed. */
  lemma RegionAxes(t: Table, vars: seq<VarName>, a: Arena,
                   xbins: seq<int>, xexp: int, xidx: nat,
                   ybins: seq<int>, yexp: int, yidx: nat)
    requires AxisHeader(xbins, xexp, xidx).Ok? && AxisHeader(ybins, yexp, yidx).Ok?
    requires xidx < |vars| && yidx < |vars|
    requires TablePtr(t, a).Ok? && TablePtr(t, a).value != 0
    requires HeadersAt(a, TablePtr(t, a).value, AxisHeader(xbins, xexp, xidx).value,
                       AxisHeader(ybins, yexp, yidx).value)
    ensures AxisExponent(t, a, X) == Ok(xexp) && AxisExponent(t, a, Y) == Ok(yexp)
    ensures AxisBins(t, a, X) == Ok(xbins) && AxisBins(t, a, Y) == Ok(ybins)
    ensures AxisShortName(t, vars, a, X) == Ok(if |xbins| == 0 then None else Some(vars[xidx]))
    ensures AxisShortName(t, vars, a, Y) == Ok(if |ybins| == 0 then None else Some(vars[yidx]))
  {
    var p := TablePtr(t, a).value;
    var xh, yh := AxisHeader(xbins, xexp, xidx).value, AxisHeader(ybins, yexp, yidx).value;
    RegionCounts(t, a, xbins, xexp, xidx, ybins, yexp, yidx);
    AxisHeaderAt(a, p + 4, xbins, xexp, xidx);
    AxisFields(t, vars, a, X, p + 4, xbins, xexp, xidx);
    AxisHeaderAt(a, p + 4 + |xh|, ybins, yexp, yidx);
    AxisFields(t, vars, a, Y, p + 4 + |xh|, ybins, yexp, yidx);
  }

  // ---- layout lemmas -----------------------------------------------------------

  /** Every cell of the reserved grid, max(w,1) columns by max(h,1) rows, lies
      inside the data part of the region that TableLen measures. */
  lemma ReservedCellInside(t: Table, a: Arena, r: nat, c: nat)
    requires TablePtr(t, a).Ok? && TablePtr(t, a).value != 0
    requires AxisNBins(t, a, X).Ok? && AxisNBins(t, a, Y).Ok?
    requires r < Or1(AxisNBins(t, a, Y).value) && c < Or1(AxisNBins(t, a, X).value)
    ensures DataPtr(t, a, r, c).Ok? && TableLen(t, a).Ok?
    ensures var p, w, h := TablePtr(t, a).value, AxisNBins(t, a, X).value, AxisNBins(t, a, Y).value;
            var addr := DataPtr(t, a, r, c).value;
            && 8 * DataStart(p, w, h) <= 8 * addr.pos + addr.bit
            && 8 * addr.pos + addr.bit + addr.width <= 8 * (p + TableLen(t, a).value)
  {
    var w, h := AxisNBins(t, a, X).value, AxisNBins(t, a, Y).value;
    var n, cols, rows := t.enc.bits, Or1(w), Or1(h);
    CellOffsetBound(n, r, c, cols, rows);
    DataSizeCovers(n, cols * rows);
  }

  /** The row-count disagreement: with no y bins the grid is decoded and encoded
      with 2 rows but only 1 row is reserved.  For a 16-bit encoding and no bins
      on either axis, cell (1, 0) starts exactly where the region ends, so
      writing it overwrites whatever follows the table. */
  lemma DegenerateRowOverrun(t: Table, a: Arena)
    requires t.enc.bits == 16
    requires TablePtr(t, a).Ok? && TablePtr(t, a).value != 0
    requires AxisNBins(t, a, X) == Ok(0) && AxisNBins(t, a, Y) == Ok(0)
    ensures TableLen(t, a) == Ok(14)
    ensures Or2(AxisNBins(t, a, Y).value) == 2
    ensures DataPtr(t, a, 1, 0) == Ok(CellAddr(TablePtr(t, a).value + 14, 0, 16))
  {
    assert DataSize(16, 1) == 2;
  }

  // ---- writing the grid (the loop of `Table.encode`) ---------------------------

  /** Cells (r, c), (r, c+1), ... up to column `cols` written from `row`; a
      missing entry is an IndexError. */
  function WriteRow(t: Table, a: Arena, row: seq<int>, r: nat, c: nat, cols: nat): (res: Result<Arena>)
    requires c <= cols
    ensures res.Ok? && c < cols ==> cols <= |row|
    decreases cols - c
  {
    if c == cols then Ok(a)
    else if c >= |row| then Fail(BadIndex)
    else
      match SetData(t, a, r, c, row[c])
      case Fail(e) => Fail(e)
      case Ok(a1) => WriteRow(t, a1, row, r, c + 1, cols)
  }

  /** Rows r, r+1, ... up to row `rows` written from `data`. */
  function WriteRows(t: Table, a: Arena, data: seq<seq<int>>, r: nat, rows: nat, cols: nat): (res: Result<Arena>)
    requires r <= rows
    ensures res.Ok? && r < rows ==> rows <= |data|
    decreases rows - r
  {
    if r == rows then Ok(a)
    else if r >= |data| then Fail(BadIndex)
    else
      match WriteRow(t, a, data[r], r, 0, cols)
      case Fail(e) => Fail(e)
      case Ok(a1) => WriteRows(t, a1, data, r + 1, rows, cols)
  }

  /** Row-major order: a cell before (r, c) in a grid of `cols` columns ends
      no later than (r, c) starts. */
  lemma CellOrder(n: nat, r0: nat, c0: nat, r: nat, c: nat, cols: nat)
    requires c0 < cols && (r0 < r || (r0 == r && c0 < c))
    ensures CellOffset(n, r0, c0, cols) + n <= CellOffset(n, r, c, cols)
  {
    var i0, i := r0 * cols + c0, r * cols + c;
    if r0 < r {
      MulMonotone(r0 + 1, r, cols);
      assert (r0 + 1) * cols == r0 * cols + cols;
    }
    assert i0 + 1 <= i;
    MulMonotone(i0 + 1, i, n);
    assert (i0 + 1) * n == n * i0 + n;
  }

  /** Writing cell (r, c) of a table whose region lies after its pointer slot
      leaves every earlier cell of the row-major grid reading as before. */
  lemma SetDataKeepsEarlier(t: Table, a: Arena, r: nat, c: nat, v: int, r0: nat, c0: nat)
    requires TablePtr(t, a).Ok? && TablePtr(t, a).value != 0 && t.offset + 2 <= TablePtr(t, a).value
    requires AxisNBins(t, a, X).Ok? && AxisNBins(t, a, Y).Ok?
    requires c0 < Or1(AxisNBins(t, a, X).value) && (r0 < r || (r0 == r && c0 < c))
    requires SetData(t, a, r, c, v).Ok? && Data(t, a, r0, c0).Ok?
    ensures Data(t, SetData(t, a, r, c, v).value, r0, c0) == Data(t, a, r0, c0)
  {
    var p, w := TablePtr(t, a).value, AxisNBins(t, a, X).value;
    var b := SetData(t, a, r, c, v).value;
    CellAfterHeaders(t, a, r, c);
    var addr, d := DataPtr(t, a, r, c).value, DataPtr(t, a, r0, c0).value;
    SetDataEffect(t, a, r, c, v);
    LayoutKept(t, a, b, r0, c0);
    CellOrder(t.enc.bits, r0, c0, r, c, Or1(w));
    assert b == WriteCell(a, addr, v).value;
    WriteKeepsEarlier(a, addr, v, d, t.enc);
  }

  /** Every cell before (r, c) in row-major order, within `cols` columns, reads
      as the matching entry of `data` masked and sign-extended. */
  ghost predicate GridHolds(t: Table, a: Arena, data: seq<seq<int>>, cols: nat, r: nat, c: nat)
  {
    forall i: nat, j: nat :: j < cols && (i < r || (i == r && j < c)) ==> CellHolds(t, a, data, i, j)
  }

  /** Cell (i, j) reads as entry (i, j) of `data` masked and sign-extended. */
  ghost predicate CellHolds(t: Table, a: Arena, data: seq<seq<int>>, i: nat, j: nat)
  {
    i < |data| && j < |data[i]| && Data(t, a, i, j) == Ok(Interpret(data[i][j], t.enc))
  }

  /** One cell of a GridHolds. */
  lemma GridAt(t: Table, a: Arena, data: seq<seq<int>>, cols: nat, r: nat, c: nat, i: nat, j: nat)
    requires GridHolds(t, a, data, cols, r, c)
    requires j < cols && (i < r || (i == r && j < c))
    ensures i < |data| && j < |data[i]| && Data(t, a, i, j) == Ok(Interpret(data[i][j], t.enc))
  {
    assert CellHolds(t, a, data, i, j);
  }

  /** A finished row is the start of the next. */
  lemma NextRow(t: Table, a: Arena, data: seq<seq<int>>, cols: nat, r: nat)
    requires GridHolds(t, a, data, cols, r, cols)
    ensures GridHolds(t, a, data, cols, r + 1, 0)
  {
    forall i: nat, j: nat | j < cols && (i < r + 1 || (i == r + 1 && j < 0))
      ensures CellHolds(t, a, data, i, j)
    {
      GridAt(t, a, data, cols, r, cols, i, j);
    }
  }

  /** `b` agrees with `a` on every byte before the data grid of the table
      whose layout `a` holds. */
  ghost predicate SameBeforeData(t: Table, a: Arena, b: Arena)
    requires TablePtr(t, a).Ok? && AxisNBins(t, a, X).Ok? && AxisNBins(t, a, Y).Ok?
  {
    var p, w, h := TablePtr(t, a).value, AxisNBins(t, a, X).value, AxisNBins(t, a, Y).value;
    |b| == |a| && forall i :: 0 <= i < |a| && i < DataStart(p, w, h) ==> b[i] == a[i]
  }

  /** Writing one cell keeps everything before the grid, hence the layout. */
  lemma SetDataKeepsLayout(t: Table, a: Arena, r: nat, c: nat, v: int)
    requires TablePtr(t, a).Ok? && TablePtr(t, a).value != 0 && t.offset + 2 <= TablePtr(t, a).value
    requires AxisNBins(t, a, X).Ok? && AxisNBins(t, a, Y).Ok?
    requires SetData(t, a, r, c, v).Ok?
    ensures SameBeforeData(t, a, SetData(t, a, r, c, v).value)
    ensures var b := SetData(t, a, r, c, v).value;
            && TablePtr(t, b) == TablePtr(t, a)
            && AxisNBins(t, b, X) == AxisNBins(t, a, X) && AxisNBins(t, b, Y) == AxisNBins(t, a, Y)
  {
    CellAfterHeaders(t, a, r, c);
    SetDataEffect(t, a, r, c, v);
    LayoutKept(t, a, SetData(t, a, r, c, v).value, r, c);
  }

  /** Writing the rest of row r keeps the layout and extends the cells that
      read back to the end of the row. */
  lemma {:induction false} WriteRowHolds(t: Table, a: Arena, data: seq<seq<int>>, r: nat, c: nat, cols: nat)
    requires TablePtr(t, a).Ok? && TablePtr(t, a).value != 0 && t.offset + 2 <= TablePtr(t, a).value
    requires AxisNBins(t, a, X).Ok? && AxisNBins(t, a, Y).Ok? && cols == Or1(AxisNBins(t, a, X).value)
    requires r < |data| && c <= cols && GridHolds(t, a, data, cols, r, c)
    requires WriteRow(t, a, data[r], r, c, cols).Ok?
    ensures SameBeforeData(t, a, WriteRow(t, a, data[r], r, c, cols).value)
    ensures var b := WriteRow(t, a, data[r], r, c, cols).value;
            && TablePtr(t, b) == TablePtr(t, a)
            && AxisNBins(t, b, X) == AxisNBins(t, a, X) && AxisNBins(t, b, Y) == AxisNBins(t, a, Y)
            && GridHolds(t, b, data, cols, r, cols)
    decreases cols - c
  {
    if c < cols {
      var v := data[r][c];
      SetDataKeepsLayout(t, a, r, c, v);
      SetDataExtends(t, a, data, r, c, cols);
      WriteRowHolds(t, SetData(t, a, r, c, v).value, data, r, c + 1, cols);
    }
  }

  /** Writing cell (r, c) from `data` extends the cells that read back by one. */
  lemma SetDataExtends(t: Table, a: Arena, data: seq<seq<int>>, r: nat, c: nat, cols: nat)
    requires TablePtr(t, a).Ok? && TablePtr(t, a).value != 0 && t.offset + 2 <= TablePtr(t, a).value
    requires AxisNBins(t, a, X).Ok? && AxisNBins(t, a, Y).Ok? && cols == Or1(AxisNBins(t, a, X).value)
    requires r < |data| && c < cols && c < |data[r]| && GridHolds(t, a, data, cols, r, c)
    requires SetData(t, a, r, c, data[r][c]).Ok?
    ensures GridHolds(t, SetData(t, a, r, c, data[r][c]).value, data, cols, r, c + 1)
  {
    var v := data[r][c];
    var a1 := SetData(t, a, r, c, v).value;
    forall i: nat, j: nat | j < cols && (i < r || (i == r && j < c + 1))
      ensures CellHolds(t, a1, data, i, j)
    {
      if i == r && j == c {
        CellAfterHeaders(t, a, r, c);
        DataOfSetData(t, a, r, c, v);
      } else {
        GridAt(t, a, data, cols, r, c, i, j);
        SetDataKeepsEarlier(t, a, r, c, v, i, j);
      }
    }
  }

  /** Writing rows r, r+1, ... keeps the layout and leaves every written cell
      reading back. */
  lemma {:induction false} WriteRowsHolds(t: Table, a: Arena, data: seq<seq<int>>, r: nat, rows: nat, cols: nat)
    requires TablePtr(t, a).Ok? && TablePtr(t, a).value != 0 && t.offset + 2 <= TablePtr(t, a).value
    requires AxisNBins(t, a, X).Ok? && AxisNBins(t, a, Y).Ok? && cols == Or1(AxisNBins(t, a, X).value)
    requires r <= rows && GridHolds(t, a, data, cols, r, 0)
    requires WriteRows(t, a, data, r, rows, cols).Ok?
    ensures SameBeforeData(t, a, WriteRows(t, a, data, r, rows, cols).value)
    ensures var b := WriteRows(t, a, data, r, rows, cols).value;
            && TablePtr(t, b) == TablePtr(t, a)
            && AxisNBins(t, b, X) == AxisNBins(t, a, X) && AxisNBins(t, b, Y) == AxisNBins(t, a, Y)
            && GridHolds(t, b, data, cols, rows, 0)
    decreases rows - r
  {
    if r < rows {
      var a1 := WriteRow(t, a, data[r], r, 0, cols).value;
      WriteRowHolds(t, a, data, r, 0, cols);
      NextRow(t, a1, data, cols, r);
      WriteRowsHolds(t, a1, data, r + 1, rows, cols);
    }
  }

  /** A row whose cells all read decodes. */
  lemma {:induction false} DecodeRowOk(t: Table, a: Arena, r: nat, c: nat, cols: nat)
    requires c <= cols && forall j: nat :: c <= j < cols ==> Data(t, a, r, j).Ok?
    ensures DecodeRow(t, a, r, c, cols).Ok?
    decreases cols - c
  {
    if c < cols {
      DecodeRowOk(t, a, r, c + 1, cols);
    }
  }

  /** Rows whose cells all read decode. */
  lemma {:induction false} DecodeRowsOk(t: Table, a: Arena, r: nat, rows: nat, cols: nat)
    requires r <= rows && forall i: nat, j: nat :: r <= i < rows && j < cols ==> Data(t, a, i, j).Ok?
    ensures DecodeRows(t, a, r, rows, cols).Ok?
    decreases rows - r
  {
    if r < rows {
      DecodeRowOk(t, a, r, 0, cols);
      DecodeRowsOk(t, a, r + 1, rows, cols);
    }
  }

  /** The first `rows` by `cols` entries of `data`, each masked and
      sign-extended to the encoding. */
  function Grid(data: seq<seq<int>>, e: Encoding, rows: nat, cols: nat): seq<seq<int>>
    requires rows <= |data| && forall i :: 0 <= i < rows ==> cols <= |data[i]|
  {
    seq(rows, i requires 0 <= i < rows => seq(cols, j requires 0 <= j < cols => Interpret(data[i][j], e)))
  }

  /** Grid round trip: after `Table.encode`'s loop writes (h or 2) rows of
      (w or 1) cells, `decode_data` returns exactly those entries of the value,
      masked and sign-extended; the bytes before the grid are untouched. */
  lemma GridRoundTrip(t: Table, a: Arena, data: seq<seq<int>>)
    requires TablePtr(t, a).Ok? && TablePtr(t, a).value != 0 && t.offset + 2 <= TablePtr(t, a).value
    requires AxisNBins(t, a, X).Ok? && AxisNBins(t, a, Y).Ok?
    requires WriteRows(t, a, data, 0, Or2(AxisNBins(t, a, Y).value), Or1(AxisNBins(t, a, X).value)).Ok?
    ensures var rows, cols := Or2(AxisNBins(t, a, Y).value), Or1(AxisNBins(t, a, X).value);
            rows <= |data| && forall i :: 0 <= i < rows ==> cols <= |data[i]|
    ensures var rows, cols := Or2(AxisNBins(t, a, Y).value), Or1(AxisNBins(t, a, X).value);
            var b := WriteRows(t, a, data, 0, rows, cols).value;
            && SameBeforeData(t, a, b)
            && DecodeData(t, b) == Ok(Grid(data, t.enc, rows, cols))
  {
    var rows, cols := Or2(AxisNBins(t, a, Y).value), Or1(AxisNBins(t, a, X).value);
    WriteRowsHolds(t, a, data, 0, rows, cols);
    GridDecodes(t, WriteRows(t, a, data, 0, rows, cols).value, data);
  }

  /** A table whose whole grid reads as `data` decodes to it. */
  lemma GridDecodes(t: Table, b: Arena, data: seq<seq<int>>)
    requires AxisNBins(t, b, X).Ok? && AxisNBins(t, b, Y).Ok?
    requires GridHolds(t, b, data, Or1(AxisNBins(t, b, X).value), Or2(AxisNBins(t, b, Y).value), 0)
    ensures var rows, cols := Or2(AxisNBins(t, b, Y).value), Or1(AxisNBins(t, b, X).value);
            rows <= |data| && forall i :: 0 <= i < rows ==> cols <= |data[i]|
    ensures var rows, cols := Or2(AxisNBins(t, b, Y).value), Or1(AxisNBins(t, b, X).value);
            DecodeData(t, b) == Ok(Grid(data, t.enc, rows, cols))
  {
    var rows, cols := Or2(AxisNBins(t, b, Y).value), Or1(AxisNBins(t, b, X).value);
    GridShape(t, b, data, rows, cols);
    DecodeRowsOk(t, b, 0, rows, cols);
    var g := DecodeData(t, b).value;
    forall i, j | 0 <= i < rows && 0 <= j < cols
      ensures g[i][j] == Interpret(data[i][j], t.enc)
    {
      GridAt(t, b, data, cols, rows, 0, i, j);
    }
    GridEqual(g, data, t.enc, rows, cols);
  }

  /** A grid that holds everywhere fits inside `data`, and every cell reads. */
  lemma GridShape(t: Table, b: Arena, data: seq<seq<int>>, rows: nat, cols: nat)
    requires rows >= 1 && cols >= 1 && GridHolds(t, b, data, cols, rows, 0)
    ensures rows <= |data| && forall i :: 0 <= i < rows ==> cols <= |data[i]|
    ensures forall i: nat, j: nat :: i < rows && j < cols ==> Data(t, b, i, j).Ok?
  {
    forall i | 0 <= i < rows
      ensures i < |data| && cols <= |data[i]|
    {
      GridAt(t, b, data, cols, rows, 0, i, cols - 1);
    }
    GridAt(t, b, data, cols, rows, 0, rows - 1, 0);
    forall i: nat, j: nat | i < rows && j < cols
      ensures Data(t, b, i, j).Ok?
    {
      GridAt(t, b, data, cols, rows, 0, i, j);
    }
  }

  /** Grid is determined by its entries. */
  lemma GridEqual(g: seq<seq<int>>, data: seq<seq<int>>, e: Encoding, rows: nat, cols: nat)
    requires rows <= |data| && forall i :: 0 <= i < rows ==> cols <= |data[i]|
    requires |g| == rows && forall i :: 0 <= i < rows ==> |g[i]| == cols
    requires forall i, j :: 0 <= i < rows && 0 <= j < cols ==> g[i][j] == Interpret(data[i][j], e)
    ensures g == Grid(data, e, rows, cols)
  {
    var want := Grid(data, e, rows, cols);
    forall i | 0 <= i < rows
      ensures g[i] == want[i]
    {
    }
  }

  /** Data already in the grid's shape, every entry representable, is its own Grid. */
  lemma GridOfRepresentable(data: seq<seq<int>>, e: Encoding, cols: nat)
    requires forall i :: 0 <= i < |data| ==> |data[i]| == cols
    requires forall i, j :: 0 <= i < |data| && 0 <= j < |data[i]| ==> Representable(data[i][j], e)
    ensures Grid(data, e, |data|, cols) == data
  {
    var g := Grid(data, e, |data|, cols);
    forall i | 0 <= i < |data|
      ensures g[i] == data[i]
    {
      forall j | 0 <= j < cols
        ensures g[i][j] == data[i][j]
      {
        InterpretFixes(data[i][j], e);
      }
    }
  }
}
